=== FILE: README.md ===
# Recoll indexing core in Dafny

This project models the core of Recoll, a desktop full-text search tool. It
covers five pieces:

- **Text splitter** (`TextSplit`, `CharClasses`, with proofs in
  `TextSplitProofs`). It cuts a UTF-8 text into indexable terms, and each
  term carries a word position and a byte range. Words are runs of letters
  and digits. Spans keep the punctuation that joins words, as in
  `jfd@okyz.com`, `o'brien`, `c++`, `-1.5` and `c#`. Every term goes to a
  callback (`takeword`), which may ask the split to stop.
- **Mail identifier** (`IdFile`). It reads the first lines of a file and
  recognises an mbox folder (`text/x-mail`) or a single message
  (`message/rfc822`) by counting lines that start with a mail header.
- **Indexing orchestrator** (`Indexer`), which does four things:
  - runs a full indexing pass: open the database, run the file-system and
    web-queue sub-indexers, purge, close, rebuild the stemming tables and the
    spelling dictionary, and report progress to an updater that can cancel;
  - indexes a list of files;
  - purges a list of files;
  - re-indexes documents returned by a query.
- **Expansion-table builder** (`ExpansionDbs`). It makes one pass over the
  index vocabulary. Each term goes into the per-language stem families, the
  per-language unaccented-stem families, and the diacritic/case family.
- **Path ordering** (`PathSort`). This is the `std::string` order and the
  `list::sort` that the orchestrator applies to path lists.

How the collaborators are modelled:

- **Text splitter.** The splitter's callback is a function of the terms
  delivered so far and the new term. So any deterministic, stateful
  consumer fits.
- **Orchestrator.** Its collaborators are a single environment: the
  database, the sub-indexers, the status updater and the spelling builder.
  The environment answers each call from the call's position in the run and
  the call itself. The model records the calls made, in order. Properties
  are stated about that call sequence and the boolean result.
- **Expansion builder.** Its term functions are uninterpreted parameters:
  prefix test, CJK test, case folding, accent stripping, and the
  spelling-candidate test.

A few behaviours of the code differ from what a reader might expect. They
are modelled as written:

- `c++` yields the span `c++` and also the word `c`.
- `three-` at a line end followed by `four` yields `three`, `three-four` and
  `four`. It does not yield a joined `threefour`.
- The unaccented-stem families are all built with the stemmer of the last
  configured language (`stemmers.back()`), whatever their own language is.
  This looks like a slip, so it is logged under Findings. The model has both
  the as-written builder and a corrected one.
- `emitterm` trims the span in place. So the span and word comparison in
  `doemit` uses the trimmed span.

## Model

| member | source | states |
|---|---|---|
| CharClasses.FillTable | src/common/textsplit.cpp:67-89 | After the fill loops, the table equals the reference classification byte for byte. Specials are their own class, even '\n' and '\r', which were set to SPACE earlier. Digits are DIGIT. Controls, blanks and separators are SPACE. Everything else is LETTER. |
| CharClasses.ClassTableBlanks | src/common/textsplit.cpp:71-80 | Controls other than '\n' and '\r' are SPACE, and so is ' '. '0'..'9' are DIGIT. '\n' and '\r' are their own class. |
| CharClasses.ClassTablePunct | src/common/textsplit.cpp:82-88 | Every separator character is SPACE. Every special character is its own class. |
| CharClasses.ClassTableLetters | src/common/textsplit.cpp:68-69 | Every other printable byte, DEL included, is LETTER. |
| CharClasses.SetCharClasses | src/common/textsplit.cpp:62-95 | The guard is set afterwards. A set guard leaves the state unchanged. Otherwise the table becomes the reference table, and the ignorable set becomes the generated set plus the iterator's error value. |
| CharClasses.SetCharClassesOnce | src/common/textsplit.cpp:64-66 | A second initialisation, with any ignorable set, changes nothing. |
| CharClasses.WhatCC | src/common/textsplit.cpp:194-204 | A code point up to 127 gets its table class. Above 127, it is SPACE exactly when ignorable, and LETTER otherwise. |
| CharClasses.WhatCCAfterInit | src/common/textsplit.cpp:92-94 | After initialisation, ASCII follows the reference table and the error value is SPACE. Above 127, a code point is SPACE exactly when it is ignorable or the error value. |
| TextSplit.WordLimit | src/common/textsplit.cpp:128 | `(unsigned)maxWordLength`: a non-negative limit is kept. A negative one wraps to at least 2^31, so no term is too long. |
| TextSplit.ByteLenBounds | src/common/textsplit.cpp:127-133 | A term's byte length is at least its character count. It is 0 only for the empty term. It is 1 exactly for a single ASCII character, which is the only case the one-character filter looks at. |
| TextSplit.TrimEnd | src/common/textsplit.cpp:108-121 | The result is the longest prefix that does not end in '.', ',', '@' or a quote. Everything cut off is such a character. The byte end moves back once per removed character and never goes below 0. |
| TextSplit.EmitTerm | src/common/textsplit.cpp:99-146 | The term is trimmed first. An empty, too long, or non-alphanumeric one-byte term is dropped: success with no state change. A repeat of the remembered term at the same position is also dropped. Any other term is delivered with its position and byte range, becomes the remembered term, and the callback's answer is the result. |
| TextSplit.DoEmit | src/common/textsplit.cpp:166-192 | At most two terms are delivered, appended to those before. On success the word is cleared and the word position goes up by one. At a span end the span is also cleared and restarts at the new word position. Query mode and the length limit are unchanged. |
| TextSplit.Apply | src/common/textsplit.cpp:231-341 | Carrying out one action only appends to the delivered terms, and keeps query mode and the length limit. Each character class's rule is stated by the `*Rule` lemmas below. The verdict is given by `TextSplitProofs.ApplyAccepted` and `TextSplitProofs.ApplyRefused`. |
| TextSplit.Step | src/common/textsplit.cpp:231-341 | One pass of the loop body, on the action chosen from the character's class, only appends to the delivered terms and keeps query mode and the length limit. It succeeds exactly when every term it delivered was accepted (`TextSplitProofs.StepAccepted`). |
| TextSplit.Run | src/common/textsplit.cpp:225-347 | Delivered terms are only ever appended. An error value in the remaining input makes the split fail. A successful split leaves both accumulators empty. |
| TextSplit.TextToWords | src/common/textsplit.cpp:212-230 | The classes are initialised first. Input holding the iterator's error value fails. Query mode and the length limit are unchanged. |
| TextSplitProofs.TrimTextOnly | src/common/textsplit.cpp:108-121 | The trimmed text does not depend on the byte end. |
| TextSplitProofs.ByteLenTrailing | src/common/textsplit.cpp:108-117 | Each trimmed character is one byte. So the byte end moves back by exactly the number of bytes removed. |
| TextSplitProofs.EmittedWellFormed | src/common/textsplit.cpp:108-145 | A term from a word or span that passed the filters has these properties. It does not end in trailing punctuation, is free of separators, and has a non-negative byte start. Its byte range is as long as its UTF-8 text. |
| TextSplitProofs.EmitTermDelivers | src/common/textsplit.cpp:127-145 | An emit delivers one term exactly when the trimmed text survives the filters and is not a repeat. The term it delivers is the trimmed text with the given position and byte range. A failure means that term was refused. |
| TextSplitProofs.EmitTermAccepted | src/common/textsplit.cpp:138-143 | An emit succeeds exactly when every term it delivered was accepted. |
| TextSplitProofs.EmitRefused | src/common/textsplit.cpp:138-142 | A failed emit delivered exactly one term, and the callback refused it. |
| TextSplitProofs.DoEmitDelivers | src/common/textsplit.cpp:174-181 | `doemit` delivers only the span's term, and also the word's term. The word's term comes only outside query mode, and only when the word's byte length differs from the trimmed span's. |
| TextSplitProofs.DoEmitSpanFirst | src/common/textsplit.cpp:174-177 | The span's term is delivered first whenever the span is emitted, survives the filters, and is not a repeat. |
| TextSplitProofs.DoEmitQuery | src/common/textsplit.cpp:174-181 | In query mode nothing is delivered until a span ends. |
| TextSplitProofs.DoEmitLeavesSpan | src/common/textsplit.cpp:174-189 | When the span goes on, it keeps its position. It is left trimmed, or untrimmed in query mode. |
| TextSplitProofs.DoEmitRefused | src/common/textsplit.cpp:174-181 | A failed `doemit` delivered at least one term, and the callback refused the last one. |
| TextSplitProofs.DoEmitAccepted | src/common/textsplit.cpp:166-192 | `doemit` succeeds exactly when the callback accepted every term it delivered. |
| TextSplitProofs.DoEmitFirstRefused | src/common/textsplit.cpp:166-192 | When `doemit` fails, it has delivered at least one term. Every term before the last was accepted, and the last was refused, so nothing is delivered after the refusal. |
| TextSplitProofs.QuoteRule | src/common/textsplit.cpp:295-304 | A quote with no word open changes nothing. |
| TextSplitProofs.HashRule | src/common/textsplit.cpp:305-316 | '#' joins the word and span only after a non-empty word and before SPACE or a line break. Anywhere else it acts as SPACE. |
| TextSplitProofs.LineBreakRule | src/common/textsplit.cpp:317-331 | A line break right after a span ending in '-' is ignored. Any other line break acts as SPACE. |
| TextSplitProofs.SignRule | src/common/textsplit.cpp:241-249 | With no word open, a sign always joins the span. It starts the word, and number mode, exactly when a digit follows. |
| TextSplitProofs.NumberPunctRule | src/common/textsplit.cpp:257-262 | In number mode '.' and ',' join both the word and the span. |
| TextSplitProofs.AlnumRule | src/common/textsplit.cpp:332-340 | Letters and digits join both accumulators and never call back. |
| TextSplitProofs.ApplyAccepted | src/common/textsplit.cpp:231-341 | Carrying out an action returns true exactly when every term it delivered was accepted. |
| TextSplitProofs.StepAccepted | src/common/textsplit.cpp:231-341 | One pass of the loop body returns true exactly when every term it delivered was accepted. |
| TextSplitProofs.RunAccepted | src/common/textsplit.cpp:225-347 | The split from any point succeeds exactly when the rest of the input has no error value and every delivered term was accepted. |
| TextSplitProofs.ApplyRefused | src/common/textsplit.cpp:231-341 | A failing action ends at the first refused term. This is the `return false` after each `doemit` in the loop body. |
| TextSplitProofs.RunRefused | src/common/textsplit.cpp:225-347 | On input with no error value ahead, a failing split delivered at least one term. All terms before the last were accepted and the last was refused: the split stops at the first refused term. |
| TextSplitProofs.RunStopsAtError | src/common/textsplit.cpp:225-230 | The split from any point up to an error value gives the same result and the same delivered terms as the split of the input cut just after that error value. Nothing after the error value is read or delivered. |
| TextSplitProofs.TextToWordsSpec | src/common/textsplit.cpp:212-348 | `text_to_words` succeeds exactly on valid input whose every term is accepted. Every delivered term is well formed. Its position lies between 0 and the final word position, and its byte end is within the input. No term repeats, in text and position, the one delivered just before it. On valid input a failure stops at the first refused term, which is the last one delivered. With an error value in the input, the result equals that of the input cut just after it, so nothing after the first error value is delivered. |
| IdFile.AllTypes | src/utils/idfile.cpp:41-47 | The identifier can return exactly the folder type, then the message type. |
| IdFile.HeaderLengthsMatch | src/utils/idfile.cpp:50-53 | The length table has one entry per header, and each entry equals the header's length. |
| IdFile.Decide | src/utils/idfile.cpp:148-154 | The answer is the folder type exactly when the file starts with an mbox "From " line and at least two header lines were counted. It is the message type exactly when there is no such line and three or more header lines. Otherwise it is empty. |
| IdFile.GetLine | src/utils/idfile.cpp:77-89 | `getline` stores at most 1022 bytes of the line, without the newline, and counts the newline when it reads one. The stored bytes are exactly the bytes at the stream position. A read that stops without a newline is at the end of the file. |
| IdFile.ScanFrom | src/utils/idfile.cpp:74-146 | The scan loop, at most 199 iterations, gives one of the three results: "", text/x-mail or message/rfc822. Its soundness is `IdFile.IdFileSound`. |
| IdFile.LineStep | src/utils/idfile.cpp:90-146 | A line longer than 800 characters stops with the empty answer, and only such a line does. An empty line keeps the counters and the line number; it ends the scan exactly when content came before it or the line number is past 10. A first "From " line sets the flag and moves to line 2. Any other line that does not start with white space and has no ':' at index 70 or less ends the scan. A line that passes adds exactly one when it starts with a known header and nothing otherwise, and the scan stops once three are counted. |
| IdFile.IdFile | src/utils/idfile.cpp:58-155 | The answer is one of the two types or empty. A file that cannot be opened gives the empty answer. |
| IdFile.IdFileSound | src/utils/idfile.cpp:58-155 | "message/rfc822" means at least three of the first 199 lines start with a known header; these are the lines 199 `getline` calls would return, which may run past the point where the scan stopped. "text/x-mail" means that, among those lines, some line starts with "From ", every line before it is empty, and at least two lines start with a header. |
| IdFile.GetLineAt | src/utils/idfile.cpp:77-91 | `getline` on a short, newline-terminated line stores the line. Its count includes the newline, and the stream moves past it. |
| IdFile.HeaderLineFacts | src/utils/idfile.cpp:121-144 | A line that starts with a known header is never ruled out by the colon test, and is never taken for an mbox "From " line. |
| IdFile.ThreeHeadersMakeMessage | src/utils/idfile.cpp:75-152 | A file whose first three lines start with known headers is a single message, whatever follows. |
| IdFile.FromLineMakesFolder | src/utils/idfile.cpp:100-152 | A "From " line, two header lines and an empty line make the file a mail folder. |
| IdFile.EmptyLineEnds | src/utils/idfile.cpp:101-106 | After a line with content, an empty line ends the scan with the counts so far. |
| PathSort.LessTotal | src/index/indexer.cpp:117 | Two different paths are always ordered one way or the other. |
| PathSort.LessTransitive | src/index/indexer.cpp:117 | The string order is transitive. |
| PathSort.Sort | src/index/indexer.cpp:117 | The sorted list is in order, and is a permutation of the input. |
| PathSort.SortedUnique | src/index/indexer.cpp:117 | Two sorted permutations of the same list are equal. So any correct sort gives the model's result. |
| Indexer.Status | src/index/indexer.cpp:82 | With no updater, a status report makes no call and succeeds. With one, it makes exactly the update call. |
| Indexer.AcceptedAppend | src/index/indexer.cpp:53-108 | A call sequence is accepted exactly when both of its parts are, each at its own position. |
| Indexer.StaleLangs | src/index/indexer.cpp:241-246 | The tables to delete are exactly those the database holds and the configuration does not list. |
| Indexer.DeleteCalls | src/index/indexer.cpp:243-246 | One delete call is made for each stale table, and no other. |
| Indexer.CreateEachAll | src/index/indexer.cpp:247-251 | When no report is refused, a table is created for every configured language, in order. |
| Indexer.CreateEachRefused | src/index/indexer.cpp:247-249 | Cancellation happens only with an updater, and the last call is the refused report. |
| Indexer.CreateEachCancel | src/index/indexer.cpp:247-251 | On cancellation, the tables created are the languages before the cancelled one. The last call is the report naming that language. |
| Indexer.CreateStemmingDatabases | src/index/indexer.cpp:228-255 | Every call of the stemming pass is a read-only open, a table delete or create, a STEMDB report or the close. Its shape, the deletions and the creations are stated by the `Stemming*` lemmas below. |
| Indexer.StemmingShape | src/index/indexer.cpp:228-255 | With no language setting, the only call is the close. Otherwise the first call is a read-only open. A run that completes ends with the close. |
| Indexer.StemmingRefused | src/index/indexer.cpp:232-249 | A failure comes from a refused open, which is then the only call, or from a refused report, which is then the last call. |
| Indexer.StemmingDeletes | src/index/indexer.cpp:239-246 | Once the database is open, a language's table is deleted exactly when the database holds it and the setting does not list it. |
| Indexer.StemmingCreatesAll | src/index/indexer.cpp:247-254 | A completed rebuild creates one table per configured language, in order. |
| Indexer.StemmingCreatesPrefix | src/index/indexer.cpp:247-251 | A cancelled rebuild has created a proper prefix of the configured languages. Its last call is the report naming the first language not created. |
| Indexer.CreateStemDbOne | src/index/indexer.cpp:257-263 | The database is opened read-only first. The result is true exactly when the open and the single table creation both succeed. |
| Indexer.CreateAspellDict | src/index/indexer.cpp:267-305 | Every call of the dictionary step is a read-only open, the checker initialisation or the dictionary build. Its result and the `noaspell` latch are stated by `Indexer.AspellOutcome` and `Indexer.AspellNoRetry`. |
| Indexer.AspellOutcome | src/index/indexer.cpp:267-305 | The build succeeds exactly when every call it made succeeded. Without spelling support, or with `noaspell` set, it makes no call. After an init or build failure the latch is set. |
| Indexer.AspellNoRetry | src/index/indexer.cpp:271-302 | After an init or build failure, every later build returns true without making any call. |
| Indexer.HeadStart | src/index/indexer.cpp:55-60 | The pass opens the database first: truncating when reset is asked, updating otherwise. |
| Indexer.HeadPurge | src/index/indexer.cpp:79-85 | The purge happens only when every indexer type ran and the open, the sub-indexers and any purge report succeeded. In that case it comes right after them. A refused purge report stops the pass before the purge. |
| Indexer.HeadReachesPurge | src/index/indexer.cpp:55-77 | The calls before the purge are the open, the file-system indexer when asked, and the queue indexer when enabled and asked. The pass gets past them exactly when all of them succeed. |
| Indexer.IndexTail | src/index/indexer.cpp:87-107 | Every call of the closing part is a status report, the close, a stemming or dictionary call, or the handler-cache clear. Its result is stated by the `Tail*` lemmas below. |
| Indexer.TailRefused | src/index/indexer.cpp:87-102 | The close is always attempted. A failure is a refused close or a refused closing report, and that refusal is the last call. |
| Indexer.TailDone | src/index/indexer.cpp:103-107 | A completed tail clears the handler cache. Its last call is the done report, or the cache clear when there is no updater. |
| Indexer.TailOk | src/index/indexer.cpp:87-107 | After the head, the pass succeeds exactly when the close is accepted and, with an updater, so are the CLOSING checks before and after the stemming pass. The first CLOSING report, the stemming result, the spelling dictionary and DONE play no part. |
| Indexer.TailCloseRefused | src/index/indexer.cpp:90-96 | A refused close returns false. The only calls are the CLOSING report, when there is an updater, and the close. |
| Indexer.TailClosingRefused | src/index/indexer.cpp:98-99 | After an accepted close, a refused CLOSING check returns false before the stemming pass. |
| Indexer.TailClosingAfterStemRefused | src/index/indexer.cpp:100-102 | A refused CLOSING check after the stemming pass returns false. The spelling dictionary, the cache clearing and DONE do not happen. |
| Indexer.IndexStart | src/index/indexer.cpp:55-60 | Every pass starts with the open in the mode the reset flag selects. |
| Indexer.IndexFails | src/index/indexer.cpp:53-108 | A failed pass stops at a refused call. That call is the last one and is one of these: the open, a sub-indexer, the purge report, the close, or a closing report. |
| Indexer.HeadOk | src/index/indexer.cpp:55-85 | The head succeeds exactly when the open, the selected sub-indexers and, for a full pass, the PURGE report are accepted. It then made exactly those calls, with the purge last for a full pass. |
| Indexer.IndexOk | src/index/indexer.cpp:53-108 | `index` returns true exactly when every checked call is accepted: the open, the sub-indexers, PURGE, the close and the two later CLOSING checks. What the stemming pass returns plays no part. |
| Indexer.IndexOpenRefused | src/index/indexer.cpp:55-60 | A refused open returns false. The open is the only call, so no status is reported. |
| Indexer.IndexCloseRefused | src/index/indexer.cpp:90-96 | After a successful head, a refused close returns false. The calls after the head are the CLOSING report and the close, and nothing follows them. |
| Indexer.IndexClosingRefused | src/index/indexer.cpp:98-99 | After a successful head and close, a refused CLOSING check returns false before the stemming pass. |
| Indexer.IndexClosingAfterStemRefused | src/index/indexer.cpp:100-102 | After a successful head and close, a CLOSING check refused after the stemming pass returns false. The spelling dictionary, the cache clearing and DONE do not happen. |
| Indexer.IndexDone | src/index/indexer.cpp:103-107 | With an updater, the pass succeeds exactly when its last call is the done report. |
| Indexer.IndexSubIndexerRefused | src/index/indexer.cpp:63-77 | A refused file-system or queue indexer ends the pass at once with false, and no further call is made. |
| Indexer.IndexPurge | src/index/indexer.cpp:79-85 | The purge is called only for a pass over every indexer type, after the sub-indexers and the purge report succeeded. A successful full pass always purges. |
| Indexer.Prepared | src/index/indexer.cpp:112-117 | The list handed to the sub-indexers is sorted and holds exactly the canonical forms of the input paths. |
| Indexer.SubIndexers | src/index/indexer.cpp:125-141 | The queue indexer runs exactly when it is enabled, the file-system indexer succeeded, and paths remain. It gets the remaining paths. The result is true exactly when every sub-indexer call succeeded. |
| Indexer.OpenRunCloseShape | src/index/indexer.cpp:119-148 | An update open comes first. If it is refused, nothing else is called. Otherwise the sub-indexers run and the close comes last. |
| Indexer.IndexFilesOpenFirst | src/index/indexer.cpp:110-152 | `indexFiles` opens for update first. After a successful open, the file-system indexer gets the sorted canonical list, and the database is closed. |
| Indexer.IndexFilesQueue | src/index/indexer.cpp:133-141 | The queue indexer is called only when enabled, after the file-system indexer succeeded, with the non-empty list it left. |
| Indexer.IndexFilesClear | src/index/indexer.cpp:143-151 | The handler cache is cleared exactly when the close succeeded, and that is always the last call. Otherwise the run ended at a refused open or a refused close. |
| Indexer.IndexFilesResult | src/index/indexer.cpp:110-152 | `indexFiles` returns true exactly when the close succeeded and every call before the cache clear succeeded. The caller's list is replaced by what the sub-indexers left only after a successful close. Otherwise it is untouched. |
| Indexer.PurgeFilesCalls | src/index/indexer.cpp:186-224 | `purgeFiles` opens for update first. After a successful open, the file-system purge gets the sorted canonical list and the close comes last. It never clears the cache. |
| Indexer.PurgeFilesQueue | src/index/indexer.cpp:207-215 | The queue purge is called only when enabled, after the file-system purge succeeded, with the non-empty list it left. |
| Indexer.PurgeFilesOk | src/index/indexer.cpp:200-224 | `purgeFiles` returns true exactly when every call it made succeeded. |
| Indexer.FilePaths | src/index/indexer.cpp:158-179 | A path is kept exactly when it comes from a file-system document (backend empty or "FS") whose URL starts with "file://". The path is the URL without that prefix. |
| Indexer.FilePathsOne | src/index/indexer.cpp:163-178 | One document adds one path, its URL without "file://", exactly when its backend is empty or "FS" and its URL starts with "file://". Otherwise it adds nothing. |
| Indexer.FilePathsAppend | src/index/indexer.cpp:158-179 | Paths are collected document by document, in document order. Several documents of one file each add their path, so duplicates are kept. |
| Indexer.UpdateDocs | src/index/indexer.cpp:156-184 | With no file-system document, nothing is called and the result is true. Otherwise the file list is indexed, starting with the update open and the file-system indexer on the sorted canonical paths. The result is then that of `indexFiles`: true exactly when its last call clears the handler cache and every call before it was accepted. |
| ExpansionDbs.SkipTo | src/rcldb/expansiondbs.cpp:84-88 | `skip_to` drops exactly the leading terms that sort before the key. |
| ExpansionDbs.SkipToMembers | src/rcldb/expansiondbs.cpp:84-89 | On a sorted vocabulary, the walk sees exactly the terms not below the key. |
| ExpansionDbs.Visited | src/rcldb/expansiondbs.cpp:83-141 | A complete walk handles every term from the key on. A walk that fails handles a prefix of them, of the failure's length. |
| ExpansionDbs.CollectMembers | src/rcldb/expansiondbs.cpp:89-140 | A family's input holds exactly what its routing rule adds for some visited term. |
| ExpansionDbs.CollectAppend | src/rcldb/expansiondbs.cpp:89-140 | Routing is term by term: the inputs for two stretches of vocabulary are the two inputs, one after the other. |
| ExpansionDbs.DiaCaseInputs | src/rcldb/expansiondbs.cpp:100-110 | On a raw index, the diacritic/case family receives exactly the visited terms that have no prefix and no CJK first character. On a stripped index it receives nothing. |
| ExpansionDbs.StemInputs | src/rcldb/expansiondbs.cpp:112-123 | A stem family receives exactly the lower-cased forms of the eligible spelling candidates. The lower-cased form is case-folded on a raw index, and the term itself on a stripped one. |
| ExpansionDbs.UnacInputs | src/rcldb/expansiondbs.cpp:125-138 | On a raw index, an unaccented-stem family receives exactly the accent-stripped folded forms of the eligible spelling candidates whose accent stripping changes something. On a stripped index it receives nothing. |
| ExpansionDbs.IneligibleAddsNothing | src/rcldb/expansiondbs.cpp:90-98 | A prefixed or CJK term contributes to no family. |
| ExpansionDbs.WalkTerms | src/rcldb/expansiondbs.cpp:89-140 | The loop hands each family exactly its routed inputs, in vocabulary order. |
| ExpansionDbs.Fill | src/rcldb/expansiondbs.cpp:121-123 | Every family member of a kind receives the same terms, appended to its own. |
| ExpansionDbs.CreateExpansionDbs | src/rcldb/expansiondbs.cpp:39-149 | The result is true exactly when the walk completes. There is one emptied stem family per language, built with that language's stemmer. On a raw index there is also one unaccented-stem family per language, built with the last language's stemmer, and a rebuilt diacritic/case family named "all". On a stripped index neither of these exists. Each family's input is its routed share of the visited terms. |
| ExpansionDbs.BuildFamilies | src/rcldb/expansiondbs.cpp:48-140 | This is what both versions share. It succeeds exactly when the walk completes. Each language gets one stem family, in order, with that language's stemmer and the routed stem inputs. On a raw index, the given emptied unaccented-stem families receive the routed unaccented inputs, and the diacritic/case family is rebuilt. On a stripped index neither is touched. |
| ExpansionDbs.UnacStemFamiliesAsWritten | src/rcldb/expansiondbs.cpp:66-72 | As written: one empty unaccented-stem family per language, named after it, but every one built with the stemmer of the last language. |
| ExpansionDbs.UnacStemmerMismatch | src/rcldb/expansiondbs.cpp:66-72 | As written, with the languages "english" and "french", the "english" unaccented-stem family is built with the French stemmer. |
| ExpansionDbs.UnacStemFamilies | src/rcldb/expansiondbs.cpp:65-72 | The corrected recreation has one emptied unaccented-stem family per language, named after it and built with that language's own stemmer. |
| ExpansionDbs.CreateExpansionDbsIntended | src/rcldb/expansiondbs.cpp:39-149 | With the correction, each language's unaccented-stem family uses the same stemmer as that language's stem family. It receives the routed unaccented inputs. The result is true exactly when the walk completes. |

## Left out

- UTF-8 decoding is left out. The splitter takes the iterator's output as a
  sequence of code points, with the error value where decoding failed. Byte
  positions use the standard UTF-8 length of each code point.
- The contents of the generated ignorable-code-point table are a parameter.
- The splitter's and the identifier's test drivers (`main`), logging and
  timing are left out.
- TextSplit.Run: states only that an error value makes the split fail. The
  converse, with acceptance, is `TextSplitProofs.RunAccepted`.
- TextSplit.Step, TextSplit.Apply: their own contracts state only that
  terms are appended and the mode is kept. The rule for each class is in
  the `TextSplitProofs.*Rule` lemmas, and the verdict in
  `TextSplitProofs.StepAccepted`, `TextSplitProofs.ApplyAccepted` and
  `TextSplitProofs.ApplyRefused`.
- Word positions are unbounded integers. A text with more than 2^31 words
  would overflow `int` in the code, and that is not modelled.
- The identifier's file opening is an optional file. A hard read error is a
  flag that makes the read at the end of the data fail.
- IdFile.ScanFrom: its own contract states only the range of results. What
  the scan decides is stated by `IdFile.IdFileSound` and the lemmas after it.
- IdFile.IdFileSound: states soundness of the two verdicts only. The
  converse is proved for the file shapes in
  `IdFile.ThreeHeadersMakeMessage` and `IdFile.FromLineMakesFolder`, not for
  every file.
- The `lnum > 10` test on empty lines is kept as written. The line number
  only advances past lines with content, so the test never decides anything.
- The orchestrator's constructor and destructor are left out. So are
  `setKeyDir`, `getStemmerNames` (a plain delegation) and the logging.
- The code checks that `new` returned a non-null sub-indexer. The model takes
  allocation as successful.
- The `indexstemminglanguages` setting is given already split into words.
  Its parsing (`stringToStrings`) is not part of this model.
- Indexer: the `ixType` value `IxTAll` is taken to be the file-system and
  queue flags together, because the header defining it is not part of this
  model.
- Indexer.CreateStemmingDatabases, Indexer.CreateAspellDict,
  Indexer.IndexTail: their own contracts state only which calls they make.
  Their behaviour is stated by the `Stemming*`, `Aspell*` and `Tail*` lemmas.
- The return values of `deleteStemDb`, `createStemDb` and the final `close`
  in `createStemmingDatabases` are ignored by the code. The model records
  these calls and ignores their answers too.
- Xapian, the stemmers, the spelling checker and the accent stripper are not
  modelled. They appear only through the answers they give.
- How a synonym family turns an added term into an entry (`addSynonym`) is
  not part of this model. A family is modelled as the list of terms handed
  to it after it was emptied.
- ExpansionDbs.CreateExpansionDbs: an error raised while the vocabulary is
  walked is modelled at term granularity. Terms before the failing one are
  fully handled, and none after it is. An exception thrown part-way through
  one term's additions is not modelled. Errors raised while a family is
  emptied, before the walk's `try`, are not modelled either.
- The compile-time `RCL_INDEX_STRIPCHARS` build and the run-time
  `o_index_stripchars` setting are the one `strip` flag. Both skip the
  unaccented-stem and diacritic/case families.
- The skip key `wrap_prefix("Z")` is a parameter.

## Findings

| source | as written | input that shows it | evidently intended | confidence | as-written member | corrected member |
|---|---|---|---|---|---|---|
| src/rcldb/expansiondbs.cpp:66-72 | every unaccented-stem family `langs[i]` is constructed with `stemmers.back()`, the last language's stemmer | languages ["english", "french"]: the "english" unaccented-stem family stems with the French stemmer | each family uses `stemmers[i]`, the stemmer of its own language. Line 65 says the stemmer objects are reused, which points to the per-language ones | medium; not executed | ExpansionDbs.UnacStemmerMismatch | ExpansionDbs.CreateExpansionDbsIntended |

=== FILE: charclasses.dfy ===
/**
 * Character classification used by the text splitter.
 *
 * Bytes 0..127 are classified through a 256-slot table that is filled once,
 * behind an `init` guard; code points above 127 are SPACE when they belong
 * to the set of ignorable code points and LETTER otherwise.  The contents of
 * the ignorable set come from a generated Unicode property table and are a
 * parameter here.
 */
module CharClasses {

  /** An `unsigned int` code point as delivered by the UTF-8 iterator. */
  type CodePoint = c: int | 0 <= c <= 0xFFFF_FFFF

  /** The iterator's error value, `(unsigned int)-1`. */
  const INVALID: CodePoint := 0xFFFF_FFFF

  /**
   * LETTER, SPACE and DIGIT are the three main groups; a few characters are
   * their own class (`Self`) because the splitter handles them specially.
   */
  datatype CharClass = Letter | Space | Digit | Self(ch: char)

  /** The class table always has one slot per byte value. */
  type Table = t: seq<CharClass> | |t| == 256 witness seq(256, _ => Letter)

  /** The process-wide classification state: the guard, the table, the ignorable set. */
  datatype ClassState = ClassState(init: bool, table: Table, ignorable: set<CodePoint>)

  /** Before the first call the static table is zero-filled (class 0) and the set is empty. */
  function Initial(): ClassState
  {
    ClassState(false, seq(256, _ => Self(0 as char)), {})
  }

  const Digits: string := "0123456789"
  const BlankSpace: string := ['\t', 11 as char, 12 as char, ' ']
  const Separators: string := "!\"$%&()/<=>[\\]^{|}~:;*`?"
  const Specials: string := ".@+-,#'\n\r"

  /** Reference classification of one byte, stated class by class. */
  function ByteClass(b: int): CharClass
    requires 0 <= b < 256
  {
    if b as char in Specials then Self(b as char)
    else if '0' as int <= b <= '9' as int then Digit
    else if b < 32 || b == ' ' as int || b as char in Separators then Space
    else Letter
  }

  /** The table `setcharclasses` leaves behind. */
  function BuildTable(): Table
  {
    seq(256, b requires 0 <= b < 256 => ByteClass(b))
  }

  /**
   * The loops of `setcharclasses`: everything LETTER, then the controls below
   * ' ' SPACE, the digits DIGIT, the blanks and the separator punctuation
   * SPACE, and finally each special character its own class (which overrides
   * the SPACE given earlier to '\n' and '\r').
   */
  method FillTable() returns (t: Table)
    ensures t == BuildTable()
  {
    t := seq(256, _ => Letter);
    var i := 0;
    while i < 32
      invariant 0 <= i <= 32
      invariant forall b | 0 <= b < 256 :: t[b] == (if b < i then Space else Letter)
    {
      t := t[i := Space];
      i := i + 1;
    }
    t := FillLoop(t, Digits, Digit);
    t := FillLoop(t, BlankSpace, Space);
    t := FillLoop(t, Separators, Space);
    var before := t;
    var k := 0;
    while k < |Specials|
      invariant 0 <= k <= |Specials|
      invariant forall b | 0 <= b < 256 ::
        t[b] == (if b as char in Specials[..k] then Self(b as char) else before[b])
    {
      t := t[Specials[k] as int := Self(Specials[k])];
      assert Specials[..k + 1] == Specials[..k] + [Specials[k]];
      k := k + 1;
    }
    assert Specials[..k] == Specials;
    forall b | 0 <= b < 256
      ensures t[b] == ByteClass(b)
    {
      FillStepsAt(b);
    }
  }

  /** The stages of the fill, composed at one byte, give the reference class. */
  lemma FillStepsAt(b: int)
    requires 0 <= b < 256
    ensures ByteClass(b) ==
      if b as char in Specials then Self(b as char)
      else if b as char in Separators then Space
      else if b as char in BlankSpace then Space
      else if b as char in Digits then Digit
      else if b < 32 then Space
      else Letter
  {
    assert b as char in Digits <==> '0' as int <= b <= '9' as int;
    assert b as char in BlankSpace <==> b == 9 || b == 11 || b == 12 || b == 32;
  }

  /** One fill loop: every byte listed in `chars` gets class `cls`. */
  method FillLoop(before: Table, chars: string, cls: CharClass) returns (t: Table)
    requires forall k | 0 <= k < |chars| :: chars[k] as int < 256
    ensures forall b | 0 <= b < 256 :: t[b] == (if b as char in chars then cls else before[b])
  {
    t := before;
    var k := 0;
    while k < |chars|
      invariant 0 <= k <= |chars|
      invariant forall b | 0 <= b < 256 :: t[b] == (if b as char in chars[..k] then cls else before[b])
    {
      t := t[chars[k] as int := cls];
      assert chars[..k + 1] == chars[..k] + [chars[k]];
      k := k + 1;
    }
    assert chars[..k] == chars;
  }

  /** The class-table facts for controls, blanks and digits. */
  lemma ClassTableBlanks()
    ensures forall b | 0 <= b < 32 && b != 10 && b != 13 :: BuildTable()[b] == Space
    ensures forall b | '0' as int <= b <= '9' as int :: BuildTable()[b] == Digit
    ensures BuildTable()[' ' as int] == Space
    ensures BuildTable()['\n' as int] == Self('\n') && BuildTable()['\r' as int] == Self('\r')
  {
  }

  /** The class-table facts for punctuation: separators are SPACE, specials their own class. */
  lemma ClassTablePunct()
    ensures forall k | 0 <= k < |Separators| :: BuildTable()[Separators[k] as int] == Space
    ensures forall k | 0 <= k < |Specials| :: BuildTable()[Specials[k] as int] == Self(Specials[k])
  {
    forall k | 0 <= k < |Separators|
      ensures BuildTable()[Separators[k] as int] == Space
    {
      assert Separators[k] as int < 256;
      assert Separators[k] !in Specials;
    }
    forall k | 0 <= k < |Specials|
      ensures BuildTable()[Specials[k] as int] == Self(Specials[k])
    {
      assert Specials[k] as int < 256;
    }
  }

  /** Every other byte from '!' up, DEL included, is LETTER. */
  lemma ClassTableLetters()
    ensures forall b | 0 <= b < 256 && 32 < b && b as char !in Separators && b as char !in Specials
              && !('0' as int <= b <= '9' as int) :: BuildTable()[b] == Letter
    ensures BuildTable()[127] == Letter
  {
  }

  /**
   * `setcharclasses`: does nothing once the guard is set; otherwise fills the
   * table and the ignorable set (which always receives `(unsigned int)-1`).
   */
  function SetCharClasses(cs: ClassState, uniign: set<CodePoint>): (r: ClassState)
    ensures r.init
    ensures cs.init ==> r == cs
    ensures !cs.init ==> r.table == BuildTable() && r.ignorable == uniign + {INVALID}
  {
    if cs.init then cs
    else ClassState(true, BuildTable(), uniign + {INVALID})
  }

  /** The guard makes the initialisation happen once: later calls change nothing. */
  lemma SetCharClassesOnce(cs: ClassState, u1: set<CodePoint>, u2: set<CodePoint>)
    ensures SetCharClasses(SetCharClasses(cs, u1), u2) == SetCharClasses(cs, u1)
  {
  }

  /** The class of a code point: the table below 128, the ignorable set above. */
  function WhatCC(cs: ClassState, c: CodePoint): (r: CharClass)
    ensures c > 127 ==> (r == Space <==> c in cs.ignorable)
    ensures c > 127 && r != Space ==> r == Letter
    ensures c <= 127 ==> r == cs.table[c]
  {
    if c <= 127 then cs.table[c]
    else if c in cs.ignorable then Space
    else Letter
  }

  /** A state whose guard is set holds the filled table and knows the error value. */
  predicate Reachable(cs: ClassState)
  {
    cs.init ==> cs.table == BuildTable() && INVALID in cs.ignorable
  }

  /**
   * After initialisation from any reachable state, ASCII follows the reference
   * table, the iterator's error value is SPACE, and other code points are
   * SPACE exactly when ignorable.
   */
  lemma WhatCCAfterInit(cs: ClassState, uniign: set<CodePoint>, c: CodePoint)
    requires Reachable(cs)
    ensures var r := SetCharClasses(cs, uniign);
      && (c <= 127 ==> WhatCC(r, c) == ByteClass(c))
      && WhatCC(r, INVALID) == Space
      && (!cs.init && c > 127 ==> (WhatCC(r, c) == Space <==> c in uniign || c == INVALID))
  {
  }

  predicate IsAlnumClass(cls: CharClass)
  {
    cls == Letter || cls == Digit
  }
}

=== FILE: expansiondbs.dfy ===
/**
 * The builder of the query-expansion tables: one pass over the index
 * vocabulary that routes each term into synonym families — a stem family
 * per language, an unaccented-stem family per language and the single
 * diacritic/case family.
 *
 * The term-handling functions (prefix test, CJK test of the first code
 * point, case folding, accent stripping, the spelling-candidate test) are
 * uninterpreted.  A family is modelled by what this file decides about it:
 * its kind, its member name, the transform it is built with, and the terms
 * handed to it, in order, after it was recreated (emptied).  How a family
 * turns a term into a synonym entry is not part of this model.
 */
module ExpansionDbs {
  import PathSort

  datatype FamilyKind = StemFam | StemUnacFam | DiaCaseFam

  /** The term transform a family member is constructed with. */
  datatype Transform = StemWith(lang: string) | UnacFold

  datatype Family = Family(kind: FamilyKind, member: string, trans: Transform, inputs: seq<string>)

  /** The diacritic/case family is either rebuilt or left as it was. */
  datatype Rebuild = Untouched | Rebuilt(family: Family)

  /** The term-handling functions the builder calls. */
  datatype Terms = Terms(
    hasPrefix: string -> bool,
    firstIsCJK: string -> bool,
    fold: string -> string,
    unac: string -> string,
    isSpellingCandidate: string -> bool)

  /** How the walk ends: normally, or with an error raised after `k` terms were handled. */
  datatype Walk = Complete | FailsAt(k: nat)

  datatype Outcome = Outcome(ok: bool, stems: seq<Family>, unacStems: seq<Family>, diaCase: Rebuild)

  // ---------------------------------------------------------------------------
  // The walk over the vocabulary

  /**
   * `skip_to(key)` on the term iterator: drop the leading terms that sort
   * before `key`.
   */
  function SkipTo(vocab: seq<string>, key: string): (r: seq<string>)
    ensures |r| <= |vocab| && r == vocab[|vocab| - |r|..]
    ensures forall k | 0 <= k < |vocab| - |r| :: PathSort.Less(vocab[k], key)
    ensures |r| > 0 ==> !PathSort.Less(r[0], key)
  {
    if |vocab| == 0 then []
    else if PathSort.Less(vocab[0], key) then SkipTo(vocab[1..], key)
    else vocab
  }

  /** On the sorted vocabulary, the skip keeps exactly the terms that do not sort before `key`. */
  lemma SkipToMembers(vocab: seq<string>, key: string, t: string)
    requires PathSort.Sorted(vocab)
    ensures t in SkipTo(vocab, key) <==> t in vocab && !PathSort.Less(t, key)
  {
    var r := SkipTo(vocab, key);
    var d := |vocab| - |r|;
    if t in r {
      var j :| 0 <= j < |r| && r[j] == t;
      assert r[0] == vocab[d] && r[j] == vocab[d + j];
      if j > 0 {
        PathSort.NotLessTransitive(key, r[0], t);
      }
    }
    if t in vocab && !PathSort.Less(t, key) {
      var k :| 0 <= k < |vocab| && vocab[k] == t;
      assert k >= d;
      assert r[k - d] == t;
    }
  }

  /** The terms the walk handles: all the kept ones, or those before the error. */
  function Visited(vocab: seq<string>, key: string, walk: Walk): (r: seq<string>)
    ensures var s := SkipTo(vocab, key);
      && |r| <= |s| && r == s[..|r|]
      && (walk.Complete? ==> r == s)
      && (walk.FailsAt? ==> |r| == if walk.k < |s| then walk.k else |s|)
  {
    var s := SkipTo(vocab, key);
    match walk
    case Complete => s
    case FailsAt(k) => if k < |s| then s[..k] else s
  }

  // ---------------------------------------------------------------------------
  // Routing of one term

  /** Neither a prefixed term nor one whose first code point is CJK. */
  predicate Eligible(x: Terms, t: string)
  {
    !x.hasPrefix(t) && !x.firstIsCJK(t)
  }

  /** The stem input: the case-folded term on a raw index, the term itself on a stripped one. */
  function Lower(x: Terms, strip: bool, t: string): string
  {
    if strip then t else x.fold(t)
  }

  /**
   * What one term hands to every family of a kind (nothing, or one string):
   * the diacritic/case family gets every eligible term of a raw index; the
   * stem families the stem input of an eligible spelling candidate; the
   * unaccented-stem families, on a raw index, the unaccented stem input of
   * such a term when unaccenting changes it.
   */
  function Added(x: Terms, strip: bool, kind: FamilyKind, t: string): (r: seq<string>)
    ensures |r| <= 1
  {
    match kind
    case DiaCaseFam =>
      if !strip && Eligible(x, t) then [t] else []
    case StemFam =>
      if Eligible(x, t) && x.isSpellingCandidate(t) then [Lower(x, strip, t)] else []
    case StemUnacFam =>
      var lower := Lower(x, strip, t);
      if !strip && Eligible(x, t) && x.isSpellingCandidate(t) && x.unac(lower) != lower
      then [x.unac(lower)] else []
  }

  /** The terms handed to the families of a kind over a walk, in order. */
  function Collect(x: Terms, strip: bool, kind: FamilyKind, s: seq<string>): (r: seq<string>)
    ensures |r| <= |s|
    decreases |s|
  {
    if |s| == 0 then []
    else Collect(x, strip, kind, s[..|s| - 1]) + Added(x, strip, kind, s[|s| - 1])
  }

  /** The walk is compositional: walking two runs of terms hands over the two results in order. */
  lemma {:induction false} CollectAppend(x: Terms, strip: bool, kind: FamilyKind, a: seq<string>, b: seq<string>)
    ensures Collect(x, strip, kind, a + b) == Collect(x, strip, kind, a) + Collect(x, strip, kind, b)
    decreases |b|
  {
    if |b| == 0 {
      assert a + b == a;
    } else {
      var b' := b[..|b| - 1];
      assert (a + b)[..|a + b| - 1] == a + b';
      assert (a + b)[|a + b| - 1] == b[|b| - 1];
      CollectAppend(x, strip, kind, a, b');
    }
  }

  /** A string reaches the families of a kind exactly when some walked term hands it over. */
  lemma {:induction false} CollectMembers(x: Terms, strip: bool, kind: FamilyKind, s: seq<string>, y: string)
    ensures y in Collect(x, strip, kind, s) <==> exists t | t in s :: y in Added(x, strip, kind, t)
    decreases |s|
  {
    if |s| > 0 {
      var init, last := s[..|s| - 1], s[|s| - 1];
      CollectMembers(x, strip, kind, init, y);
      assert Collect(x, strip, kind, s) == Collect(x, strip, kind, init) + Added(x, strip, kind, last);
      if y in Collect(x, strip, kind, s) {
        if y in Collect(x, strip, kind, init) {
          var t :| t in init && y in Added(x, strip, kind, t);
          var i :| 0 <= i < |init| && init[i] == t;
          assert s[i] == t;
        } else {
          assert y in Added(x, strip, kind, last);
        }
      }
      if exists t | t in s :: y in Added(x, strip, kind, t) {
        var t :| t in s && y in Added(x, strip, kind, t);
        if t != last {
          var i :| 0 <= i < |s| && s[i] == t;
          assert init[i] == t;
        }
      }
    }
  }

  /**
   * On a raw index the diacritic/case family receives exactly the walked
   * terms that are neither prefixed nor CJK, whether or not they are
   * spelling candidates; on a stripped index it receives nothing.
   */
  lemma DiaCaseInputs(x: Terms, strip: bool, s: seq<string>, y: string)
    ensures y in Collect(x, strip, DiaCaseFam, s) <==> !strip && y in s && Eligible(x, y)
  {
    CollectMembers(x, strip, DiaCaseFam, s, y);
  }

  /**
   * The stem families receive exactly the stem inputs of the walked
   * spelling candidates that are neither prefixed nor CJK.
   */
  lemma StemInputs(x: Terms, strip: bool, s: seq<string>, y: string)
    ensures y in Collect(x, strip, StemFam, s) <==>
      exists t | t in s :: Eligible(x, t) && x.isSpellingCandidate(t) && y == Lower(x, strip, t)
  {
    CollectMembers(x, strip, StemFam, s, y);
  }

  /**
   * The unaccented-stem families receive, on a raw index only, the
   * unaccented form of the folded term of such a spelling candidate, and
   * only when it differs from the folded term.
   */
  lemma UnacInputs(x: Terms, strip: bool, s: seq<string>, y: string)
    ensures y in Collect(x, strip, StemUnacFam, s) <==>
      exists t | t in s :: && !strip && Eligible(x, t) && x.isSpellingCandidate(t)
                           && y == x.unac(x.fold(t)) && y != x.fold(t)
  {
    CollectMembers(x, strip, StemUnacFam, s, y);
  }

  /** A prefixed or CJK term hands nothing to any family: removing it from the walk changes nothing. */
  lemma IneligibleAddsNothing(x: Terms, strip: bool, kind: FamilyKind, a: seq<string>, t: string, b: seq<string>)
    requires !Eligible(x, t)
    ensures Collect(x, strip, kind, a + [t] + b) == Collect(x, strip, kind, a + b)
  {
    var at := a + [t];
    assert Added(x, strip, kind, t) == [];
    assert Collect(x, strip, kind, at) == Collect(x, strip, kind, a) by {
      assert at[..|at| - 1] == a && at[|at| - 1] == t;
    }
    CollectAppend(x, strip, kind, at, b);
    CollectAppend(x, strip, kind, a, b);
  }

  /** One more walked term appends what it hands over. */
  lemma CollectStep(x: Terms, strip: bool, kind: FamilyKind, s: seq<string>, n: nat)
    requires n < |s|
    ensures Collect(x, strip, kind, s[..n + 1]) == Collect(x, strip, kind, s[..n]) + Added(x, strip, kind, s[n])
  {
    assert s[..n + 1][..n] == s[..n];
  }

  // ---------------------------------------------------------------------------
  // `createExpansionDbs`

  /**
   * The unaccented-stem families as the code recreates them: one per
   * language, named after it, but each built with the stemmer of the LAST
   * language (`stemmers.back()`).
   */
  function UnacStemFamiliesAsWritten(langs: seq<string>): (r: seq<Family>)
    ensures |r| == |langs|
    ensures forall j | 0 <= j < |langs| ::
      && r[j].kind == StemUnacFam && r[j].member == langs[j] && r[j].inputs == []
      && r[j].trans == StemWith(langs[|langs| - 1])
  {
    seq(|langs|, j requires 0 <= j < |langs| => Family(StemUnacFam, langs[j], StemWith(langs[|langs| - 1]), []))
  }

  /** With two languages, the first one's unaccented family is built with the second one's stemmer. */
  lemma UnacStemmerMismatch()
    ensures var r := UnacStemFamiliesAsWritten(["english", "french"]);
      r[0].member == "english" && r[0].trans == StemWith("french") && r[0].trans != StemWith(r[0].member)
  {
    var r := UnacStemFamiliesAsWritten(["english", "french"]);
    assert r[0].trans == StemWith("french");
    assert "english" != "french" by {
      assert "english"[0] != "french"[0];
    }
  }

  /** The unaccented-stem families as evidently intended: each built with its own language's stemmer. */
  function UnacStemFamilies(langs: seq<string>): (r: seq<Family>)
    ensures |r| == |langs|
    ensures forall j | 0 <= j < |langs| ::
      && r[j].kind == StemUnacFam && r[j].member == langs[j] && r[j].inputs == []
      && r[j].trans == StemWith(r[j].member)
  {
    seq(|langs|, j requires 0 <= j < |langs| => Family(StemUnacFam, langs[j], StemWith(langs[j]), []))
  }

  /**
   * `createExpansionDbs`, as written: recreate one stem family per
   * language, in order; on a raw index, the unaccented-stem families (each
   * built with the last language's stemmer) and the diacritic/case family;
   * then walk the terms from the skip key on and route each one.  The result
   * is false exactly when the walk raised an error; what was added before
   * the error stays.
   */
  method CreateExpansionDbs(x: Terms, strip: bool, langs: seq<string>, vocab: seq<string>, key: string, walk: Walk)
    returns (r: Outcome)
    ensures r.ok <==> walk.Complete?
    ensures var s := Visited(vocab, key, walk);
      && |r.stems| == |langs|
      && forall i | 0 <= i < |langs| ::
           r.stems[i] == Family(StemFam, langs[i], StemWith(langs[i]), Collect(x, strip, StemFam, s))
    ensures strip ==> r.unacStems == [] && r.diaCase == Untouched
    ensures var s := Visited(vocab, key, walk);
      !strip ==>
        && |r.unacStems| == |langs|
        && (forall i | 0 <= i < |langs| ::
              r.unacStems[i] == Family(StemUnacFam, langs[i], StemWith(langs[|langs| - 1]), Collect(x, strip, StemUnacFam, s)))
        && r.diaCase == Rebuilt(Family(DiaCaseFam, "all", UnacFold, Collect(x, strip, DiaCaseFam, s)))
  {
    r := BuildFamilies(x, strip, langs, UnacStemFamiliesAsWritten(langs), vocab, key, walk);
  }

  /**
   * `createExpansionDbs` with the unaccented-stem families built as
   * evidently intended: the unaccented family of a language uses the same
   * stemmer as that language's stem family.
   */
  method CreateExpansionDbsIntended(x: Terms, strip: bool, langs: seq<string>, vocab: seq<string>, key: string, walk: Walk)
    returns (r: Outcome)
    ensures r.ok <==> walk.Complete?
    ensures |r.stems| == |langs| && forall i | 0 <= i < |langs| :: r.stems[i].member == langs[i]
    ensures strip ==> r.unacStems == [] && r.diaCase == Untouched
    ensures !strip ==>
      && |r.unacStems| == |langs|
      && forall i | 0 <= i < |langs| ::
           && r.unacStems[i].member == langs[i]
           && r.unacStems[i].trans == r.stems[i].trans == StemWith(langs[i])
           && r.unacStems[i].inputs == Collect(x, strip, StemUnacFam, Visited(vocab, key, walk))
  {
    r := BuildFamilies(x, strip, langs, UnacStemFamilies(langs), vocab, key, walk);
  }

  /**
   * What both versions share: recreate the stem families, one per language
   * in order; on a raw index take the given emptied unaccented-stem families
   * and recreate the diacritic/case family; walk the terms; fill.
   */
  method BuildFamilies(x: Terms, strip: bool, langs: seq<string>, unacEmpty: seq<Family>,
                       vocab: seq<string>, key: string, walk: Walk)
    returns (r: Outcome)
    ensures r.ok <==> walk.Complete?
    ensures var s := Visited(vocab, key, walk);
      && |r.stems| == |langs|
      && forall i | 0 <= i < |langs| ::
           r.stems[i] == Family(StemFam, langs[i], StemWith(langs[i]), Collect(x, strip, StemFam, s))
    ensures strip ==> r.unacStems == [] && r.diaCase == Untouched
    ensures var s := Visited(vocab, key, walk);
      !strip ==>
        && r.unacStems == Fill(unacEmpty, Collect(x, strip, StemUnacFam, s))
        && r.diaCase == Rebuilt(Family(DiaCaseFam, "all", UnacFold, Collect(x, strip, DiaCaseFam, s)))
  {
    var stems: seq<Family> := [];
    var i := 0;
    while i < |langs|
      invariant 0 <= i <= |langs| && |stems| == i
      invariant forall j | 0 <= j < i :: stems[j] == Family(StemFam, langs[j], StemWith(langs[j]), [])
    {
      stems := stems + [Family(StemFam, langs[i], StemWith(langs[i]), [])];
      i := i + 1;
    }
    var unacStems := if strip then [] else unacEmpty;
    var dia, stem, unac := WalkTerms(x, strip, Visited(vocab, key, walk));
    stems := Fill(stems, stem);
    unacStems := Fill(unacStems, unac);
    var diaCase := if strip then Untouched else Rebuilt(Family(DiaCaseFam, "all", UnacFold, dia));
    r := Outcome(walk.Complete?, stems, unacStems, diaCase);
  }

  /**
   * The loop over the terms: skip prefixed and CJK terms; on a raw index
   * fold the term and hand it to the diacritic/case family; skip terms that
   * are not spelling candidates; hand the stem input to the stem families
   * and, on a raw index, its unaccented form to the unaccented-stem
   * families when it differs.
   */
  method WalkTerms(x: Terms, strip: bool, s: seq<string>) returns (dia: seq<string>, stem: seq<string>, unac: seq<string>)
    ensures dia == Collect(x, strip, DiaCaseFam, s)
    ensures stem == Collect(x, strip, StemFam, s)
    ensures unac == Collect(x, strip, StemUnacFam, s)
  {
    dia, stem, unac := [], [], [];
    var n := 0;
    while n < |s|
      invariant 0 <= n <= |s|
      invariant dia == Collect(x, strip, DiaCaseFam, s[..n])
      invariant stem == Collect(x, strip, StemFam, s[..n])
      invariant unac == Collect(x, strip, StemUnacFam, s[..n])
    {
      var t := s[n];
      CollectStep(x, strip, DiaCaseFam, s, n);
      CollectStep(x, strip, StemFam, s, n);
      CollectStep(x, strip, StemUnacFam, s, n);
      if !x.hasPrefix(t) && !x.firstIsCJK(t) {
        var lower := t;
        if !strip {
          lower := x.fold(t);
          dia := dia + [t];
        }
        if x.isSpellingCandidate(t) {
          stem := stem + [lower];
          if !strip {
            var u := x.unac(lower);
            if u != lower {
              unac := unac + [u];
            }
          }
        }
      }
      n := n + 1;
    }
    assert s[..n] == s;
  }

  /** Every family of a list receives the same terms. */
  function Fill(fams: seq<Family>, inputs: seq<string>): (r: seq<Family>)
    ensures |r| == |fams|
    ensures forall i | 0 <= i < |fams| ::
      r[i] == Family(fams[i].kind, fams[i].member, fams[i].trans, fams[i].inputs + inputs)
  {
    seq(|fams|, i requires 0 <= i < |fams| =>
      Family(fams[i].kind, fams[i].member, fams[i].trans, fams[i].inputs + inputs))
  }
}

=== FILE: idfile.dfy ===
/**
 * Identification of mail files by content: mbox folders ("text/x-mail")
 * and single messages ("message/rfc822"), which generic MIME identifiers
 * handle badly.  The file is read line by line with a fixed-size buffer;
 * a few header-looking lines near the top decide.
 */
module IdFile {

  type Byte = b: int | 0 <= b < 256

  /** The two types this identifier can return. */
  const MailFolder: string := "text/x-mail"
  const MailMessage: string := "message/rfc822"

  /** The list `idFileAllTypes` returns. */
  function AllTypes(): (r: seq<string>)
    ensures |r| == 2 && r[0] == MailFolder && r[1] == MailMessage
  {
    [MailFolder, MailMessage]
  }

  /** Header prefixes compared against the start of each line, and their lengths. */
  const MailHeaders: seq<string> :=
    ["From: ", "Received: ", "Message-Id: ", "To: ", "Date: ", "Subject: ", "Status: ", "In-Reply-To: "]
  const MailHeaderLengths: seq<nat> := [6, 10, 12, 4, 6, 9, 8, 13]

  /** Header lines needed to decide. */
  const WantNHead: nat := 3
  /** The loop makes at most this many `getline` calls. */
  const MaxReads: nat := 199
  /** `getline` is given a count of 1023, so it stores at most 1022 characters. */
  const LineCap: nat := 1022
  /** A line longer than this rules the file out. */
  const MaxLineLength: nat := 800
  /** The colon of a header line may sit at most this far into the line. */
  const MaxColonIndex: nat := 70
  const NL: Byte := 10

  /** The length table agrees with the header strings. */
  lemma HeaderLengthsMatch()
    ensures |MailHeaders| == |MailHeaderLengths| == 8
    ensures forall i | 0 <= i < 8 :: |MailHeaders[i]| == MailHeaderLengths[i]
  {
  }

  /** The file's content as the stream delivers it; `readError` makes the read at the end fail hard. */
  datatype File = File(bytes: seq<Byte>, readError: bool)

  datatype Option<T> = None | Some(value: T)

  /**
   * The outcome of one `getline`: a hard error (badbit), a failure (nothing
   * extracted at end of file, or the buffer filled without reaching a
   * newline), or the stored characters with the extracted count (`gcount`,
   * which includes the newline when one was consumed) and the next position.
   */
  datatype Read = Bad | Failed | Got(stored: seq<Byte>, gcount: nat, next: nat)

  /** Characters before the first newline, at most `cap` of them. */
  function TakeLine(s: seq<Byte>, cap: nat): (r: nat)
    ensures r <= |s| && r <= cap
    ensures forall k | 0 <= k < r :: s[k] != NL
    ensures r < |s| && r < cap ==> s[r] == NL
  {
    if |s| == 0 || cap == 0 || s[0] == NL then 0
    else 1 + TakeLine(s[1..], cap - 1)
  }

  /** `getline(cline, 1023)` at byte offset `pos`. */
  function GetLine(f: File, pos: nat): (r: Read)
    requires pos <= |f.bytes|
    ensures r.Got? ==> pos < r.next <= |f.bytes| && |r.stored| <= LineCap
    ensures r.Got? ==> pos + |r.stored| <= |f.bytes| && r.stored == f.bytes[pos..pos + |r.stored|] && NL !in r.stored
    ensures r.Got? ==> r.gcount == r.next - pos && r.gcount - |r.stored| in {0, 1}
    ensures r.Got? && r.gcount == |r.stored| ==> r.next == |f.bytes|
  {
    var rest := f.bytes[pos..];
    var m := TakeLine(rest, LineCap);
    if m == |rest| then
      if f.readError then Bad
      else if m == 0 then Failed
      else Got(rest[..m], m, pos + m)
    else if rest[m] == NL then Got(rest[..m], m + 1, pos + m + 1)
    else Failed
  }

  /** The C-string view of a buffer: everything before the first NUL. */
  function CStr(s: seq<Byte>): (r: seq<Byte>)
    ensures r <= s && 0 !in r
    ensures |r| < |s| ==> s[|r|] == 0
  {
    if |s| == 0 || s[0] == 0 then [] else [s[0]] + CStr(s[1..])
  }

  /** `isspace` in the C locale. */
  predicate IsSpace(b: int)
  {
    b == 32 || 9 <= b <= 13
  }

  /** `tolower` in the C locale: ASCII letters only. */
  function Lower(b: int): int
  {
    if 'A' as int <= b <= 'Z' as int then b + 32 else b
  }

  /** `!strncmp(p, s, |p|)` for a prefix without NUL: `s` starts with `p`. */
  predicate StartsWith(s: seq<Byte>, p: string)
  {
    |p| <= |s| && forall k | 0 <= k < |p| :: s[k] == p[k] as int
  }

  /** `!strncasecmp(p, s, |p|)`: `s` starts with `p`, ignoring ASCII case. */
  predicate StartsWithNoCase(s: seq<Byte>, p: string)
  {
    |p| <= |s| && forall k | 0 <= k < |p| :: Lower(s[k]) == Lower(p[k] as int)
  }

  /** The line starts with one of the known mail headers. */
  predicate IsHeaderLine(s: seq<Byte>)
  {
    exists i | 0 <= i < |MailHeaders| :: StartsWithNoCase(s, MailHeaders[i])
  }

  /** Index of the first ':' (`strchr`), or the length when there is none. */
  function ColonIndex(s: seq<Byte>): (r: nat)
    ensures r <= |s|
    ensures r < |s| ==> s[r] == ':' as int
    ensures forall k | 0 <= k < r :: s[k] != ':' as int
  {
    if |s| == 0 then 0
    else if s[0] == ':' as int then 0
    else 1 + ColonIndex(s[1..])
  }

  /**
   * The quick negative: a line that does not start with white space must
   * hold a ':' within its first 71 characters.
   */
  predicate RulesOut(s: seq<Byte>)
  {
    !IsSpace(if |s| > 0 then s[0] else 0) && (ColonIndex(s) == |s| || ColonIndex(s) > MaxColonIndex)
  }

  /** The counters of the scan. */
  datatype Scan = Scan(line1HasFrom: bool, gotNonEmpty: bool, looksLikeMail: nat)

  /** The decision after the loop: the mbox "From " line counts as one more header. */
  function Decide(st: Scan): (r: string)
    ensures r in {"", MailFolder, MailMessage}
    ensures r == MailFolder <==> st.line1HasFrom && st.looksLikeMail + 1 >= WantNHead
    ensures r == MailMessage <==> !st.line1HasFrom && st.looksLikeMail >= WantNHead
  {
    var n := st.looksLikeMail + (if st.line1HasFrom then 1 else 0);
    if n >= WantNHead then (if st.line1HasFrom then MailFolder else MailMessage)
    else ""
  }

  /**
   * What one pass of the loop body does with a line that was read: return ""
   * at once (`Halt`), leave the loop (`Done`), or go on with the next line
   * number and counters (`Go`).
   */
  datatype Next = Halt | Done(st: Scan) | Go(lnum: nat, st: Scan)

  /**
   * The loop body for the buffer `cline` and extracted count `gcount`.
   * Leading empty lines do not advance the line number; the first other
   * empty line ends the headers.
   */
  function LineStep(cline: seq<Byte>, gcount: nat, lnum: nat, st: Scan): (r: Next)
    requires |cline| <= gcount <= |cline| + 1
    ensures !r.Halt? ==> r.st.looksLikeMail <= st.looksLikeMail + (if IsHeaderLine(CStr(cline)) then 1 else 0)
    ensures !r.Halt? && r.st.line1HasFrom != st.line1HasFrom ==>
              r.Go? && lnum == 1 && StartsWith(CStr(cline), "From ")
    ensures r.Go? ==> (r.lnum == lnum && gcount <= 1) || r.lnum == lnum + 1
    ensures r.Halt? <==> gcount - 1 > MaxLineLength
    // An empty line: the end of the headers, unless nothing came before it
    // (and the line number is still at most 10); the counters stay as they are.
    ensures gcount <= 1 ==> !r.Halt? && r.st == st && (r.Done? <==> st.gotNonEmpty || lnum > 10) && (r.Go? ==> r.lnum == lnum)
    // The mbox "From " line as the first line with content.
    ensures 1 <= gcount - 1 <= MaxLineLength && lnum == 1 && StartsWith(CStr(cline), "From ") ==>
              r == Go(2, st.(line1HasFrom := true, gotNonEmpty := true))
    // Any other line not starting with white space must hold a ':' at index 70 at most.
    ensures (1 <= gcount - 1 <= MaxLineLength && !(lnum == 1 && StartsWith(CStr(cline), "From "))
             && RulesOut(CStr(cline))) ==> r == Done(st.(gotNonEmpty := true))
    // A line that passes counts one header exactly when it starts with one, and three end the loop.
    ensures (1 <= gcount - 1 <= MaxLineLength && !(lnum == 1 && StartsWith(CStr(cline), "From "))
             && !RulesOut(CStr(cline))) ==>
              && !r.Halt? && r.st.line1HasFrom == st.line1HasFrom && r.st.gotNonEmpty
              && r.st.looksLikeMail == st.looksLikeMail + (if IsHeaderLine(CStr(cline)) then 1 else 0)
              && (r.Done? <==> r.st.looksLikeMail >= WantNHead)
              && (r.Go? ==> r.lnum == lnum + 1)
    ensures st.looksLikeMail < WantNHead && r.Go? ==> r.st.looksLikeMail < WantNHead
  {
    var ll := gcount - 1;
    var st := st.(gotNonEmpty := st.gotNonEmpty || ll > 0);
    var s := CStr(cline);
    if ll <= 0 then
      if st.gotNonEmpty || lnum > 10 then Done(st)
      else Go(lnum, st)
    else if ll > MaxLineLength then Halt
    else if lnum == 1 && StartsWith(s, "From ") then
      Go(lnum + 1, st.(line1HasFrom := true))
    else if RulesOut(s) then Done(st)
    else
      var st := st.(looksLikeMail := st.looksLikeMail + (if IsHeaderLine(s) then 1 else 0));
      if st.looksLikeMail >= WantNHead then Done(st)
      else Go(lnum + 1, st)
  }

  /** The loop from iteration `loop` (1-based) with line number `lnum`, the stream at `pos`. */
  function ScanFrom(f: File, pos: nat, loop: nat, lnum: nat, st: Scan): (r: string)
    requires pos <= |f.bytes| && 1 <= loop
    ensures r in {"", MailFolder, MailMessage}
    decreases 200 - loop
  {
    if loop >= 200 then Decide(st)
    else
      match GetLine(f, pos)
      case Bad => ""
      case Failed => Decide(st)
      case Got(cline, gcount, next) =>
        match LineStep(cline, gcount, lnum, st)
        case Halt => ""
        case Done(st') => Decide(st')
        case Go(lnum', st') => ScanFrom(f, next, loop + 1, lnum', st')
  }

  /** `idFile`: an empty string when the file cannot be opened (`None`) or is not mail. */
  function IdFile(file: Option<File>): (r: string)
    ensures r in {"", MailFolder, MailMessage}
    ensures file.None? ==> r == ""
  {
    match file
    case None => ""
    case Some(f) => ScanFrom(f, 0, 1, 1, Scan(false, false, 0))
  }

  // ---------------------------------------------------------------------------
  // What the answer says about the file

  /** The buffers successive `getline` calls fill from `pos`, at most `n`, up to the first failure. */
  function LinesFrom(f: File, pos: nat, n: nat): seq<seq<Byte>>
    requires pos <= |f.bytes|
    decreases n
  {
    if n == 0 then []
    else match GetLine(f, pos)
      case Got(cline, _, next) => [cline] + LinesFrom(f, next, n - 1)
      case _ => []
  }

  /** How many of the lines start with a known mail header. */
  function CountHeaders(ls: seq<seq<Byte>>): nat
  {
    if |ls| == 0 then 0
    else (if IsHeaderLine(CStr(ls[0])) then 1 else 0) + CountHeaders(ls[1..])
  }

  /** Some line starts with the mbox "From " and every line before it is empty. */
  predicate FromFirst(ls: seq<seq<Byte>>)
  {
    exists j | 0 <= j < |ls| :: StartsWith(CStr(ls[j]), "From ") && forall k | 0 <= k < j :: |ls[k]| == 0
  }

  lemma FromFirstCons(x: seq<Byte>, ls: seq<seq<Byte>>)
    requires |x| == 0 && FromFirst(ls)
    ensures FromFirst([x] + ls)
  {
    var j :| 0 <= j < |ls| && StartsWith(CStr(ls[j]), "From ") && forall k | 0 <= k < j :: |ls[k]| == 0;
    assert ([x] + ls)[j + 1] == ls[j];
    forall k | 0 <= k < j + 1
      ensures |([x] + ls)[k]| == 0
    {
      if k > 0 {
        assert ([x] + ls)[k] == ls[k - 1];
      }
    }
  }

  /** The lines ahead of the scan at iteration `loop`. */
  function Ahead(f: File, pos: nat, loop: nat): seq<seq<Byte>>
    requires pos <= |f.bytes|
  {
    LinesFrom(f, pos, if loop < 200 then 200 - loop else 0)
  }

  /** One line read: the lines ahead are that line followed by the lines ahead of the next iteration. */
  lemma AheadGot(f: File, pos: nat, loop: nat)
    requires pos <= |f.bytes| && loop < 200 && GetLine(f, pos).Got?
    ensures var g := GetLine(f, pos);
      && Ahead(f, pos, loop) == [g.stored] + Ahead(f, g.next, loop + 1)
      && CountHeaders(Ahead(f, pos, loop))
         == (if IsHeaderLine(CStr(g.stored)) then 1 else 0) + CountHeaders(Ahead(f, g.next, loop + 1))
  {
    var g := GetLine(f, pos);
    var ls := [g.stored] + Ahead(f, g.next, loop + 1);
    assert ls[1..] == Ahead(f, g.next, loop + 1);
  }

  /** A "message/rfc822" verdict from any point is backed by header lines still ahead. */
  lemma {:induction false} ScanMessageSound(f: File, pos: nat, loop: nat, lnum: nat, st: Scan)
    requires pos <= |f.bytes| && 1 <= loop
    requires ScanFrom(f, pos, loop, lnum, st) == MailMessage
    ensures st.looksLikeMail + CountHeaders(Ahead(f, pos, loop)) >= WantNHead
    decreases 200 - loop
  {
    if loop < 200 && GetLine(f, pos).Got? {
      var g := GetLine(f, pos);
      AheadGot(f, pos, loop);
      var n := LineStep(g.stored, g.gcount, lnum, st);
      if n.Go? {
        ScanMessageSound(f, g.next, loop + 1, n.lnum, n.st);
      }
    }
  }

  /** A "text/x-mail" verdict from any point is backed by header lines still ahead. */
  lemma {:induction false} ScanFolderSound(f: File, pos: nat, loop: nat, lnum: nat, st: Scan)
    requires pos <= |f.bytes| && 1 <= loop && 1 <= lnum
    requires ScanFrom(f, pos, loop, lnum, st) == MailFolder
    ensures st.looksLikeMail + CountHeaders(Ahead(f, pos, loop)) + 1 >= WantNHead
    ensures st.line1HasFrom || (lnum == 1 && FromFirst(Ahead(f, pos, loop)))
    decreases 200 - loop
  {
    if loop < 200 && GetLine(f, pos).Got? {
      var g := GetLine(f, pos);
      AheadGot(f, pos, loop);
      var n := LineStep(g.stored, g.gcount, lnum, st);
      var ahead := Ahead(f, g.next, loop + 1);
      if n.Go? {
        ScanFolderSound(f, g.next, loop + 1, n.lnum, n.st);
        if !st.line1HasFrom && lnum == 1 {
          if n.st.line1HasFrom {
            assert ([g.stored] + ahead)[0] == g.stored;
          } else {
            FromFirstCons(g.stored, ahead);
          }
        }
      }
    }
  }

  /**
   * Soundness of `idFile`: "message/rfc822" means at least three of the
   * first 199 lines start with a mail header; "text/x-mail" means the first
   * line with content starts with the mbox "From " and at least two lines
   * start with a mail header.
   */
  lemma IdFileSound(f: File)
    ensures var r := IdFile(Some(f));
      var ls := LinesFrom(f, 0, MaxReads);
      && (r == MailMessage ==> CountHeaders(ls) >= WantNHead)
      && (r == MailFolder ==> CountHeaders(ls) + 1 >= WantNHead && FromFirst(ls))
  {
    var st := Scan(false, false, 0);
    if IdFile(Some(f)) == MailMessage {
      ScanMessageSound(f, 0, 1, 1, st);
    }
    if IdFile(Some(f)) == MailFolder {
      ScanFolderSound(f, 0, 1, 1, st);
    }
  }

  // ---------------------------------------------------------------------------
  // Files the identifier recognises

  /** A line as written in a file: no newline, no NUL, short enough to be looked at. */
  predicate PlainLine(x: seq<Byte>)
  {
    1 <= |x| <= MaxLineLength && NL !in x && 0 !in x
  }

  lemma CStrPlain(x: seq<Byte>)
    requires 0 !in x
    ensures CStr(x) == x
  {
  }

  /** `getline` at the start of a newline-terminated plain line returns that line. */
  lemma GetLineAt(f: File, pos: nat, x: seq<Byte>)
    requires PlainLine(x) && pos + |x| < |f.bytes| && f.bytes[pos..pos + |x| + 1] == x + [NL]
    ensures GetLine(f, pos) == Got(x, |x| + 1, pos + |x| + 1)
  {
    var rest := f.bytes[pos..];
    assert rest[..|x| + 1] == x + [NL];
    var m := TakeLine(rest, LineCap);
    assert rest[|x|] == NL;
    assert rest[..m] == x;
  }

  /** Every known header is a capitalised name followed by ": "; only "From: " starts with 'F'. */
  lemma HeaderShape(i: int)
    requires 0 <= i < |MailHeaders|
    ensures var h := MailHeaders[i];
      && 4 <= |h| <= 13 && h[|h| - 2] == ':' && 'A' <= h[0] <= 'Z'
      && (h[0] == 'F' ==> 5 <= |h| && h[4] == ':')
  {
  }

  /** A mail header line is never ruled out and is not an mbox "From " line. */
  lemma HeaderLineFacts(x: seq<Byte>)
    requires IsHeaderLine(x)
    ensures !RulesOut(x) && !StartsWith(x, "From ")
  {
    var i :| 0 <= i < |MailHeaders| && StartsWithNoCase(x, MailHeaders[i]);
    HeaderShape(i);
    HeaderColon(x, MailHeaders[i]);
    HeaderNotFrom(x, MailHeaders[i]);
  }

  lemma HeaderColon(x: seq<Byte>, h: string)
    requires StartsWithNoCase(x, h) && 4 <= |h| <= 13 && h[|h| - 2] == ':' && 'A' <= h[0] <= 'Z'
    ensures !RulesOut(x)
  {
    assert Lower(x[|h| - 2]) == Lower(h[|h| - 2] as int);
    assert x[|h| - 2] == ':' as int;
    assert ColonIndex(x) <= |h| - 2;
    assert Lower(x[0]) == Lower(h[0] as int);
  }

  lemma HeaderNotFrom(x: seq<Byte>, h: string)
    requires StartsWithNoCase(x, h) && 4 <= |h| && 'A' <= h[0] <= 'Z' && (h[0] == 'F' ==> 5 <= |h| && h[4] == ':')
    ensures !StartsWith(x, "From ")
  {
    assert Lower(x[0]) == Lower(h[0] as int);
    if x[0] == 'F' as int && 5 <= |h| {
      assert Lower(x[4]) == Lower(h[4] as int);
    }
  }

  /** A plain header line past the first counts one more header, ending the loop at three. */
  lemma HeaderStep(x: seq<Byte>, lnum: nat, st: Scan)
    requires PlainLine(x) && IsHeaderLine(x)
    ensures var st' := st.(gotNonEmpty := true, looksLikeMail := st.looksLikeMail + 1);
      LineStep(x, |x| + 1, lnum, st) == if st'.looksLikeMail >= WantNHead then Done(st') else Go(lnum + 1, st')
  {
    CStrPlain(x);
    HeaderLineFacts(x);
  }

  /** The scan over a plain line that starts with a header, when that is not yet the third. */
  lemma ScanHeaderAt(f: File, pos: nat, loop: nat, lnum: nat, st: Scan, x: seq<Byte>, next: nat)
    requires PlainLine(x) && IsHeaderLine(x) && 1 <= loop < 199 && next == pos + |x| + 1
    requires next <= |f.bytes| && f.bytes[pos..next] == x + [NL]
    requires st.looksLikeMail + 1 < WantNHead
    ensures ScanFrom(f, pos, loop, lnum, st)
         == ScanFrom(f, next, loop + 1, lnum + 1, st.(gotNonEmpty := true, looksLikeMail := st.looksLikeMail + 1))
  {
    var st' := st.(gotNonEmpty := true, looksLikeMail := st.looksLikeMail + 1);
    GetLineAt(f, pos, x);
    HeaderStep(x, lnum, st);
    ScanGo(f, pos, loop, lnum, st, x, |x| + 1, next, lnum + 1, st');
  }

  /** A pass that goes on continues the scan at the next line. */
  lemma ScanGo(f: File, pos: nat, loop: nat, lnum: nat, st: Scan,
               cline: seq<Byte>, gcount: nat, next: nat, lnum': nat, st': Scan)
    requires pos <= |f.bytes| && 1 <= loop < 200 && GetLine(f, pos) == Got(cline, gcount, next)
    requires LineStep(cline, gcount, lnum, st) == Go(lnum', st')
    ensures ScanFrom(f, pos, loop, lnum, st) == ScanFrom(f, next, loop + 1, lnum', st')
  {
  }

  /** The scan over a plain line that starts with the third header. */
  lemma ScanThirdHeaderAt(f: File, pos: nat, loop: nat, lnum: nat, st: Scan, x: seq<Byte>, next: nat)
    requires PlainLine(x) && IsHeaderLine(x) && 1 <= loop < 199 && next == pos + |x| + 1
    requires next <= |f.bytes| && f.bytes[pos..next] == x + [NL]
    requires st.looksLikeMail + 1 == WantNHead
    ensures ScanFrom(f, pos, loop, lnum, st) == Decide(st.(gotNonEmpty := true, looksLikeMail := WantNHead))
  {
    GetLineAt(f, pos, x);
    HeaderStep(x, lnum, st);
  }

  /** Three header lines at the top of a file make it a single message, whatever follows. */
  lemma ThreeHeadersMakeMessage(a: seq<Byte>, b: seq<Byte>, c: seq<Byte>, rest: seq<Byte>, readError: bool)
    requires PlainLine(a) && PlainLine(b) && PlainLine(c)
    requires IsHeaderLine(a) && IsHeaderLine(b) && IsHeaderLine(c)
    ensures IdFile(Some(File(a + [NL] + b + [NL] + c + [NL] + rest, readError))) == MailMessage
  {
    var bytes := a + [NL] + b + [NL] + c + [NL] + rest;
    var p1 := |a| + 1;
    var p2 := p1 + |b| + 1;
    var p3 := p2 + |c| + 1;
    assert bytes[..p1] == a + [NL];
    assert bytes[p1..p2] == b + [NL];
    assert bytes[p2..p3] == c + [NL];
    ThreeHeadersAt(File(bytes, readError), a, b, c, p1, p2, p3);
  }

  lemma ThreeHeadersAt(f: File, a: seq<Byte>, b: seq<Byte>, c: seq<Byte>, p1: nat, p2: nat, p3: nat)
    requires PlainLine(a) && PlainLine(b) && PlainLine(c)
    requires IsHeaderLine(a) && IsHeaderLine(b) && IsHeaderLine(c)
    requires p1 == |a| + 1 && p2 == p1 + |b| + 1 && p3 == p2 + |c| + 1 && p3 <= |f.bytes|
    requires f.bytes[..p1] == a + [NL] && f.bytes[p1..p2] == b + [NL] && f.bytes[p2..p3] == c + [NL]
    ensures IdFile(Some(f)) == MailMessage
  {
    ScanHeaderAt(f, 0, 1, 1, Scan(false, false, 0), a, p1);
    ScanHeaderAt(f, p1, 2, 2, Scan(false, true, 1), b, p2);
    ScanThirdHeaderAt(f, p2, 3, 3, Scan(false, true, 2), c, p3);
    assert Decide(Scan(false, true, WantNHead)) == MailMessage;
  }

  /**
   * An mbox "From " line followed by two header lines and the empty line that
   * ends the headers make the file a mail folder.
   */
  lemma FromLineMakesFolder(a: seq<Byte>, b: seq<Byte>, c: seq<Byte>, rest: seq<Byte>, readError: bool)
    requires PlainLine(a) && PlainLine(b) && PlainLine(c)
    requires StartsWith(a, "From ") && IsHeaderLine(b) && IsHeaderLine(c)
    ensures IdFile(Some(File(a + [NL] + b + [NL] + c + [NL] + [NL] + rest, readError))) == MailFolder
  {
    var bytes := a + [NL] + b + [NL] + c + [NL] + [NL] + rest;
    var p1 := |a| + 1;
    var p2 := p1 + |b| + 1;
    var p3 := p2 + |c| + 1;
    assert bytes[..p1] == a + [NL];
    assert bytes[p1..p2] == b + [NL];
    assert bytes[p2..p3] == c + [NL];
    assert bytes[p3] == NL;
    FolderAt(File(bytes, readError), a, b, c, p1, p2, p3);
  }

  lemma FolderAt(f: File, a: seq<Byte>, b: seq<Byte>, c: seq<Byte>, p1: nat, p2: nat, p3: nat)
    requires PlainLine(a) && PlainLine(b) && PlainLine(c)
    requires StartsWith(a, "From ") && IsHeaderLine(b) && IsHeaderLine(c)
    requires p1 == |a| + 1 && p2 == p1 + |b| + 1 && p3 == p2 + |c| + 1 && p3 < |f.bytes|
    requires f.bytes[..p1] == a + [NL] && f.bytes[p1..p2] == b + [NL] && f.bytes[p2..p3] == c + [NL]
    requires f.bytes[p3] == NL
    ensures IdFile(Some(f)) == MailFolder
  {
    assert f.bytes[0..p1] == f.bytes[..p1];
    GetLineAt(f, 0, a);
    FromLineStep(a);
    ScanGo(f, 0, 1, 1, Scan(false, false, 0), a, p1, p1, 2, Scan(true, true, 0));
    ScanHeaderAt(f, p1, 2, 2, Scan(true, true, 0), b, p2);
    ScanHeaderAt(f, p2, 3, 3, Scan(true, true, 1), c, p3);
    EmptyLineEnds(f, p3, 4, 4, Scan(true, true, 2));
    assert Decide(Scan(true, true, 2)) == MailFolder;
  }

  /** An mbox "From " line first in the file sets the flag and moves to line 2. */
  lemma FromLineStep(a: seq<Byte>)
    requires PlainLine(a) && StartsWith(a, "From ")
    ensures LineStep(a, |a| + 1, 1, Scan(false, false, 0)) == Go(2, Scan(true, true, 0))
  {
    CStrPlain(a);
  }

  /** After a line with content, an empty line ends the loop. */
  lemma EmptyLineEnds(f: File, pos: nat, loop: nat, lnum: nat, st: Scan)
    requires pos < |f.bytes| && f.bytes[pos] == NL && 1 <= loop < 200 && st.gotNonEmpty
    ensures ScanFrom(f, pos, loop, lnum, st) == Decide(st)
  {
    assert TakeLine(f.bytes[pos..], LineCap) == 0;
  }
}

=== FILE: indexer.dfy ===
/**
 * The indexing orchestrator: opens the index database, runs the file-system
 * and web-queue sub-indexers, purges, closes, rebuilds the stemming
 * expansion tables and the spelling dictionary, and reports progress to an
 * optional status updater that may ask for cancellation.
 *
 * Every collaborator (database, sub-indexers, updater, spelling checker) is
 * a call.  A stage is given the number of calls made before it and returns
 * its outcome with the calls it made itself, in order; the environment
 * answers each call as a function of its position and of the call.  The
 * orchestrator being deterministic, this gives the same runs as answers that
 * depend on the whole history.
 */
module Indexer {
  import PathSort

  datatype Option<T> = None | Some(value: T)

  datatype OpenMode = DbTrunc | DbUpd | DbRO

  /** The status phases the orchestrator reports. */
  datatype Phase = PurgePhase | ClosingPhase | StemDbPhase | DonePhase

  /** One call to a collaborator. */
  datatype Call =
    | Open(mode: OpenMode)
    | FsIndex
    | QueueIndex
    | FsIndexFiles(files: seq<string>, flag: int)
    | QueueIndexFiles(files: seq<string>)
    | FsPurgeFiles(files: seq<string>)
    | QueuePurgeFiles(files: seq<string>)
    | Update(phase: Phase, arg: string)
    | PurgeDb
    | Close
    | DeleteStemDb(lang: string)
    | CreateStemDb(lang: string)
    | AspellInit
    | AspellBuild
    | ClearCache

  /**
   * The world the orchestrator runs in.
   * `answer(k, c)` is the boolean result of `c` made as call number `k`
   * (from 0); `remaining(k, c)` is what a sub-indexer leaves in the path list
   * it is handed by reference.  `hasUpdater` says whether a status updater
   * was supplied, `doQueue` is the `processbeaglequeue` setting, `stemLangs`
   * the `indexstemminglanguages` setting already split into words (absent
   * when not set), `dbStemLangs` the stemming tables the database holds,
   * `canon` the path canonicaliser, `useAspell` whether spelling support is
   * compiled in and `noAspell` the `noaspell` setting.
   */
  datatype Env = Env(
    answer: (nat, Call) -> bool,
    remaining: (nat, Call) -> seq<string>,
    hasUpdater: bool,
    doQueue: bool,
    stemLangs: Option<seq<string>>,
    dbStemLangs: seq<string>,
    canon: string -> string,
    useAspell: bool,
    noAspell: bool)

  /** The outcome of a stage and the calls it made. */
  datatype Run = Run(ok: bool, calls: seq<Call>)

  /** Make call `c` as call number `at`; its answer is the outcome. */
  function Ask(env: Env, at: nat, c: Call): (r: Run)
    ensures r.calls == [c]
  {
    Run(env.answer(at, c), [c])
  }

  /** `!m_updater || m_updater->update(phase, arg)`: no updater means go on. */
  function Status(env: Env, at: nat, phase: Phase, arg: string): (r: Run)
    ensures !env.hasUpdater ==> r == Run(true, [])
    ensures env.hasUpdater ==> r.calls == [Update(phase, arg)]
  {
    if env.hasUpdater then Ask(env, at, Update(phase, arg)) else Run(true, [])
  }

  /** The last of `calls`, made from position `at` on, was refused. */
  predicate Refused(env: Env, at: nat, calls: seq<Call>)
  {
    |calls| > 0 && !env.answer(at + |calls| - 1, calls[|calls| - 1])
  }

  /** Every one of `calls`, made from position `at` on, was accepted. */
  predicate Accepted(env: Env, at: nat, calls: seq<Call>)
  {
    forall k | 0 <= k < |calls| :: env.answer(at + k, calls[k])
  }

  lemma AcceptedAppend(env: Env, at: nat, a: seq<Call>, b: seq<Call>)
    ensures Accepted(env, at, a + b) <==> Accepted(env, at, a) && Accepted(env, at + |a|, b)
  {
    if Accepted(env, at, a) && Accepted(env, at + |a|, b) {
      forall k | 0 <= k < |a + b|
        ensures env.answer(at + k, (a + b)[k])
      {
        if k >= |a| {
          assert env.answer(at + |a| + (k - |a|), b[k - |a|]);
        }
      }
    }
    if Accepted(env, at, a + b) {
      forall k | 0 <= k < |a|
        ensures env.answer(at + k, a[k])
      {
        assert (a + b)[k] == a[k];
      }
      forall k | 0 <= k < |b|
        ensures env.answer(at + |a| + k, b[k])
      {
        assert (a + b)[|a| + k] == b[k];
      }
    }
  }

  /** A refusal at the end of a later stage is a refusal at the end of the whole run. */
  lemma RefusedAppend(env: Env, at: nat, a: seq<Call>, b: seq<Call>)
    requires Refused(env, at + |a|, b)
    ensures Refused(env, at, a + b) && (a + b)[|a + b| - 1] == b[|b| - 1]
  {
  }

  // ---------------------------------------------------------------------------
  // Stemming tables

  /** The tables to delete: those in the database that are not configured, in database order. */
  function StaleLangs(dbLangs: seq<string>, langs: seq<string>): (r: seq<string>)
    ensures forall l :: l in r <==> l in dbLangs && l !in langs
  {
    if |dbLangs| == 0 then []
    else (if dbLangs[0] in langs then [] else [dbLangs[0]]) + StaleLangs(dbLangs[1..], langs)
  }

  /** One deletion per language, in order. */
  function DeleteCalls(ls: seq<string>): (r: seq<Call>)
    ensures forall c | c in r :: c.DeleteStemDb? && c.lang in ls
    ensures forall l | l in ls :: DeleteStemDb(l) in r
  {
    if |ls| == 0 then [] else [DeleteStemDb(ls[0])] + DeleteCalls(ls[1..])
  }

  /** The calls of the stemming pass. */
  predicate StemCall(c: Call)
  {
    c == Open(DbRO) || c == Close || c.DeleteStemDb? || c.CreateStemDb? || c.Update?
  }

  /** The languages of the stemming tables created by some calls, in order. */
  function Created(calls: seq<Call>): seq<string>
  {
    if |calls| == 0 then []
    else (if calls[0].CreateStemDb? then [calls[0].lang] else []) + Created(calls[1..])
  }

  lemma {:induction false} CreatedAppend(a: seq<Call>, b: seq<Call>)
    ensures Created(a + b) == Created(a) + Created(b)
    decreases |a|
  {
    if |a| == 0 {
      assert a + b == b;
    } else {
      assert (a + b)[1..] == a[1..] + b;
      CreatedAppend(a[1..], b);
    }
  }

  /** Calls other than table creations create nothing. */
  lemma {:induction false} CreatedNone(a: seq<Call>)
    requires forall c | c in a :: !c.CreateStemDb?
    ensures Created(a) == []
    decreases |a|
  {
    if |a| > 0 {
      assert a[0] in a;
      CreatedNone(a[1..]);
    }
  }

  /**
   * The loop over the configured languages: a STEMDB status update carrying
   * the language, which may cancel, then the table creation (whose result
   * is ignored).
   */
  function CreateEach(env: Env, at: nat, langs: seq<string>): (r: Run)
    ensures forall c | c in r.calls :: c.Update? || c.CreateStemDb?
    decreases |langs|
  {
    if |langs| == 0 then Run(true, [])
    else
      var u := Status(env, at, StemDbPhase, langs[0]);
      if !u.ok then u
      else
        var head := u.calls + [CreateStemDb(langs[0])];
        var rest := CreateEach(env, at + |head|, langs[1..]);
        Run(rest.ok, head + rest.calls)
  }

  /** The calls of one round of the loop, before the next round. */
  lemma RoundCreates(env: Env, at: nat, lang: string)
    ensures var u := Status(env, at, StemDbPhase, lang);
      Created(u.calls + [CreateStemDb(lang)]) == [lang]
  {
    var u := Status(env, at, StemDbPhase, lang);
    CreatedAppend(u.calls, [CreateStemDb(lang)]);
    CreatedNone(u.calls);
    assert [CreateStemDb(lang)][1..] == [];
  }

  /** When the loop runs to the end it creates every configured table, in order. */
  lemma {:induction false} CreateEachAll(env: Env, at: nat, langs: seq<string>)
    ensures var r := CreateEach(env, at, langs);
      r.ok ==> Created(r.calls) == langs
    decreases |langs|
  {
    if |langs| > 0 {
      var u := Status(env, at, StemDbPhase, langs[0]);
      if u.ok {
        var head := u.calls + [CreateStemDb(langs[0])];
        var rest := CreateEach(env, at + |head|, langs[1..]);
        assert CreateEach(env, at, langs) == Run(rest.ok, head + rest.calls);
        RoundCreates(env, at, langs[0]);
        CreateEachAll(env, at + |head|, langs[1..]);
        CreatedAppend(head, rest.calls);
        assert [langs[0]] + langs[1..] == langs;
      }
    }
  }

  /**
   * A refused creation pass stopped at a status update the updater refused:
   * there is an updater, and the last call is that refused update.
   */
  lemma {:induction false} CreateEachRefused(env: Env, at: nat, langs: seq<string>)
    ensures var r := CreateEach(env, at, langs);
      !r.ok ==> env.hasUpdater && Refused(env, at, r.calls) && r.calls[|r.calls| - 1].Update?
    decreases |langs|
  {
    if |langs| > 0 {
      var u := Status(env, at, StemDbPhase, langs[0]);
      if u.ok {
        var head := u.calls + [CreateStemDb(langs[0])];
        CreateEachRefused(env, at + |head|, langs[1..]);
        var rest := CreateEach(env, at + |head|, langs[1..]);
        if !rest.ok {
          RefusedAppend(env, at, head, rest.calls);
        }
      } else if env.hasUpdater {
        assert !env.answer(at + 0, u.calls[0]);
      }
    }
  }

  /**
   * A refused creation pass created the databases of a prefix of the
   * languages, in order, and was refused on the status update announcing
   * the next one.
   */
  lemma {:induction false} CreateEachCancel(env: Env, at: nat, langs: seq<string>)
    ensures var r := CreateEach(env, at, langs);
      !r.ok ==> CancelledAt(r.calls, langs)
    decreases |langs|
  {
    if |langs| > 0 {
      var u := Status(env, at, StemDbPhase, langs[0]);
      if !u.ok {
        CreatedNone(u.calls);
      } else {
        var head := u.calls + [CreateStemDb(langs[0])];
        RoundCreates(env, at, langs[0]);
        CreateEachCancel(env, at + |head|, langs[1..]);
        var rest := CreateEach(env, at + |head|, langs[1..]);
        if !rest.ok {
          CancelStep(langs, head, rest.calls);
        }
      }
    }
  }

  /**
   * The calls were refused on the STEMDB update of the language that
   * follows the ones whose databases they created, a prefix of `langs`.
   */
  predicate CancelledAt(calls: seq<Call>, langs: seq<string>)
  {
    var n := |Created(calls)|;
    && |calls| > 0 && n < |langs| && Created(calls) == langs[..n]
    && calls[|calls| - 1] == Update(StemDbPhase, langs[n])
  }

  /** One successful round in front of a cancelled rest is a cancelled pass. */
  lemma CancelStep(langs: seq<string>, head: seq<Call>, rest: seq<Call>)
    requires |langs| > 0 && Created(head) == [langs[0]] && CancelledAt(rest, langs[1..])
    ensures CancelledAt(head + rest, langs)
  {
    CreatedAppend(head, rest);
    var j := |Created(rest)|;
    assert [langs[0]] + langs[1..][..j] == langs[..j + 1];
    LastOfAppend(head, rest);
  }

  /** Calls that create nothing in front of a cancelled pass leave it cancelled. */
  lemma CancelPrefix(langs: seq<string>, pre: seq<Call>, rest: seq<Call>)
    requires Created(pre) == [] && CancelledAt(rest, langs)
    ensures CancelledAt(pre + rest, langs)
  {
    CreatedAppend(pre, rest);
    LastOfAppend(pre, rest);
  }

  lemma LastOfAppend(a: seq<Call>, b: seq<Call>)
    requires |b| > 0
    ensures (a + b)[|a + b| - 1] == b[|b| - 1]
  {
  }

  /**
   * `createStemmingDatabases`: when languages are configured, open read-only,
   * delete the tables of unconfigured languages, create each configured one
   * and close; when none are configured, just close.  A failed open or a
   * cancellation returns false at once.
   */
  function CreateStemmingDatabases(env: Env, at: nat): (r: Run)
    ensures forall c | c in r.calls :: StemCall(c)
  {
    match env.stemLangs
    case None => Run(true, [Close])
    case Some(langs) =>
      var o := Ask(env, at, Open(DbRO));
      if !o.ok then o
      else
        var pre := [Open(DbRO)] + DeleteCalls(StaleLangs(env.dbStemLangs, langs));
        var c := CreateEach(env, at + |pre|, langs);
        if !c.ok then Run(false, pre + c.calls)
        else Run(true, pre + c.calls + [Close])
  }

  /**
   * Without configured languages the stemming pass only closes; otherwise it
   * opens the database read-only first; it closes the database whenever it
   * succeeds.
   */
  lemma StemmingShape(env: Env, at: nat)
    ensures var r := CreateStemmingDatabases(env, at);
      && (env.stemLangs.None? ==> r == Run(true, [Close]))
      && (env.stemLangs.Some? ==> r.calls[0] == Open(DbRO))
      && (r.ok ==> r.calls[|r.calls| - 1] == Close)
  {
  }

  /** The stemming pass fails only on a refused open or a refused status update. */
  lemma StemmingRefused(env: Env, at: nat)
    ensures var r := CreateStemmingDatabases(env, at);
      !r.ok ==> Refused(env, at, r.calls) && (r.calls == [Open(DbRO)] || r.calls[|r.calls| - 1].Update?)
  {
    if env.stemLangs.Some? {
      var langs := env.stemLangs.value;
      if env.answer(at, Open(DbRO)) {
        var pre := [Open(DbRO)] + DeleteCalls(StaleLangs(env.dbStemLangs, langs));
        CreateEachRefused(env, at + |pre|, langs);
        var c := CreateEach(env, at + |pre|, langs);
        if !c.ok {
          RefusedAppend(env, at, pre, c.calls);
        }
      } else {
        assert !env.answer(at + 0, [Open(DbRO)][0]);
      }
    }
  }

  /**
   * After a successful open, the stemming pass deletes exactly the tables
   * of the database's languages that are not configured.
   */
  lemma StemmingDeletes(env: Env, at: nat, l: string)
    requires env.stemLangs.Some? && env.answer(at, Open(DbRO))
    ensures var r := CreateStemmingDatabases(env, at);
      DeleteStemDb(l) in r.calls <==> l in env.dbStemLangs && l !in env.stemLangs.value
  {
  }

  /** After a successful open, a successful stemming pass creates every configured table, in order. */
  lemma StemmingCreatesAll(env: Env, at: nat)
    requires env.stemLangs.Some? && env.answer(at, Open(DbRO))
    ensures var r := CreateStemmingDatabases(env, at);
      r.ok ==> Created(r.calls) == env.stemLangs.value
  {
    var langs := env.stemLangs.value;
    var pre := [Open(DbRO)] + DeleteCalls(StaleLangs(env.dbStemLangs, langs));
    var c := CreateEach(env, at + |pre|, langs);
    if c.ok {
      assert CreateStemmingDatabases(env, at).calls == pre + c.calls + [Close];
      CreateEachAll(env, at + |pre|, langs);
      CreatedNone(pre);
      CreatedNone([Close]);
      CreatedAppend(pre, c.calls);
      CreatedAppend(pre + c.calls, [Close]);
    }
  }

  /**
   * A cancelled stemming pass has created the configured tables before the
   * language at whose STEMDB update the updater cancelled, and no other.
   */
  lemma StemmingCreatesPrefix(env: Env, at: nat)
    requires env.stemLangs.Some? && env.answer(at, Open(DbRO))
    ensures var r := CreateStemmingDatabases(env, at);
      !r.ok ==> CancelledAt(r.calls, env.stemLangs.value)
  {
    var langs := env.stemLangs.value;
    var pre := [Open(DbRO)] + DeleteCalls(StaleLangs(env.dbStemLangs, langs));
    var c := CreateEach(env, at + |pre|, langs);
    if !c.ok {
      assert CreateStemmingDatabases(env, at).calls == pre + c.calls;
      CreateEachCancel(env, at + |pre|, langs);
      CreatedNone(pre);
      CancelPrefix(langs, pre, c.calls);
    }
  }

  /** `createStemDb`: open read-only, then build one table. */
  function CreateStemDbOne(env: Env, at: nat, lang: string): (r: Run)
    ensures |r.calls| > 0 && r.calls[0] == Open(DbRO)
    ensures r.ok <==> Accepted(env, at, r.calls) && r.calls == [Open(DbRO), CreateStemDb(lang)]
  {
    var o := Ask(env, at, Open(DbRO));
    if !o.ok then
      assert !env.answer(at + 0, o.calls[0]);
      o
    else
      var c := Ask(env, at + 1, CreateStemDb(lang));
      var calls := [Open(DbRO), CreateStemDb(lang)];
      assert env.answer(at + 0, calls[0]);
      assert c.ok <==> env.answer(at + 1, calls[1]);
      Run(c.ok, calls)
  }

  // ---------------------------------------------------------------------------
  // Spelling dictionary

  /**
   * The process-wide `noaspell` flag: not yet read from the configuration,
   * or read (and possibly set afterwards by a failure).
   */
  datatype Latch = Unread | Latched(noAspell: bool)

  /** The flag after its first reading. */
  function ReadLatch(env: Env, latch: Latch): Latch
  {
    if latch.Unread? then Latched(env.noAspell) else latch
  }

  datatype AspellRun = AspellRun(ok: bool, calls: seq<Call>, latch: Latch)

  predicate AspellCall(c: Call)
  {
    c == Open(DbRO) || c == AspellInit || c == AspellBuild
  }

  /**
   * `createAspellDict`: read `noaspell` once; when set, do nothing.  Otherwise
   * open read-only, initialise the checker and build the dictionary; an
   * initialisation or build failure sets the flag so that it is not retried.
   */
  function CreateAspellDict(env: Env, at: nat, latch: Latch): (r: AspellRun)
    ensures forall c | c in r.calls :: AspellCall(c)
  {
    if !env.useAspell then AspellRun(true, [], latch)
    else
      var l := ReadLatch(env, latch);
      if l.noAspell then AspellRun(true, [], l)
      else
        var o := Ask(env, at, Open(DbRO));
        if !o.ok then AspellRun(false, o.calls, l)
        else
          var i := Ask(env, at + 1, AspellInit);
          if !i.ok then AspellRun(false, [Open(DbRO), AspellInit], Latched(true))
          else
            var b := Ask(env, at + 2, AspellBuild);
            if !b.ok then AspellRun(false, [Open(DbRO), AspellInit, AspellBuild], Latched(true))
            else AspellRun(true, [Open(DbRO), AspellInit, AspellBuild], l)
  }

  /**
   * The dictionary step succeeds exactly when all its calls were accepted;
   * the flag is read at most once, and only a failure after the database
   * opened sets it.
   */
  lemma AspellOutcome(env: Env, at: nat, latch: Latch)
    ensures var r := CreateAspellDict(env, at, latch);
      && (r.ok <==> Accepted(env, at, r.calls))
      && (!r.ok ==> Refused(env, at, r.calls))
      && (!env.useAspell ==> r == AspellRun(true, [], latch))
      && (env.useAspell && ReadLatch(env, latch).noAspell ==> r == AspellRun(true, [], ReadLatch(env, latch)))
      && (env.useAspell ==>
            r.latch == if !r.ok && r.calls != [Open(DbRO)] then Latched(true) else ReadLatch(env, latch))
  {
    var r := CreateAspellDict(env, at, latch);
    if env.useAspell && !ReadLatch(env, latch).noAspell {
      // The three calls in order, each answered at its own position.
      var c := [Open(DbRO), AspellInit, AspellBuild];
      assert env.answer(at + 0, c[0]) <==> env.answer(at, Open(DbRO));
      assert env.answer(at + 1, c[1]) <==> env.answer(at + 1, AspellInit);
      assert env.answer(at + 2, c[2]) <==> env.answer(at + 2, AspellBuild);
      if !env.answer(at, Open(DbRO)) {
        assert r.calls == [Open(DbRO)] && !r.ok;
      } else if !env.answer(at + 1, AspellInit) {
        assert r.calls == c[..2] && !r.ok;
      } else if !env.answer(at + 2, AspellBuild) {
        assert r.calls == c && !r.ok;
      } else {
        assert r.calls == c && r.ok;
      }
    }
  }

  /**
   * A failure after the database opened latches the flag, so that every
   * later call, whatever its environment, succeeds without trying again.
   */
  lemma AspellNoRetry(env: Env, env2: Env, at: nat, at2: nat, latch: Latch)
    ensures var a := CreateAspellDict(env, at, latch);
      !a.ok && a.calls != [Open(DbRO)] ==>
        a.latch == Latched(true) && CreateAspellDict(env2, at2, a.latch) == AspellRun(true, [], a.latch)
  {
  }

  // ---------------------------------------------------------------------------
  // Full indexing pass

  /** Which sub-indexers to run; both together are `IxTAll`. */
  datatype IxType = IxType(fs: bool, queue: bool)

  const IxTAll: IxType := IxType(true, true)

  datatype IndexRun = IndexRun(ok: bool, calls: seq<Call>, latch: Latch)

  /** The open mode of a full pass: truncate when resetting, update otherwise. */
  function ModeFor(resetBefore: bool): OpenMode
  {
    if resetBefore then DbTrunc else DbUpd
  }

  /** The calls of a full pass up to the purge when every sub-indexer succeeds. */
  function HeadCalls(env: Env, resetBefore: bool, types: IxType): seq<Call>
  {
    [Open(ModeFor(resetBefore))] + (if types.fs then [FsIndex] else [])
      + (if env.doQueue && types.queue then [QueueIndex] else [])
  }

  /**
   * Open, run the selected sub-indexers, and (only when all ran) purge the
   * documents that no longer exist after the updater accepts the PURGE phase.
   */
  function IndexHead(env: Env, resetBefore: bool, types: IxType): (r: Run)
  {
    var o := Ask(env, 0, Open(ModeFor(resetBefore)));
    if !o.ok then o
    else
      var f := if types.fs then Ask(env, 1, FsIndex) else Run(true, []);
      if !f.ok then Run(false, o.calls + f.calls)
      else
        var p := o.calls + f.calls;
        var q := if env.doQueue && types.queue then Ask(env, |p|, QueueIndex) else Run(true, []);
        if !q.ok then Run(false, p + q.calls)
        else if types == IxTAll then
          var u := Status(env, |p + q.calls|, PurgePhase, "");
          if !u.ok then Run(false, p + q.calls + u.calls)
          else Run(true, p + q.calls + u.calls + [PurgeDb])
        else Run(true, p + q.calls)
  }

  /** A pass starts with the open in the requested mode. */
  lemma HeadStart(env: Env, resetBefore: bool, types: IxType)
    ensures var h := IndexHead(env, resetBefore, types);
      |h.calls| > 0 && h.calls[0] == Open(ModeFor(resetBefore))
  {
  }

  /** The head fails only at a refused open, sub-indexer or PURGE update, and stops there. */
  lemma HeadFails(env: Env, resetBefore: bool, types: IxType)
    ensures var h := IndexHead(env, resetBefore, types);
      !h.ok ==> && Refused(env, 0, h.calls)
                && h.calls[|h.calls| - 1] in {Open(ModeFor(resetBefore)), FsIndex, QueueIndex, Update(PurgePhase, "")}
  {
    // The two cases are proved apart: each fixes how many status calls there are.
    if env.hasUpdater {
    } else {
    }
  }

  /** The calls after the head stage. */
  predicate TailCall(c: Call)
  {
    StemCall(c) || AspellCall(c) || c == ClearCache
  }

  /**
   * Report CLOSING (answer ignored) and close; then, each behind a CLOSING
   * check, the stemming tables (result ignored) and the spelling dictionary;
   * finally clear the handler cache and report DONE (answer ignored).
   */
  function IndexTail(env: Env, at: nat, latch: Latch): (r: IndexRun)
    ensures forall c | c in r.calls :: TailCall(c)
  {
    var u0 := Status(env, at, ClosingPhase, "");
    var t0 := u0.calls + [Close];
    var c := Ask(env, at + |u0.calls|, Close);
    if !c.ok then IndexRun(false, t0, latch)
    else
      var u1 := Status(env, at + |t0|, ClosingPhase, "");
      var t1 := t0 + u1.calls;
      if !u1.ok then IndexRun(false, t1, latch)
      else
        var s := CreateStemmingDatabases(env, at + |t1|);
        var t2 := t1 + s.calls;
        var u2 := Status(env, at + |t2|, ClosingPhase, "");
        var t3 := t2 + u2.calls;
        if !u2.ok then IndexRun(false, t3, latch)
        else
          var a := CreateAspellDict(env, at + |t3|, latch);
          var t4 := t3 + a.calls + [ClearCache];
          var d := Status(env, at + |t4|, DonePhase, "");
          IndexRun(true, t4 + d.calls, a.latch)
  }

  /**
   * The tail fails only at a refused close or CLOSING update, and stops
   * there; the close is always attempted.
   */
  lemma TailRefused(env: Env, at: nat, latch: Latch)
    ensures var r := IndexTail(env, at, latch);
      && Close in r.calls
      && (!r.ok ==> Refused(env, at, r.calls) && r.calls[|r.calls| - 1] in {Close, Update(ClosingPhase, "")})
  {
    // The two cases are proved apart: each fixes how many status calls there are.
    if env.hasUpdater {
    } else {
    }
  }

  /**
   * On success the handler cache was cleared and, with an updater, DONE is
   * the last call; without one the cache clearing is.
   */
  lemma TailDone(env: Env, at: nat, latch: Latch)
    ensures var r := IndexTail(env, at, latch);
      && (r.ok ==> ClearCache in r.calls)
      && (r.ok && env.hasUpdater ==> r.calls[|r.calls| - 1] == Update(DonePhase, ""))
      && (r.ok && !env.hasUpdater ==> r.calls[|r.calls| - 1] == ClearCache)
  {
    // The two cases are proved apart: each fixes how many status calls there are.
    if env.hasUpdater {
    } else {
    }
  }

  /**
   * The calls of the tail whose answer decides the outcome were accepted:
   * the close and, with an updater, the CLOSING updates before and after the
   * stemming pass (the first CLOSING report, the stemming pass itself, the
   * spelling dictionary and DONE do not count).
   */
  predicate TailAccepted(env: Env, at: nat)
  {
    var n := if env.hasUpdater then 1 else 0;
    var s := CreateStemmingDatabases(env, at + 2 * n + 1);
    && env.answer(at + n, Close)
    && (env.hasUpdater ==>
          env.answer(at + 2, Update(ClosingPhase, "")) && env.answer(at + 3 + |s.calls|, Update(ClosingPhase, "")))
  }

  /** The tail succeeds exactly when its checked calls are accepted, whatever the stemming pass returns. */
  lemma TailOk(env: Env, at: nat, latch: Latch)
    ensures IndexTail(env, at, latch).ok <==> TailAccepted(env, at)
  {
    // The two cases are proved apart: each fixes how many status calls there are.
    if env.hasUpdater {
    } else {
    }
  }

  /** A refused close ends the pass with false, right after the CLOSING report. */
  lemma TailCloseRefused(env: Env, at: nat, latch: Latch)
    ensures var u := if env.hasUpdater then [Update(ClosingPhase, "")] else [];
      !env.answer(at + |u|, Close) ==> IndexTail(env, at, latch) == IndexRun(false, u + [Close], latch)
  {
  }

  /** A refused CLOSING update right after the close ends the pass with false, before the stemming pass. */
  lemma TailClosingRefused(env: Env, at: nat, latch: Latch)
    ensures var u := Update(ClosingPhase, "");
      env.hasUpdater && env.answer(at + 1, Close) && !env.answer(at + 2, u) ==>
        IndexTail(env, at, latch) == IndexRun(false, [u, Close, u], latch)
  {
  }

  /** From `at` on: the close and the CLOSING check after it accepted, the one after the stemming pass refused. */
  predicate ClosingAfterStemRefused(env: Env, at: nat)
  {
    var u := Update(ClosingPhase, "");
    var s := CreateStemmingDatabases(env, at + 3);
    env.hasUpdater && env.answer(at + 1, Close) && env.answer(at + 2, u) && !env.answer(at + 3 + |s.calls|, u)
  }

  /** The calls of such a tail: CLOSING, the close, CLOSING, the stemming pass and the refused CLOSING. */
  function ClosingAfterStemCalls(env: Env, at: nat): seq<Call>
  {
    var u := Update(ClosingPhase, "");
    [u] + [Close] + [u] + CreateStemmingDatabases(env, at + 3).calls + [u]
  }

  /**
   * A refused CLOSING update after the stemming pass ends the pass with
   * false, before the spelling dictionary.
   */
  lemma TailClosingAfterStemRefused(env: Env, at: nat, latch: Latch)
    ensures ClosingAfterStemRefused(env, at) ==>
      IndexTail(env, at, latch) == IndexRun(false, ClosingAfterStemCalls(env, at), latch)
  {
  }

  /** `ConfIndexer::index`. */
  function Index(env: Env, resetBefore: bool, types: IxType, latch: Latch): (r: IndexRun)
  {
    var h := IndexHead(env, resetBefore, types);
    if !h.ok then IndexRun(false, h.calls, latch)
    else
      var t := IndexTail(env, |h.calls|, latch);
      IndexRun(t.ok, h.calls + t.calls, t.latch)
  }

  /** `index` starts with the open in the requested mode. */
  lemma IndexStart(env: Env, resetBefore: bool, types: IxType, latch: Latch)
    ensures var r := Index(env, resetBefore, types, latch);
      |r.calls| > 0 && r.calls[0] == Open(ModeFor(resetBefore))
  {
    HeadStart(env, resetBefore, types);
  }

  /**
   * Any failure of `index` is a refused call that ends the pass, and it is
   * one of the checked calls: the open, a sub-indexer, the PURGE update, the
   * close or a CLOSING update.
   */
  lemma IndexFails(env: Env, resetBefore: bool, types: IxType, latch: Latch)
    ensures var r := Index(env, resetBefore, types, latch);
      !r.ok ==> && Refused(env, 0, r.calls)
                && r.calls[|r.calls| - 1] in
                     {Open(ModeFor(resetBefore)), FsIndex, QueueIndex, Update(PurgePhase, ""), Close, Update(ClosingPhase, "")}
  {
    var h := IndexHead(env, resetBefore, types);
    if !h.ok {
      HeadFails(env, resetBefore, types);
      assert Index(env, resetBefore, types, latch).calls == h.calls;
    } else {
      var t := IndexTail(env, |h.calls|, latch);
      assert Index(env, resetBefore, types, latch) == IndexRun(t.ok, h.calls + t.calls, t.latch);
      if !t.ok {
        TailRefused(env, |h.calls|, latch);
        RefusedAppend(env, 0, h.calls, t.calls);
      }
    }
  }

  /** The calls of a head that succeeds: for a full pass, PURGE and the purge follow the sub-indexers. */
  function HeadOkCalls(env: Env, resetBefore: bool, types: IxType): seq<Call>
  {
    HeadCalls(env, resetBefore, types)
      + (if types == IxTAll then (if env.hasUpdater then [Update(PurgePhase, "")] else []) + [PurgeDb] else [])
  }

  /** The open, the sub-indexers and, for a full pass, the PURGE update were accepted. */
  predicate HeadAccepted(env: Env, resetBefore: bool, types: IxType)
  {
    var p := HeadCalls(env, resetBefore, types);
    Accepted(env, 0, p) && (types == IxTAll && env.hasUpdater ==> env.answer(|p|, Update(PurgePhase, "")))
  }

  /** The head succeeds exactly when its checked calls are accepted, and then made the calls listed. */
  lemma HeadOk(env: Env, resetBefore: bool, types: IxType)
    ensures var h := IndexHead(env, resetBefore, types);
      && (h.ok <==> HeadAccepted(env, resetBefore, types))
      && (h.ok ==> h.calls == HeadOkCalls(env, resetBefore, types))
  {
    HeadReachesPurge(env, resetBefore, types);
    // The two cases are proved apart: each fixes how many status calls there are.
    if env.hasUpdater {
    } else {
    }
  }

  /**
   * `index` returns true exactly when every checked call is accepted: the
   * open, the sub-indexers, PURGE, the close and the two later CLOSING
   * updates; what the stemming pass returns plays no part.
   */
  lemma IndexOk(env: Env, resetBefore: bool, types: IxType, latch: Latch)
    ensures Index(env, resetBefore, types, latch).ok <==>
      HeadAccepted(env, resetBefore, types) && TailAccepted(env, |HeadOkCalls(env, resetBefore, types)|)
  {
    HeadOk(env, resetBefore, types);
    var h := IndexHead(env, resetBefore, types);
    if h.ok {
      TailOk(env, |h.calls|, latch);
    }
  }

  /** A refused open returns false at once, before any status report. */
  lemma IndexOpenRefused(env: Env, resetBefore: bool, types: IxType, latch: Latch)
    ensures var o := Open(ModeFor(resetBefore));
      !env.answer(0, o) ==> Index(env, resetBefore, types, latch) == IndexRun(false, [o], latch)
  {
  }

  /** After a successful head, a refused close returns false with nothing after it. */
  lemma IndexCloseRefused(env: Env, resetBefore: bool, types: IxType, latch: Latch)
    ensures var p := HeadOkCalls(env, resetBefore, types);
      var u := if env.hasUpdater then [Update(ClosingPhase, "")] else [];
      HeadAccepted(env, resetBefore, types) && !env.answer(|p| + |u|, Close) ==>
        Index(env, resetBefore, types, latch) == IndexRun(false, p + (u + [Close]), latch)
  {
    var p := HeadOkCalls(env, resetBefore, types);
    var u := if env.hasUpdater then [Update(ClosingPhase, "")] else [];
    if HeadAccepted(env, resetBefore, types) && !env.answer(|p| + |u|, Close) {
      TailCloseRefused(env, |p|, latch);
      IndexRefusedTail(env, resetBefore, types, latch, u + [Close]);
    }
  }

  /** A successful head is followed by the tail, with the head's calls first. */
  lemma IndexAfterHead(env: Env, resetBefore: bool, types: IxType, latch: Latch)
    requires HeadAccepted(env, resetBefore, types)
    ensures var p := HeadOkCalls(env, resetBefore, types);
      var t := IndexTail(env, |p|, latch);
      Index(env, resetBefore, types, latch) == IndexRun(t.ok, p + t.calls, t.latch)
  {
    HeadOk(env, resetBefore, types);
  }

  /** A refused tail after a successful head fails the pass with the head's calls first. */
  lemma IndexRefusedTail(env: Env, resetBefore: bool, types: IxType, latch: Latch, tc: seq<Call>)
    requires HeadAccepted(env, resetBefore, types)
    requires IndexTail(env, |HeadOkCalls(env, resetBefore, types)|, latch) == IndexRun(false, tc, latch)
    ensures Index(env, resetBefore, types, latch) == IndexRun(false, HeadOkCalls(env, resetBefore, types) + tc, latch)
  {
    IndexAfterHead(env, resetBefore, types, latch);
  }

  /** After a successful head and close, a refused CLOSING update returns false before the stemming pass. */
  lemma IndexClosingRefused(env: Env, resetBefore: bool, types: IxType, latch: Latch)
    ensures var p := HeadOkCalls(env, resetBefore, types);
      var u := Update(ClosingPhase, "");
      HeadAccepted(env, resetBefore, types) && env.hasUpdater && env.answer(|p| + 1, Close) && !env.answer(|p| + 2, u) ==>
        Index(env, resetBefore, types, latch) == IndexRun(false, p + [u, Close, u], latch)
  {
    if HeadAccepted(env, resetBefore, types) {
      IndexAfterHead(env, resetBefore, types, latch);
      TailClosingRefused(env, |HeadOkCalls(env, resetBefore, types)|, latch);
    }
  }

  /**
   * After a successful head, close and stemming pass, a refused CLOSING
   * update returns false with no spelling dictionary, cache clearing or DONE.
   */
  lemma IndexClosingAfterStemRefused(env: Env, resetBefore: bool, types: IxType, latch: Latch)
    ensures var p := HeadOkCalls(env, resetBefore, types);
      HeadAccepted(env, resetBefore, types) && ClosingAfterStemRefused(env, |p|) ==>
        Index(env, resetBefore, types, latch) == IndexRun(false, p + ClosingAfterStemCalls(env, |p|), latch)
  {
    var p := HeadOkCalls(env, resetBefore, types);
    if HeadAccepted(env, resetBefore, types) && ClosingAfterStemRefused(env, |p|) {
      TailClosingAfterStemRefused(env, |p|, latch);
      IndexRefusedTail(env, resetBefore, types, latch, ClosingAfterStemCalls(env, |p|));
    }
  }

  /** With an updater, DONE is reported exactly when the pass succeeds. */
  lemma IndexDone(env: Env, resetBefore: bool, types: IxType, latch: Latch)
    requires env.hasUpdater
    ensures var r := Index(env, resetBefore, types, latch);
      r.ok <==> r.calls[|r.calls| - 1] == Update(DonePhase, "")
  {
    var h := IndexHead(env, resetBefore, types);
    HeadFails(env, resetBefore, types);
    HeadStart(env, resetBefore, types);
    if h.ok {
      var t := IndexTail(env, |h.calls|, latch);
      TailRefused(env, |h.calls|, latch);
      TailDone(env, |h.calls|, latch);
      assert (h.calls + t.calls)[|h.calls + t.calls| - 1] == t.calls[|t.calls| - 1];
    }
  }

  /**
   * A refused sub-indexer ends the pass at once: there is no purge, close,
   * stemming or DONE after it.
   */
  lemma IndexSubIndexerRefused(env: Env, resetBefore: bool, types: IxType, latch: Latch)
    requires env.answer(0, Open(ModeFor(resetBefore)))
    ensures var o := Open(ModeFor(resetBefore));
      types.fs && !env.answer(1, FsIndex) ==>
        Index(env, resetBefore, types, latch) == IndexRun(false, [o, FsIndex], latch)
    ensures var p := [Open(ModeFor(resetBefore))] + (if types.fs then [FsIndex] else []);
      (types.fs ==> env.answer(1, FsIndex)) && env.doQueue && types.queue && !env.answer(|p|, QueueIndex) ==>
        Index(env, resetBefore, types, latch) == IndexRun(false, p + [QueueIndex], latch)
  {
  }

  /**
   * The purge happens only when all sub-indexers were asked to run and
   * succeeded, right after an accepted PURGE update when there is an
   * updater; a refused PURGE ends the pass; and a successful full pass
   * always purges.
   */
  lemma IndexPurge(env: Env, resetBefore: bool, types: IxType, latch: Latch)
    ensures var r := Index(env, resetBefore, types, latch);
      var p := HeadCalls(env, resetBefore, types);
      var u := if env.hasUpdater then [Update(PurgePhase, "")] else [];
      && (PurgeDb in r.calls ==>
            && types == IxTAll && Accepted(env, 0, p + u)
            && r.calls[..|p + u| + 1] == p + u + [PurgeDb])
      && (types == IxTAll && Accepted(env, 0, p) && env.hasUpdater && !env.answer(|p|, Update(PurgePhase, "")) ==>
            r == IndexRun(false, p + u, latch))
      && (r.ok && types == IxTAll ==> PurgeDb in r.calls)
  {
    var h := IndexHead(env, resetBefore, types);
    HeadPurge(env, resetBefore, types);
    if h.ok {
      var t := IndexTail(env, |h.calls|, latch);
      assert PurgeDb !in t.calls;
      var r := Index(env, resetBefore, types, latch);
      if PurgeDb in r.calls {
        assert PurgeDb in h.calls;
        assert r.calls[..|h.calls|] == h.calls;
      }
    }
  }

  /** The head's calls when it reaches the purge. */
  lemma HeadPurge(env: Env, resetBefore: bool, types: IxType)
    ensures var h := IndexHead(env, resetBefore, types);
      var p := HeadCalls(env, resetBefore, types);
      var u := if env.hasUpdater then [Update(PurgePhase, "")] else [];
      && (PurgeDb in h.calls ==>
            types == IxTAll && Accepted(env, 0, p + u) && h.calls == p + u + [PurgeDb])
      && (types == IxTAll && Accepted(env, 0, p) && env.hasUpdater && !env.answer(|p|, Update(PurgePhase, "")) ==>
            h == Run(false, p + u))
      && (h.ok && types == IxTAll ==> PurgeDb in h.calls)
  {
    HeadReachesPurge(env, resetBefore, types);
    // The two cases are proved apart: each fixes how many status calls there are.
    if env.hasUpdater {
    } else {
    }
  }

  /** The head reaches the purge exactly when the calls before it were all accepted. */
  lemma HeadReachesPurge(env: Env, resetBefore: bool, types: IxType)
    ensures var mode := ModeFor(resetBefore);
      var o := Ask(env, 0, Open(mode));
      var f := if types.fs then Ask(env, 1, FsIndex) else Run(true, []);
      var p := o.calls + f.calls;
      var q := if env.doQueue && types.queue then Ask(env, |p|, QueueIndex) else Run(true, []);
      && p + q.calls == HeadCalls(env, resetBefore, types)
      && (o.ok && f.ok && q.ok <==> Accepted(env, 0, HeadCalls(env, resetBefore, types)))
  {
    var mode := ModeFor(resetBefore);
    var o := [Open(mode)];
    var f := if types.fs then [FsIndex] else [];
    var q := if env.doQueue && types.queue then [QueueIndex] else [];
    AcceptedAppend(env, 0, o, f);
    AcceptedAppend(env, 0, o + f, q);
    assert Accepted(env, 0, o) <==> env.answer(0, Open(mode)) by {
      assert o[0] == Open(mode);
    }
    assert Accepted(env, 1, f) <==> (types.fs ==> env.answer(1, FsIndex)) by {
      if types.fs {
        assert env.answer(1 + 0, f[0]) <==> env.answer(1, FsIndex);
      }
    }
    assert Accepted(env, |o + f|, q) <==> (env.doQueue && types.queue ==> env.answer(|o + f|, QueueIndex)) by {
      if env.doQueue && types.queue {
        assert env.answer(|o + f| + 0, q[0]) <==> env.answer(|o + f|, QueueIndex);
      }
    }
  }

  // ---------------------------------------------------------------------------
  // Indexing or purging a list of files

  /** `path_canon` applied to every path, in order. */
  function Canon(env: Env, files: seq<string>): (r: seq<string>)
    ensures |r| == |files| && forall k | 0 <= k < |files| :: r[k] == env.canon(files[k])
  {
    if |files| == 0 then [] else [env.canon(files[0])] + Canon(env, files[1..])
  }

  /** The paths a files operation hands to the sub-indexers: canonical, sorted. */
  function Prepared(env: Env, files: seq<string>): (r: seq<string>)
    ensures PathSort.Sorted(r)
    ensures multiset(r) == multiset(Canon(env, files))
  {
    PathSort.Sort(Canon(env, files))
  }

  /** A stage working on a path list: outcome, calls, and the list it leaves behind. */
  datatype ListRun = ListRun(ok: bool, calls: seq<Call>, files: seq<string>)

  /**
   * The sub-indexers on a prepared list: the file-system one always, the
   * queue one when enabled, when the list left behind is not empty and (by
   * `&&`'s short circuit) when the first succeeded.
   */
  function SubIndexers(env: Env, at: nat, first: Call, queue: seq<string> -> Call): (r: ListRun)
    ensures 1 <= |r.calls| <= 2 && r.calls[0] == first
    ensures |r.calls| == 2 <==> env.doQueue && |env.remaining(at, first)| > 0 && env.answer(at, first)
    ensures |r.calls| == 2 ==> r.calls[1] == queue(env.remaining(at, first))
    ensures r.files == env.remaining(at + |r.calls| - 1, r.calls[|r.calls| - 1])
    ensures r.ok <==> Accepted(env, at, r.calls)
  {
    var ok := env.answer(at, first);
    var left := env.remaining(at, first);
    if env.doQueue && |left| > 0 && ok then
      var q := queue(left);
      ListRun(env.answer(at + 1, q), [first, q], env.remaining(at + 1, q))
    else ListRun(ok, [first], left)
  }

  /**
   * What `indexFiles` and `purgeFiles` share: open for update, run the
   * sub-indexers on the prepared list, close.  The outcome is the
   * sub-indexers' and the list is the one they left behind; a failed open
   * makes no further call.
   */
  function OpenRunClose(env: Env, first: Call, queue: seq<string> -> Call): (r: ListRun)
  {
    if !env.answer(0, Open(DbUpd)) then ListRun(false, [Open(DbUpd)], [])
    else
      var s := SubIndexers(env, 1, first, queue);
      ListRun(s.ok, [Open(DbUpd)] + s.calls + [Close], s.files)
  }

  /** The run got past the open and its close was accepted. */
  predicate Closed(env: Env, calls: seq<Call>)
  {
    |calls| > 1 && env.answer(|calls| - 1, Close)
  }

  /**
   * The shape of the shared part: the open; after a successful open, the
   * first sub-indexer second and the close last.
   */
  lemma OpenRunCloseShape(env: Env, first: Call, queue: seq<string> -> Call)
    ensures var r := OpenRunClose(env, first, queue);
      && r.calls[0] == Open(DbUpd)
      && (|r.calls| == 1 <==> !env.answer(0, Open(DbUpd)))
      && (|r.calls| > 1 ==> 3 <= |r.calls| <= 4 && r.calls[1] == first && r.calls[|r.calls| - 1] == Close)
  {
  }

  /**
   * Any call of the shared part other than the open, the first sub-indexer
   * and the close is the queue one, third, made only when enabled, after a
   * successful open and first sub-indexer, on the non-empty list the first
   * left behind.
   */
  lemma OpenRunCloseQueue(env: Env, first: Call, queue: seq<string> -> Call)
    ensures var r := OpenRunClose(env, first, queue);
      forall x | x in r.calls && x != Open(DbUpd) && x != Close && x != first ::
        && |r.calls| == 4 && x == r.calls[2] && x == queue(env.remaining(1, first))
        && env.doQueue && |env.remaining(1, first)| > 0 && env.answer(1, first)
  {
  }

  /**
   * After a successful close the outcome is true exactly when every call was
   * accepted, and the list is the one the last sub-indexer left.
   */
  lemma OpenRunCloseOk(env: Env, first: Call, queue: seq<string> -> Call)
    ensures var r := OpenRunClose(env, first, queue);
      var n := |r.calls|;
      Closed(env, r.calls) ==> (r.ok <==> Accepted(env, 0, r.calls)) && r.files == env.remaining(n - 2, r.calls[n - 2])
  {
    if env.answer(0, Open(DbUpd)) {
      var s := SubIndexers(env, 1, first, queue);
      FramedAccepted(env, s.calls);
    }
  }

  /** The framing calls are accepted exactly when the open and the close are. */
  lemma FramedAccepted(env: Env, s: seq<Call>)
    requires env.answer(0, Open(DbUpd))
    ensures var c := [Open(DbUpd)] + s + [Close];
      Accepted(env, 0, c) <==> Accepted(env, 1, s) && env.answer(|c| - 1, Close)
  {
    AcceptedAppend(env, 0, [Open(DbUpd)], s);
    AcceptedAppend(env, 0, [Open(DbUpd)] + s, [Close]);
    assert Accepted(env, 0, [Open(DbUpd)]) by {
      assert [Open(DbUpd)][0] == Open(DbUpd);
    }
    assert Accepted(env, |s| + 1, [Close]) <==> env.answer(|s| + 1, Close) by {
      assert [Close][0] == Close;
    }
  }

  /**
   * `indexFiles`: the result, the calls, and the list written back to the
   * caller (the processed list after a successful close, the original
   * otherwise).  A failed close returns false at once.
   */
  function IndexFiles(env: Env, files: seq<string>, flag: int): (r: ListRun)
  {
    IndexFilesOf(env, FsIndexFiles(Prepared(env, files), flag), files)
  }

  /** `indexFiles` after the list has been prepared into its first call. */
  function IndexFilesOf(env: Env, fs: Call, files: seq<string>): (r: ListRun)
  {
    var o := OpenRunClose(env, fs, l => QueueIndexFiles(l));
    if !Closed(env, o.calls) then ListRun(false, o.calls, files)
    else ListRun(o.ok, o.calls + [ClearCache], o.files)
  }

  /**
   * `indexFiles` opens the database first and hands the file-system indexer
   * the canonical sorted list; the close follows a successful open.
   */
  lemma IndexFilesOpenFirst(env: Env, files: seq<string>, flag: int)
    ensures var r := IndexFiles(env, files, flag);
      && r.calls[0] == Open(DbUpd)
      && (|r.calls| > 1 ==> r.calls[1] == FsIndexFiles(Prepared(env, files), flag) && Close in r.calls)
  {
    var fs := FsIndexFiles(Prepared(env, files), flag);
    assert IndexFiles(env, files, flag) == IndexFilesOf(env, fs, files);
    IndexFilesOfOpenFirst(env, fs, files);
  }

  lemma IndexFilesOfOpenFirst(env: Env, fs: Call, files: seq<string>)
    ensures var r := IndexFilesOf(env, fs, files);
      && r.calls[0] == Open(DbUpd)
      && (|r.calls| > 1 ==> r.calls[1] == fs && Close in r.calls)
  {
    var o := OpenRunClose(env, fs, l => QueueIndexFiles(l));
    OpenRunCloseShape(env, fs, l => QueueIndexFiles(l));
    if |o.calls| > 1 {
      LastIn(o.calls, Closed(env, o.calls));
    }
  }

  /** The last call of a run is among the calls of the run, with or without the cache clearing. */
  lemma LastIn(c: seq<Call>, clear: bool)
    requires |c| > 0
    ensures c[|c| - 1] in (if clear then c + [ClearCache] else c)
  {
    if clear {
      assert (c + [ClearCache])[|c| - 1] == c[|c| - 1];
    }
  }

  /**
   * The queue indexer runs only third, when enabled, on the non-empty list
   * the file-system indexer left behind and after it succeeded.
   */
  lemma IndexFilesQueue(env: Env, files: seq<string>, flag: int)
    ensures var r := IndexFiles(env, files, flag);
      var fs := FsIndexFiles(Prepared(env, files), flag);
      forall l | QueueIndexFiles(l) in r.calls ::
        && r.calls[2] == QueueIndexFiles(l) && l == env.remaining(1, fs)
        && env.doQueue && |l| > 0 && env.answer(1, fs)
  {
    var fs := FsIndexFiles(Prepared(env, files), flag);
    assert IndexFiles(env, files, flag) == IndexFilesOf(env, fs, files);
    IndexFilesOfQueue(env, fs, files, Prepared(env, files), flag);
  }

  lemma IndexFilesOfQueue(env: Env, fs: Call, files: seq<string>, prep: seq<string>, flag: int)
    requires fs == FsIndexFiles(prep, flag)
    ensures var r := IndexFilesOf(env, fs, files);
      forall l | QueueIndexFiles(l) in r.calls ::
        && r.calls[2] == QueueIndexFiles(l) && l == env.remaining(1, fs)
        && env.doQueue && |l| > 0 && env.answer(1, fs)
  {
    var o := OpenRunClose(env, fs, l => QueueIndexFiles(l));
    OpenRunCloseQueue(env, fs, l => QueueIndexFiles(l));
    var r := IndexFilesOf(env, fs, files);
    forall l | QueueIndexFiles(l) in r.calls
      ensures r.calls[2] == QueueIndexFiles(l)
    {
      InOrClear(o.calls, Closed(env, o.calls), QueueIndexFiles(l));
      assert |o.calls| == 4;
      assert r.calls[2] == o.calls[2];
    }
  }

  /** A call other than the cache clearing found in a run was there before the clearing was appended. */
  lemma InOrClear(c: seq<Call>, clear: bool, x: Call)
    requires x in (if clear then c + [ClearCache] else c) && x != ClearCache
    ensures x in c
  {
  }

  /**
   * The handler cache is cleared, last, exactly after a successful close;
   * otherwise the run ends with the refused open or the refused close.
   */
  lemma IndexFilesClear(env: Env, files: seq<string>, flag: int)
    ensures var r := IndexFiles(env, files, flag);
      var n := |r.calls|;
      && (ClearCache in r.calls <==> r.calls[n - 1] == ClearCache)
      && (r.calls[n - 1] == ClearCache ==> n > 2 && r.calls[n - 2] == Close && env.answer(n - 2, Close))
      && (r.calls[n - 1] != ClearCache ==> n == 1 || (r.calls[n - 1] == Close && !env.answer(n - 1, Close)))
  {
    var fs := FsIndexFiles(Prepared(env, files), flag);
    assert IndexFiles(env, files, flag) == IndexFilesOf(env, fs, files);
    IndexFilesOfClear(env, fs, files);
  }

  lemma IndexFilesOfClear(env: Env, fs: Call, files: seq<string>)
    requires !fs.ClearCache?
    ensures var r := IndexFilesOf(env, fs, files);
      var n := |r.calls|;
      && (ClearCache in r.calls <==> r.calls[n - 1] == ClearCache)
      && (r.calls[n - 1] == ClearCache ==> n > 2 && r.calls[n - 2] == Close && env.answer(n - 2, Close))
      && (r.calls[n - 1] != ClearCache ==> n == 1 || (r.calls[n - 1] == Close && !env.answer(n - 1, Close)))
  {
    var q := l => QueueIndexFiles(l);
    var o := OpenRunClose(env, fs, q);
    OpenRunCloseShape(env, fs, q);
    OpenRunCloseQueue(env, fs, q);
    assert ClearCache !in o.calls;
    if Closed(env, o.calls) {
      assert (o.calls + [ClearCache])[|o.calls| - 1] == Close;
    }
  }

  /**
   * `indexFiles` succeeds exactly when it cleared the cache and every call
   * before that was accepted, and the caller's list is replaced only then,
   * by the list the last sub-indexer left.
   */
  lemma IndexFilesResult(env: Env, files: seq<string>, flag: int)
    ensures var r := IndexFiles(env, files, flag);
      var n := |r.calls|;
      && (r.ok <==> r.calls[n - 1] == ClearCache && Accepted(env, 0, r.calls[..n - 1]))
      && (r.calls[n - 1] != ClearCache ==> r.files == files)
      && (r.calls[n - 1] == ClearCache ==> n >= 4 && r.files == env.remaining(n - 3, r.calls[n - 3]))
  {
    var fs := FsIndexFiles(Prepared(env, files), flag);
    assert IndexFiles(env, files, flag) == IndexFilesOf(env, fs, files);
    IndexFilesOfResult(env, fs, files);
  }

  lemma IndexFilesOfResult(env: Env, fs: Call, files: seq<string>)
    requires !fs.ClearCache?
    ensures var r := IndexFilesOf(env, fs, files);
      var n := |r.calls|;
      && (r.ok <==> r.calls[n - 1] == ClearCache && Accepted(env, 0, r.calls[..n - 1]))
      && (r.calls[n - 1] != ClearCache ==> r.files == files)
      && (r.calls[n - 1] == ClearCache ==> n >= 4 && r.files == env.remaining(n - 3, r.calls[n - 3]))
  {
    var q := l => QueueIndexFiles(l);
    var o := OpenRunClose(env, fs, q);
    OpenRunCloseShape(env, fs, q);
    OpenRunCloseOk(env, fs, q);
    if Closed(env, o.calls) {
      assert (o.calls + [ClearCache])[..|o.calls|] == o.calls;
    } else if |o.calls| == 1 {
      assert !env.answer(0 + 0, o.calls[0]);
    }
  }

  /** `purgeFiles`: the shared part with the purge calls; no list written back, no cache clearing. */
  function PurgeFiles(env: Env, files: seq<string>): (r: Run)
  {
    PurgeFilesOf(env, FsPurgeFiles(Prepared(env, files)))
  }

  /** `purgeFiles` after the list has been prepared into its first call. */
  function PurgeFilesOf(env: Env, fs: Call): (r: Run)
  {
    var o := OpenRunClose(env, fs, l => QueuePurgeFiles(l));
    Run(o.ok && Closed(env, o.calls), o.calls)
  }

  /**
   * `purgeFiles` opens the database first, hands the file-system purge the
   * canonical sorted list, closes last after a successful open, and never
   * clears the cache.
   */
  lemma PurgeFilesCalls(env: Env, files: seq<string>)
    ensures var r := PurgeFiles(env, files);
      && r.calls[0] == Open(DbUpd)
      && (|r.calls| > 1 ==> r.calls[1] == FsPurgeFiles(Prepared(env, files)) && r.calls[|r.calls| - 1] == Close)
      && ClearCache !in r.calls
  {
    var fs := FsPurgeFiles(Prepared(env, files));
    var q := l => QueuePurgeFiles(l);
    OpenRunCloseShape(env, fs, q);
    OpenRunCloseQueue(env, fs, q);
  }

  /**
   * The queue purge runs only third, when enabled, on the non-empty list the
   * file-system purge left behind and after it succeeded.
   */
  lemma PurgeFilesQueue(env: Env, files: seq<string>)
    ensures var r := PurgeFiles(env, files);
      var fs := FsPurgeFiles(Prepared(env, files));
      forall l | QueuePurgeFiles(l) in r.calls ::
        && r.calls[2] == QueuePurgeFiles(l) && l == env.remaining(1, fs)
        && env.doQueue && |l| > 0 && env.answer(1, fs)
  {
    var fs := FsPurgeFiles(Prepared(env, files));
    assert PurgeFiles(env, files) == PurgeFilesOf(env, fs);
    PurgeFilesOfQueue(env, fs, Prepared(env, files));
  }

  lemma PurgeFilesOfQueue(env: Env, fs: Call, prep: seq<string>)
    requires fs == FsPurgeFiles(prep)
    ensures var r := PurgeFilesOf(env, fs);
      forall l | QueuePurgeFiles(l) in r.calls ::
        && r.calls[2] == QueuePurgeFiles(l) && l == env.remaining(1, fs)
        && env.doQueue && |l| > 0 && env.answer(1, fs)
  {
    OpenRunCloseQueue(env, fs, l => QueuePurgeFiles(l));
  }

  /** `purgeFiles` succeeds exactly when every call it made was accepted. */
  lemma PurgeFilesOk(env: Env, files: seq<string>)
    ensures var r := PurgeFiles(env, files);
      r.ok <==> Accepted(env, 0, r.calls)
  {
    var fs := FsPurgeFiles(Prepared(env, files));
    assert PurgeFiles(env, files) == PurgeFilesOf(env, fs);
    PurgeFilesOfOk(env, fs);
  }

  lemma PurgeFilesOfOk(env: Env, fs: Call)
    ensures var r := PurgeFilesOf(env, fs);
      r.ok <==> Accepted(env, 0, r.calls)
  {
    var q := l => QueuePurgeFiles(l);
    var o := OpenRunClose(env, fs, q);
    OpenRunCloseShape(env, fs, q);
    OpenRunCloseOk(env, fs, q);
    if |o.calls| == 1 {
      assert !env.answer(0 + 0, o.calls[0]);
    } else if !Closed(env, o.calls) {
      assert !env.answer(0 + (|o.calls| - 1), o.calls[|o.calls| - 1]);
    }
  }

  // ---------------------------------------------------------------------------
  // Updating documents found by a query

  /** A document as the query returns it: its backend name and its URL. */
  datatype Doc = Doc(backend: string, url: string)

  const FileUrlPrefix: string := "file://"

  /** A document of the file-system backend with a file URL. */
  predicate IsFsDoc(d: Doc)
  {
    (d.backend == "" || d.backend == "FS") && FileUrlPrefix <= d.url
  }

  /** The paths of the file-system documents, in order. */
  function FilePaths(docs: seq<Doc>): (r: seq<string>)
    ensures forall p :: p in r <==> exists d | d in docs :: IsFsDoc(d) && p == d.url[|FileUrlPrefix|..]
    ensures |r| <= |docs|
    ensures |r| == 0 <==> forall d | d in docs :: !IsFsDoc(d)
  {
    if |docs| == 0 then []
    else
      var rest := FilePaths(docs[1..]);
      assert forall d :: d in docs <==> d == docs[0] || d in docs[1..];
      if IsFsDoc(docs[0]) then [docs[0].url[|FileUrlPrefix|..]] + rest else rest
  }

  /** One document contributes its path exactly when it is a file-system document. */
  lemma FilePathsOne(d: Doc)
    ensures FilePaths([d]) == if IsFsDoc(d) then [d.url[|FileUrlPrefix|..]] else []
  {
    assert [d][1..] == [];
  }

  /**
   * The paths are collected document by document, in order: duplicates
   * (several documents of one file) are kept, one path per document.
   */
  lemma {:induction false} FilePathsAppend(a: seq<Doc>, b: seq<Doc>)
    ensures FilePaths(a + b) == FilePaths(a) + FilePaths(b)
    decreases |a|
  {
    if |a| > 0 {
      assert (a + b)[0] == a[0];
      assert (a + b)[1..] == a[1..] + b;
      FilePathsAppend(a[1..], b);
    } else {
      assert a + b == b;
    }
  }

  /**
   * `updateDocs`: index the paths of the file-system documents; with none,
   * succeed without touching the database.
   */
  function UpdateDocs(env: Env, docs: seq<Doc>, flag: int): (r: Run)
    ensures (forall d | d in docs :: !IsFsDoc(d)) ==> r == Run(true, [])
    ensures (exists d | d in docs :: IsFsDoc(d)) ==>
      && |r.calls| > 0 && r.calls[0] == Open(DbUpd)
      && (|r.calls| > 1 ==> r.calls[1] == FsIndexFiles(Prepared(env, FilePaths(docs)), flag))
    // The answer is that of `indexFiles`: true exactly when it cleared the
    // cache after accepted calls.
    ensures (exists d | d in docs :: IsFsDoc(d)) ==>
      var n := |r.calls|;
      n > 0 && (r.ok <==> r.calls[n - 1] == ClearCache && Accepted(env, 0, r.calls[..n - 1]))
  {
    var files := FilePaths(docs);
    if |files| > 0 then
      var i := IndexFiles(env, files, flag);
      IndexFilesOpenFirst(env, files, flag);
      IndexFilesResult(env, files, flag);
      assert files[0] in files;
      Run(i.ok, i.calls)
    else
      Run(true, [])
  }
}

=== FILE: pathsort.dfy ===
/**
 * Ordering and sorting of path lists, as `std::list<std::string>::sort`
 * does it: `std::string`'s `operator<`, which compares character codes left
 * to right and puts a proper prefix first.
 */
module PathSort {

  /** `a < b` on `std::string`. */
  predicate Less(a: string, b: string)
  {
    if |a| == 0 then |b| > 0
    else if |b| == 0 then false
    else if a[0] != b[0] then a[0] < b[0]
    else Less(a[1..], b[1..])
  }

  lemma {:induction false} LessIrreflexive(a: string)
    ensures !Less(a, a)
  {
    if |a| > 0 {
      LessIrreflexive(a[1..]);
    }
  }

  lemma {:induction false} LessAsymmetric(a: string, b: string)
    requires Less(a, b)
    ensures !Less(b, a)
  {
    if |a| > 0 && |b| > 0 && a[0] == b[0] {
      LessAsymmetric(a[1..], b[1..]);
    }
  }

  lemma {:induction false} LessTransitive(a: string, b: string, c: string)
    requires Less(a, b) && Less(b, c)
    ensures Less(a, c)
  {
    if |a| > 0 && |b| > 0 && |c| > 0 && a[0] == b[0] && b[0] == c[0] {
      LessTransitive(a[1..], b[1..], c[1..]);
    }
  }

  /** Two different strings are always ordered one way or the other. */
  lemma {:induction false} LessTotal(a: string, b: string)
    requires a != b
    ensures Less(a, b) || Less(b, a)
  {
    if |a| > 0 && |b| > 0 && a[0] == b[0] {
      assert a == [a[0]] + a[1..] && b == [b[0]] + b[1..];
      LessTotal(a[1..], b[1..]);
    }
  }

  /** `!(b < a)`: no later element is smaller than an earlier one. */
  predicate Sorted(s: seq<string>)
  {
    forall i, j | 0 <= i < j < |s| :: !Less(s[j], s[i])
  }

  /** `a <= b` in the total order. */
  lemma NotLessTransitive(a: string, b: string, c: string)
    requires !Less(b, a) && !Less(c, b)
    ensures !Less(c, a)
  {
    if Less(c, a) {
      if a == b {
      } else if b == c {
      } else {
        LessTotal(a, b);
        LessTotal(b, c);
        LessTransitive(c, a, b);
      }
    }
  }

  /** Insertion of one path into a sorted list. */
  function Insert(x: string, s: seq<string>): (r: seq<string>)
    requires Sorted(s)
    ensures Sorted(r)
    ensures multiset(r) == multiset(s) + multiset{x}
    ensures |r| == |s| + 1
  {
    if |s| == 0 then [x]
    else if Less(s[0], x) then
      var t := Insert(x, s[1..]);
      assert s == [s[0]] + s[1..];
      InsertHead(x, s, t);
      [s[0]] + t
    else
      InsertFront(x, s);
      [x] + s
  }

  lemma InsertHead(x: string, s: seq<string>, t: seq<string>)
    requires |s| > 0 && Sorted(s) && Less(s[0], x)
    requires Sorted(t) && multiset(t) == multiset(s[1..]) + multiset{x}
    ensures Sorted([s[0]] + t)
  {
    forall j | 0 < j < |t| + 1
      ensures !Less(([s[0]] + t)[j], s[0])
    {
      var y := t[j - 1];
      assert y in multiset(t);
      if y == x {
        LessAsymmetric(s[0], x);
      } else {
        assert y in multiset(s[1..]);
        var k :| 0 <= k < |s[1..]| && s[1..][k] == y;
        assert s[k + 1] == y;
      }
    }
  }

  lemma InsertFront(x: string, s: seq<string>)
    requires |s| > 0 && Sorted(s) && !Less(s[0], x)
    ensures Sorted([x] + s)
  {
    forall j | 0 < j < |s| + 1
      ensures !Less(([x] + s)[j], x)
    {
      if j > 1 {
        NotLessTransitive(x, s[0], s[j - 1]);
      }
    }
  }

  /** `list::sort`: a sorted permutation of its input. */
  function Sort(s: seq<string>): (r: seq<string>)
    ensures Sorted(r)
    ensures multiset(r) == multiset(s)
    ensures |r| == |s|
  {
    if |s| == 0 then []
    else
      assert s == [s[0]] + s[1..];
      Insert(s[0], Sort(s[1..]))
  }

  /** There is only one sorted arrangement of a list, so any sort agrees with `Sort`. */
  lemma {:induction false} SortedUnique(a: seq<string>, b: seq<string>)
    requires Sorted(a) && Sorted(b) && multiset(a) == multiset(b)
    ensures a == b
    decreases |a|
  {
    if |a| > 0 {
      assert |b| > 0 by {
        assert a[0] in multiset(a);
      }
      assert a[0] in multiset(b) && b[0] in multiset(a) by {
        assert a[0] in multiset(a) && b[0] in multiset(b);
      }
      if a[0] != b[0] {
        LessTotal(a[0], b[0]);
        if Less(a[0], b[0]) {
          SmallestFirst(b, a[0]);
        } else {
          SmallestFirst(a, b[0]);
        }
      }
      SortedTail(a);
      SortedTail(b);
      assert a[0] == b[0];
      assert multiset(a) == multiset{a[0]} + multiset(a[1..]) by {
        assert a == [a[0]] + a[1..];
      }
      assert multiset(b) == multiset{b[0]} + multiset(b[1..]) by {
        assert b == [b[0]] + b[1..];
      }
      assert multiset(a[1..]) == multiset(a) - multiset{a[0]};
      assert multiset(b[1..]) == multiset(b) - multiset{b[0]};
      SortedUnique(a[1..], b[1..]);
    }
  }

  lemma SortedTail(s: seq<string>)
    requires |s| > 0 && Sorted(s)
    ensures Sorted(s[1..])
  {
    forall i, j | 0 <= i < j < |s| - 1
      ensures !Less(s[1..][j], s[1..][i])
    {
      assert s[1..][j] == s[j + 1] && s[1..][i] == s[i + 1];
    }
  }

  /** In a sorted list nothing is smaller than the head. */
  lemma SmallestFirst(s: seq<string>, x: string)
    requires |s| > 0 && Sorted(s) && x in multiset(s)
    ensures !Less(x, s[0])
  {
    var k :| 0 <= k < |s| && s[k] == x;
    if k == 0 {
      LessIrreflexive(x);
    }
  }

  /** Sorting an already sorted list gives it back. */
  lemma SortSorted(s: seq<string>)
    requires Sorted(s)
    ensures Sort(s) == s
  {
    SortedUnique(Sort(s), s);
  }
}

=== FILE: textsplit.dfy ===
/**
 * The text splitter: a state machine folded over the code points of a text,
 * delivering (term, position, byte start, byte end) tuples to a sink.
 *
 * Two accumulators are kept: `word` holds a strict alphanumeric run and
 * `span` may also hold embedded `- + @ . ' #`.  The C++ accumulators are
 * UTF-8 byte strings; here they hold code points and every length the
 * source compares is measured in UTF-8 bytes (`ByteLen`).
 */
module TextSplit {
  import opened CharClasses

  const HASH: CodePoint := '#' as int
  const QUOTE: CodePoint := '\'' as int
  const PLUS: CodePoint := '+' as int
  const COMMA: CodePoint := ',' as int
  const MINUS: CodePoint := '-' as int
  const DOT: CodePoint := '.' as int
  const AT: CodePoint := '@' as int

  /** Number of bytes the UTF-8 encoding of a code point takes. */
  function Utf8Len(c: CodePoint): nat
  {
    if c < 0x80 then 1 else if c < 0x800 then 2 else if c < 0x1_0000 then 3 else 4
  }

  /** Length in bytes of the UTF-8 string holding `s`. */
  function ByteLen(s: seq<CodePoint>): nat
  {
    if |s| == 0 then 0 else ByteLen(s[..|s| - 1]) + Utf8Len(s[|s| - 1])
  }

  lemma ByteLenAppend(s: seq<CodePoint>, c: CodePoint)
    ensures ByteLen(s + [c]) == ByteLen(s) + Utf8Len(c)
  {
    assert (s + [c])[..|s|] == s;
  }

  /** Bytes are at least as many as code points; one byte means one ASCII code point. */
  lemma {:induction false} ByteLenBounds(s: seq<CodePoint>)
    ensures ByteLen(s) >= |s|
    ensures ByteLen(s) == 0 <==> |s| == 0
    ensures ByteLen(s) == 1 <==> |s| == 1 && s[0] <= 127
  {
    if |s| > 0 {
      ByteLenBounds(s[..|s| - 1]);
    }
  }

  /** A prefix never takes more bytes than the whole. */
  lemma {:induction false} ByteLenPrefix(s: seq<CodePoint>, n: nat)
    requires n <= |s|
    ensures ByteLen(s[..n]) <= ByteLen(s)
    decreases |s|
  {
    if n < |s| {
      assert s[..|s| - 1][..n] == s[..n];
      ByteLenPrefix(s[..|s| - 1], n);
    } else {
      assert s[..n] == s;
    }
  }

  /** A 32-bit signed integer, the type of `maxWordLength`. */
  type Int32 = x: int | -0x8000_0000 <= x < 0x8000_0000

  /** `(unsigned)maxWordLength`: a negative limit wraps to a huge one. */
  function WordLimit(m: Int32): (r: nat)
    ensures m >= 0 ==> r == m
    ensures m < 0 ==> r >= 0x8000_0000
  {
    if m >= 0 then m else m + 0x1_0000_0000
  }

  /** One emitted tuple: term, word position, byte start and byte end. */
  datatype Term = Term(text: seq<CodePoint>, pos: int, byteStart: int, byteEnd: int)

  /**
   * The callback `takeword`.  Its answer may depend on every term delivered
   * before, so any deterministic, stateful consumer fits.
   */
  type Sink = (seq<Term>, Term) -> bool

  /**
   * The splitter's fields: query mode (`fq`), the length limit, the two
   * accumulators and their positions, the number flag, the last emitted term
   * and position, and the terms delivered to the sink during this split.
   */
  datatype Splitter = Splitter(
    queryMode: bool,
    maxWordLength: Int32,
    word: seq<CodePoint>,
    span: seq<CodePoint>,
    number: bool,
    wordPos: int,
    spanPos: int,
    prevTerm: seq<CodePoint>,
    prevPos: int,
    out: seq<Term>)

  /** What one emit returns: the callback's verdict, the trimmed string, the new state. */
  datatype Emitted = Emitted(ok: bool, text: seq<CodePoint>, st: Splitter)

  /** A step's verdict (false: stop splitting) and the new state. */
  datatype Outcome = Outcome(ok: bool, st: Splitter)

  /** Characters kept inside a word or span but never at its end. */
  predicate Trailing(c: CodePoint)
  {
    c == DOT || c == COMMA || c == AT || c == QUOTE
  }

  function Max(a: int, b: int): int { if a >= b then a else b }

  /**
   * The in-place trim of `emitterm`: drop trailing `. , @ '` and move the byte
   * end back once per dropped character, never below 0.
   */
  function TrimEnd(w: seq<CodePoint>, btend: int): (r: (seq<CodePoint>, int))
    ensures |r.0| <= |w| && r.0 == w[..|r.0|]
    ensures |r.0| > 0 ==> !Trailing(r.0[|r.0| - 1])
    ensures forall k | |r.0| <= k < |w| :: Trailing(w[k])
    ensures r.1 == (if |r.0| == |w| then btend else Max(0, btend - (|w| - |r.0|)))
    decreases |w|
  {
    if |w| > 0 && Trailing(w[|w| - 1]) then
      TrimEnd(w[..|w| - 1], if btend - 1 < 0 then 0 else btend - 1)
    else (w, btend)
  }

  /**
   * The reasons `emitterm` returns true without calling back: an empty term,
   * one at or above the length limit, or a one-byte term whose class is
   * neither LETTER nor DIGIT.
   */
  predicate Dropped(cs: ClassState, limit: nat, t: seq<CodePoint>)
  {
    || |t| == 0
    || ByteLen(t) >= limit
    || (|t| == 1 && t[0] <= 127 && !IsAlnumClass(cs.table[t[0]]))
  }

  /** `emitterm`: trim, filter, suppress a repeat, then call back and remember the term. */
  function EmitTerm(cs: ClassState, sp: Splitter, w: seq<CodePoint>, pos: int, btstart: int, btend: int, sink: Sink): (r: Emitted)
    ensures r.text == TrimEnd(w, btend).0
    ensures Dropped(cs, WordLimit(sp.maxWordLength), r.text) ==> r.ok && r.st == sp
    ensures (!Dropped(cs, WordLimit(sp.maxWordLength), r.text) && pos == sp.prevPos && r.text == sp.prevTerm)
      ==> r.ok && r.st == sp
    ensures (!Dropped(cs, WordLimit(sp.maxWordLength), r.text) && (pos != sp.prevPos || r.text != sp.prevTerm))
      ==> (var term := Term(r.text, pos, btstart, TrimEnd(w, btend).1);
           && r.st == sp.(out := sp.out + [term], prevTerm := r.text, prevPos := pos)
           && r.ok == sink(sp.out, term))
  {
    var (t, be) := TrimEnd(w, btend);
    var l := ByteLen(t);
    ByteLenBounds(t);
    if l > 0 && l < WordLimit(sp.maxWordLength) then
      if l == 1 && !IsAlnumClass(cs.table[t[0]]) then
        Emitted(true, t, sp)
      else if pos != sp.prevPos || l != ByteLen(sp.prevTerm) || t != sp.prevTerm then
        var term := Term(t, pos, btstart, be);
        Emitted(sink(sp.out, term), t, sp.(out := sp.out + [term], prevTerm := t, prevPos := pos))
      else
        Emitted(true, t, sp)
    else
      Emitted(true, t, sp)
  }

  /** Every term delivered from index `n` on was accepted by the sink. */
  ghost predicate AcceptedFrom(sink: Sink, out: seq<Term>, n: nat)
  {
    forall k | n <= k < |out| :: sink(out[..k], out[k])
  }

  /** The term `doemit` delivers for the span, if it delivers one. */
  function SpanTerm(sp: Splitter, bp: int): Term
  {
    var (t, be) := TrimEnd(sp.span, bp);
    Term(t, sp.spanPos, bp - ByteLen(sp.span), be)
  }

  /** The span half of `doemit`: the span is emitted unless in query mode with the span still open. */
  function SpanEmit(cs: ClassState, sp: Splitter, spanErase: bool, bp: int, sink: Sink): (r: Emitted)
    ensures r.st == sp.(out := r.st.out, prevTerm := r.st.prevTerm, prevPos := r.st.prevPos)
    ensures sp.out <= r.st.out && |r.st.out| <= |sp.out| + 1
  {
    if !sp.queryMode || spanErase
    then EmitTerm(cs, sp, sp.span, sp.spanPos, bp - ByteLen(sp.span), bp, sink)
    else Emitted(true, sp.span, sp)
  }

  /**
   * The word half of `doemit`, run once the span holds its trimmed value:
   * the word is emitted when its byte length differs from the span's and
   * not in query mode.
   */
  function WordEmit(cs: ClassState, s1: Splitter, bp: int, sink: Sink): (r: Emitted)
    ensures r.st == s1.(out := r.st.out, prevTerm := r.st.prevTerm, prevPos := r.st.prevPos)
    ensures s1.out <= r.st.out && |r.st.out| <= |s1.out| + 1
  {
    if ByteLen(s1.word) != ByteLen(s1.span) && !s1.queryMode
    then EmitTerm(cs, s1, s1.word, s1.wordPos, bp - ByteLen(s1.word), bp, sink)
    else Emitted(true, s1.word, s1)
  }

  /**
   * `doemit`: emit the span, then the word, then advance the word position
   * and clear the word; at span end also clear the span and move its
   * position to the word's.
   */
  function DoEmit(cs: ClassState, sp: Splitter, spanErase: bool, bp: int, sink: Sink): (r: Outcome)
    ensures sp.out <= r.st.out && |r.st.out| <= |sp.out| + 2
    ensures r.ok ==> r.st.word == [] && r.st.wordPos == sp.wordPos + 1
    ensures r.ok && spanErase ==> r.st.span == [] && r.st.spanPos == r.st.wordPos
    ensures r.st.queryMode == sp.queryMode && r.st.maxWordLength == sp.maxWordLength
    ensures r.st.number == sp.number
  {
    var e1 := SpanEmit(cs, sp, spanErase, bp, sink);
    var s1 := e1.st.(span := e1.text);
    if !e1.ok then Outcome(false, s1)
    else
      var e2 := WordEmit(cs, s1, bp, sink);
      if !e2.ok then Outcome(false, e2.st.(word := e2.text))
      else
        var s2 := e2.st.(word := [], wordPos := e2.st.wordPos + 1);
        Outcome(true, if spanErase then s2.(span := [], spanPos := s2.wordPos) else s2)
  }

  /** The class `whatcc` gives to the character after position `i` (the end reads as the error value). */
  function NextClass(cs: ClassState, input: seq<CodePoint>, i: nat): CharClass
  {
    WhatCC(cs, if i + 1 < |input| then input[i + 1] else INVALID)
  }

  /** Append a character to both accumulators. */
  function AppendBoth(sp: Splitter, c: CodePoint): Splitter
  {
    sp.(word := sp.word + [c], span := sp.span + [c])
  }

  /** The SPACE case: close word and span if either is non-empty, and leave number mode. */
  function SpaceStep(cs: ClassState, sp: Splitter, bp: int, sink: Sink): (r: Outcome)
    ensures |sp.word| == 0 && |sp.span| == 0 ==> r == Outcome(true, sp)
    ensures sp.out <= r.st.out
    ensures r.st.queryMode == sp.queryMode && r.st.maxWordLength == sp.maxWordLength
  {
    if |sp.word| > 0 || |sp.span| > 0 then
      var o := DoEmit(cs, sp, true, bp, sink);
      if !o.ok then o else Outcome(true, o.st.(number := false))
    else Outcome(true, sp)
  }

  /** Close the word (the span stays open), leave number mode, and add `c` to the span. */
  function BreakWord(cs: ClassState, sp: Splitter, c: CodePoint, bp: int, sink: Sink): (r: Outcome)
    ensures sp.out <= r.st.out
    ensures r.st.queryMode == sp.queryMode && r.st.maxWordLength == sp.maxWordLength
  {
    var o := DoEmit(cs, sp, false, bp, sink);
    if !o.ok then o else Outcome(true, o.st.(number := false, span := o.st.span + [c]))
  }

  /**
   * What the loop body does with one code point, decided from its class, the
   * accumulators, the number flag and the class of the next code point.
   */
  datatype Action =
    | Skip          // ignore the character
    | Both          // add it to word and span
    | DigitBoth     // add it to word and span; a digit starting a word enters number mode
    | SignNumber    // a leading sign before a digit: add it to both, enter number mode
    | SpanOnly      // add it to the span only
    | SpaceBreak    // the SPACE case: close word and span
    | WordBreak     // close the word, leave number mode, add it to the span
    | DotBreak      // close the word; add the '.' to the span if one is open

  function Decide(cs: ClassState, sp: Splitter, input: seq<CodePoint>, i: nat): Action
    requires i < |input|
  {
    match WhatCC(cs, input[i])
    case Space => SpaceBreak
    case Digit => DigitBoth
    case Letter => Both
    case Self(ch) =>
      if ch == '-' || ch == '+' then
        if |sp.word| == 0 then
          if NextClass(cs, input, i) == Digit then SignNumber else SpanOnly
        else WordBreak
      else if ch == '.' || ch == ',' then
        if sp.number then Both
        else if ch == '.' then
          if |sp.word| > 0 then DotBreak else SpanOnly
        else SpaceBreak
      else if ch == '@' then
        if |sp.word| > 0 then WordBreak else SpanOnly
      else if ch == '\'' then
        if |sp.word| > 0 then WordBreak else Skip
      else if ch == '#' then
        if |sp.word| > 0 && NextClass(cs, input, i) in {Space, Self('\n'), Self('\r')} then Both
        else SpaceBreak
      else if ch == '\n' || ch == '\r' then
        if |sp.span| > 0 && sp.span[|sp.span| - 1] == MINUS then Skip else SpaceBreak
      else Both
  }

  /** Carry out an action for code point `c` at byte offset `bp`. */
  function Apply(cs: ClassState, sp: Splitter, a: Action, c: CodePoint, bp: int, sink: Sink): (r: Outcome)
    ensures sp.out <= r.st.out
    ensures r.st.queryMode == sp.queryMode && r.st.maxWordLength == sp.maxWordLength
  {
    match a
    case Skip => Outcome(true, sp)
    case Both => Outcome(true, AppendBoth(sp, c))
    case DigitBoth => Outcome(true, AppendBoth(sp, c).(number := if |sp.word| == 0 then true else sp.number))
    case SignNumber => Outcome(true, AppendBoth(sp, c).(number := true))
    case SpanOnly => Outcome(true, sp.(span := sp.span + [c]))
    case SpaceBreak => SpaceStep(cs, sp, bp, sink)
    case WordBreak => BreakWord(cs, sp, c, bp, sink)
    case DotBreak =>
      var o := DoEmit(cs, sp, false, bp, sink);
      if !o.ok then o
      else if |o.st.span| > 0 then Outcome(true, o.st.(span := o.st.span + [c]))
      else o
  }

  /** The body of the `text_to_words` loop for the (valid) code point at position `i`. */
  function Step(cs: ClassState, sp: Splitter, input: seq<CodePoint>, i: nat, sink: Sink): (r: Outcome)
    requires i < |input|
    ensures sp.out <= r.st.out
    ensures r.st.queryMode == sp.queryMode && r.st.maxWordLength == sp.maxWordLength
  {
    Apply(cs, sp, Decide(cs, sp, input, i), input[i], ByteLen(input[..i]), sink)
  }

  /** The final flush: emit a pending word or span as span end. */
  function Flush(cs: ClassState, sp: Splitter, bp: int, sink: Sink): Outcome
  {
    if |sp.word| > 0 || |sp.span| > 0 then DoEmit(cs, sp, true, bp, sink)
    else Outcome(true, sp)
  }

  /**
   * The `text_to_words` loop from position `i`: stop with false on the
   * iterator's error value or when an emit returns false, otherwise flush at
   * the end.
   */
  function Run(cs: ClassState, sp: Splitter, input: seq<CodePoint>, i: nat, sink: Sink): (r: Outcome)
    requires i <= |input|
    ensures sp.out <= r.st.out
    ensures INVALID in input[i..] ==> !r.ok
    ensures r.ok ==> r.st.word == [] && r.st.span == []
    ensures r.st.queryMode == sp.queryMode && r.st.maxWordLength == sp.maxWordLength
    decreases |input| - i
  {
    if i == |input| then Flush(cs, sp, ByteLen(input), sink)
    else if input[i] == INVALID then Outcome(false, sp)
    else
      var o := Step(cs, sp, input, i, sink);
      if !o.ok then o
      else
        assert input[i..] == [input[i]] + input[i + 1..];
        Run(cs, o.st, input, i + 1, sink)
  }

  /** The result of one split: the verdict, the class state after initialisation, the splitter. */
  datatype Split = Split(ok: bool, classes: ClassState, st: Splitter)

  /** `text_to_words`: initialise the classes, reset the accumulators, run the loop. */
  function TextToWords(cs: ClassState, uniign: set<CodePoint>, sp: Splitter, input: seq<CodePoint>, sink: Sink): (r: Split)
    ensures r.classes == SetCharClasses(cs, uniign)
    ensures INVALID in input ==> !r.ok
    ensures r.st.queryMode == sp.queryMode && r.st.maxWordLength == sp.maxWordLength
  {
    var classes := SetCharClasses(cs, uniign);
    var s0 := sp.(word := [], span := [], number := false, wordPos := 0, spanPos := 0, out := []);
    assert input[0..] == input;
    var o := Run(classes, s0, input, 0, sink);
    Split(o.ok, classes, o.st)
  }
}

=== FILE: textsplit_proofs.dfy ===
/**
 * Properties of the text splitter: the rules of `doemit` and of the
 * punctuation cases, and the invariants the whole split keeps — every
 * delivered term is trimmed, long enough, short enough, free of separators
 * and carries a byte range as long as its text; no term is delivered twice
 * in a row at the same position; and the split succeeds exactly when the
 * input decodes and the sink accepts every term.
 */
module TextSplitProofs {
  import opened CharClasses
  import opened TextSplit

  /** Code points that can sit inside a word or span: not SPACE and not a line break. */
  predicate Joinable(cs: ClassState, c: CodePoint)
  {
    WhatCC(cs, c) != Space && WhatCC(cs, c) != Self('\n') && WhatCC(cs, c) != Self('\r')
  }

  predicate AllJoinable(cs: ClassState, s: seq<CodePoint>)
  {
    forall k {:trigger Joinable(cs, s[k])} | 0 <= k < |s| :: Joinable(cs, s[k])
  }

  /** What every delivered term satisfies. */
  predicate WellFormed(cs: ClassState, limit: nat, t: Term)
  {
    && !Dropped(cs, limit, t.text)
    && !Trailing(t.text[|t.text| - 1])
    && AllJoinable(cs, t.text)
    && 0 <= t.byteStart
    && t.byteEnd - t.byteStart == ByteLen(t.text)
  }

  /** The term `doemit` delivers for the word, if it delivers one. */
  function WordTerm(sp: Splitter, bp: int): Term
  {
    var (t, be) := TrimEnd(sp.word, bp);
    Term(t, sp.wordPos, bp - ByteLen(sp.word), be)
  }

  function Key(t: Term): (seq<CodePoint>, int)
  {
    (t.text, t.pos)
  }

  /** The (term, position) remembered after delivering `out`, starting from `init`. */
  function LastKey(init: (seq<CodePoint>, int), out: seq<Term>): (seq<CodePoint>, int)
  {
    if |out| == 0 then init else Key(out[|out| - 1])
  }

  /** The term at index `k` differs, text or position, from the one delivered just before it. */
  predicate Fresh(init: (seq<CodePoint>, int), out: seq<Term>, k: int)
  {
    0 <= k < |out| ==> Key(out[k]) != LastKey(init, out[..k])
  }

  /** No term equals, text and position, the one delivered just before it. */
  ghost predicate NoRepeat(init: (seq<CodePoint>, int), out: seq<Term>)
  {
    forall k {:trigger Fresh(init, out, k)} | 0 <= k < |out| :: Fresh(init, out, k)
  }

  /** What every delivered term satisfies, with positions up to `wp` and bytes up to `bp`. */
  ghost predicate TermOk(cs: ClassState, limit: nat, wp: int, bp: int, t: Term)
  {
    WellFormed(cs, limit, t) && 0 <= t.pos <= wp && t.byteEnd <= bp
  }

  ghost predicate TermsOk(cs: ClassState, limit: nat, wp: int, bp: int, out: seq<Term>)
  {
    forall k {:trigger TermOk(cs, limit, wp, bp, out[k])} | 0 <= k < |out| :: TermOk(cs, limit, wp, bp, out[k])
  }

  /** Facts about the delivered terms, up to byte offset `bp`. */
  ghost predicate OutOk(cs: ClassState, sp: Splitter, bp: int, init: (seq<CodePoint>, int))
  {
    && (sp.prevTerm, sp.prevPos) == LastKey(init, sp.out)
    && NoRepeat(init, sp.out)
    && TermsOk(cs, WordLimit(sp.maxWordLength), sp.wordPos, bp, sp.out)
  }

  /** Facts about the accumulators at byte offset `bp`. */
  ghost predicate AccOk(cs: ClassState, sp: Splitter, bp: int)
  {
    && AllJoinable(cs, sp.word) && ByteLen(sp.word) <= bp
    && AllJoinable(cs, sp.span) && ByteLen(sp.span) <= bp
    && 0 <= sp.spanPos <= sp.wordPos
  }

  lemma AllJoinablePrefix(cs: ClassState, s: seq<CodePoint>, n: nat)
    requires AllJoinable(cs, s) && n <= |s|
    ensures AllJoinable(cs, s[..n])
  {
    forall k | 0 <= k < n
      ensures Joinable(cs, s[..n][k])
    {
      assert s[..n][k] == s[k] && Joinable(cs, s[k]);
    }
  }

  lemma AllJoinableAppend(cs: ClassState, s: seq<CodePoint>, c: CodePoint)
    requires AllJoinable(cs, s) && Joinable(cs, c)
    ensures AllJoinable(cs, s + [c])
  {
    forall k | 0 <= k < |s| + 1
      ensures Joinable(cs, (s + [c])[k])
    {
      if k < |s| {
        assert (s + [c])[k] == s[k] && Joinable(cs, s[k]);
      }
    }
  }

  // ---------------------------------------------------------------------------
  // Byte lengths

  lemma {:induction false} ByteLenConcat(a: seq<CodePoint>, b: seq<CodePoint>)
    ensures ByteLen(a + b) == ByteLen(a) + ByteLen(b)
    decreases |b|
  {
    if |b| > 0 {
      var b' := b[..|b| - 1];
      assert (a + b)[..|a + b| - 1] == a + b';
      ByteLenConcat(a, b');
    } else {
      assert a + b == a;
    }
  }

  lemma ByteLenSuffix(s: seq<CodePoint>, n: nat)
    requires n <= |s|
    ensures ByteLen(s[n..]) <= ByteLen(s)
  {
    assert s == s[..n] + s[n..];
    ByteLenConcat(s[..n], s[n..]);
  }

  /** Trimmed characters are ASCII: one byte each. */
  lemma {:induction false} ByteLenTrailing(w: seq<CodePoint>, n: nat)
    requires n <= |w|
    requires forall k | n <= k < |w| :: Trailing(w[k])
    ensures ByteLen(w) == ByteLen(w[..n]) + (|w| - n)
    decreases |w|
  {
    if n < |w| {
      assert w[..|w| - 1][..n] == w[..n];
      ByteLenTrailing(w[..|w| - 1], n);
    } else {
      assert w[..n] == w;
    }
  }

  /** The trimmed text does not depend on the byte end. */
  lemma {:induction false} TrimTextOnly(w: seq<CodePoint>, a: int, b: int)
    ensures TrimEnd(w, a).0 == TrimEnd(w, b).0
    decreases |w|
  {
    if |w| > 0 && Trailing(w[|w| - 1]) {
      TrimTextOnly(w[..|w| - 1], if a - 1 < 0 then 0 else a - 1, if b - 1 < 0 then 0 else b - 1);
    }
  }

  // ---------------------------------------------------------------------------
  // emitterm

  /** A term built by `emitterm` from `w` ending at `bp` is well formed unless dropped. */
  lemma EmittedWellFormed(cs: ClassState, limit: nat, w: seq<CodePoint>, pos: int, bp: int)
    requires AllJoinable(cs, w) && ByteLen(w) <= bp
    requires !Dropped(cs, limit, TrimEnd(w, bp).0)
    ensures var (t, be) := TrimEnd(w, bp);
      WellFormed(cs, limit, Term(t, pos, bp - ByteLen(w), be)) && be <= bp
  {
    var (t, be) := TrimEnd(w, bp);
    ByteLenTrailing(w, |t|);
    assert w[..|t|] == t;
  }

  /** Delivering one more good term, different from the remembered one, keeps the facts. */
  lemma OutAppend(cs: ClassState, sp: Splitter, bp: int, init: (seq<CodePoint>, int), t: Term)
    requires OutOk(cs, sp, bp, init)
    requires TermOk(cs, WordLimit(sp.maxWordLength), sp.wordPos, bp, t)
    requires Key(t) != (sp.prevTerm, sp.prevPos)
    ensures OutOk(cs, sp.(out := sp.out + [t], prevTerm := t.text, prevPos := t.pos), bp, init)
  {
    var out := sp.out + [t];
    var limit := WordLimit(sp.maxWordLength);
    forall k | 0 <= k < |out|
      ensures Fresh(init, out, k) && TermOk(cs, limit, sp.wordPos, bp, out[k])
    {
      assert out[..k] == if k < |sp.out| then sp.out[..k] else sp.out;
      if k < |sp.out| {
        assert Fresh(init, sp.out, k) && TermOk(cs, limit, sp.wordPos, bp, sp.out[k]);
      }
    }
  }

  /** `emitterm` keeps the delivered-term facts. */
  lemma EmitTermOut(cs: ClassState, sp: Splitter, w: seq<CodePoint>, pos: int, bp: int, sink: Sink,
                    init: (seq<CodePoint>, int))
    requires OutOk(cs, sp, bp, init)
    requires AllJoinable(cs, w) && ByteLen(w) <= bp && 0 <= pos <= sp.wordPos
    ensures OutOk(cs, EmitTerm(cs, sp, w, pos, bp - ByteLen(w), bp, sink).st, bp, init)
  {
    var limit := WordLimit(sp.maxWordLength);
    var r := EmitTerm(cs, sp, w, pos, bp - ByteLen(w), bp, sink);
    if !Dropped(cs, limit, r.text) && (pos != sp.prevPos || r.text != sp.prevTerm) {
      EmittedWellFormed(cs, limit, w, pos, bp);
      var (t, be) := TrimEnd(w, bp);
      var term := Term(t, pos, bp - ByteLen(w), be);
      OutAppend(cs, sp, bp, init, term);
      assert r.st == sp.(out := sp.out + [term], prevTerm := t, prevPos := pos);
    } else {
      assert r.st == sp;
    }
  }

  /**
   * `emitterm` changes nothing but the output and the remembered term,
   * delivers at most one term, and returns true exactly when whatever it
   * delivered was accepted.
   */
  lemma EmitTermAccepted(cs: ClassState, sp: Splitter, w: seq<CodePoint>, pos: int, btstart: int, bp: int, sink: Sink)
    ensures var r := EmitTerm(cs, sp, w, pos, btstart, bp, sink);
      && r.st == sp.(out := r.st.out, prevTerm := r.st.prevTerm, prevPos := r.st.prevPos)
      && sp.out <= r.st.out && |r.st.out| <= |sp.out| + 1
      && (r.ok <==> AcceptedFrom(sink, r.st.out, |sp.out|))
  {
    var limit := WordLimit(sp.maxWordLength);
    var r := EmitTerm(cs, sp, w, pos, btstart, bp, sink);
    if !Dropped(cs, limit, r.text) && (pos != sp.prevPos || r.text != sp.prevTerm) {
      assert r.st.out[..|sp.out|] == sp.out;
    }
  }

  lemma AcceptedSplit(sink: Sink, out1: seq<Term>, out2: seq<Term>, n: nat)
    requires n <= |out1| && out1 <= out2
    ensures AcceptedFrom(sink, out2, n) <==> AcceptedFrom(sink, out1, n) && AcceptedFrom(sink, out2, |out1|)
  {
    assert forall k | n <= k < |out1| :: out2[..k] == out1[..k] && out2[k] == out1[k];
  }

  // ---------------------------------------------------------------------------
  // doemit

  /** The delivered-term facts survive a later word position and a later byte offset. */
  lemma TermsOkWeaken(cs: ClassState, limit: nat, wp: int, bp: int, wp': int, bp': int, out: seq<Term>)
    requires TermsOk(cs, limit, wp, bp, out) && wp <= wp' && bp <= bp'
    ensures TermsOk(cs, limit, wp', bp', out)
  {
    forall k | 0 <= k < |out|
      ensures TermOk(cs, limit, wp', bp', out[k])
    {
      assert TermOk(cs, limit, wp, bp, out[k]);
    }
  }

  /** The delivered-term facts depend only on the output, the remembered term, the limit and the word position. */
  lemma OutOkFrame(cs: ClassState, sp: Splitter, sp': Splitter, bp: int, bp': int, init: (seq<CodePoint>, int))
    requires OutOk(cs, sp, bp, init)
    requires sp'.out == sp.out && sp'.prevTerm == sp.prevTerm && sp'.prevPos == sp.prevPos
    requires sp'.maxWordLength == sp.maxWordLength && sp.wordPos <= sp'.wordPos && bp <= bp'
    ensures OutOk(cs, sp', bp', init)
  {
    TermsOkWeaken(cs, WordLimit(sp.maxWordLength), sp.wordPos, bp, sp'.wordPos, bp', sp.out);
  }

  /** What one `emitterm` delivers: nothing, or exactly the trimmed term, and only when kept and new. */
  lemma EmitTermDelivers(cs: ClassState, sp: Splitter, w: seq<CodePoint>, pos: int, btstart: int, bp: int, sink: Sink)
    ensures var r := EmitTerm(cs, sp, w, pos, btstart, bp, sink);
      var (t, be) := TrimEnd(w, bp);
      && (|r.st.out| == |sp.out| + 1 ==> r.st.out[|sp.out|] == Term(t, pos, btstart, be))
      && (|r.st.out| == |sp.out| + 1 <==>
            !Dropped(cs, WordLimit(sp.maxWordLength), t) && (t, pos) != (sp.prevTerm, sp.prevPos))
      && (!r.ok ==> |r.st.out| == |sp.out| + 1 && !sink(sp.out, r.st.out[|sp.out|]))
  {
  }

  /** The span half delivers nothing but the span's term, and leaves the span trimmed unless it skips. */
  lemma SpanEmitDelivers(cs: ClassState, sp: Splitter, spanErase: bool, bp: int, sink: Sink)
    ensures var e1 := SpanEmit(cs, sp, spanErase, bp, sink);
      && (forall k | |sp.out| <= k < |e1.st.out| :: e1.st.out[k] == SpanTerm(sp, bp))
      && e1.text == (if !sp.queryMode || spanErase then TrimEnd(sp.span, bp).0 else sp.span)
  {
    if !sp.queryMode || spanErase {
      EmitTermDelivers(cs, sp, sp.span, sp.spanPos, bp - ByteLen(sp.span), bp, sink);
    }
  }

  /** The word half delivers nothing but the word's term, and only outside query mode when the byte lengths differ. */
  lemma WordEmitDelivers(cs: ClassState, s1: Splitter, bp: int, sink: Sink)
    ensures var e2 := WordEmit(cs, s1, bp, sink);
      forall k | |s1.out| <= k < |e2.st.out| ::
        !s1.queryMode && ByteLen(s1.word) != ByteLen(s1.span) && e2.st.out[k] == WordTerm(s1, bp)
  {
    if ByteLen(s1.word) != ByteLen(s1.span) && !s1.queryMode {
      EmitTermDelivers(cs, s1, s1.word, s1.wordPos, bp - ByteLen(s1.word), bp, sink);
    }
  }

  /**
   * What `doemit` delivers: only the span's term and, outside query mode when
   * the word's byte length differs from the trimmed span's, the word's term.
   */
  lemma DoEmitDelivers(cs: ClassState, sp: Splitter, spanErase: bool, bp: int, sink: Sink)
    ensures var r := DoEmit(cs, sp, spanErase, bp, sink);
      forall k | |sp.out| <= k < |r.st.out| ::
        || r.st.out[k] == SpanTerm(sp, bp)
        || (&& !sp.queryMode
            && ByteLen(sp.word) != ByteLen(TrimEnd(sp.span, bp).0)
            && r.st.out[k] == WordTerm(sp, bp))
  {
    var e1 := SpanEmit(cs, sp, spanErase, bp, sink);
    var s1 := e1.st.(span := e1.text);
    SpanEmitDelivers(cs, sp, spanErase, bp, sink);
    if e1.ok {
      var e2 := WordEmit(cs, s1, bp, sink);
      WordEmitDelivers(cs, s1, bp, sink);
      assert WordTerm(s1, bp) == WordTerm(sp, bp);
      var r := DoEmit(cs, sp, spanErase, bp, sink);
      assert r.st.out == e2.st.out;
      forall k | |sp.out| <= k < |r.st.out|
        ensures || r.st.out[k] == SpanTerm(sp, bp)
                || (&& !sp.queryMode
                    && ByteLen(sp.word) != ByteLen(TrimEnd(sp.span, bp).0)
                    && r.st.out[k] == WordTerm(sp, bp))
      {
        if k < |s1.out| {
          assert r.st.out[k] == e1.st.out[k];
        }
      }
    }
  }

  /**
   * The span's term comes first, and is delivered whenever the span is
   * emitted (not query mode, or span end), kept by the filters and not a
   * repeat of the remembered term.
   */
  lemma DoEmitSpanFirst(cs: ClassState, sp: Splitter, spanErase: bool, bp: int, sink: Sink)
    requires !sp.queryMode || spanErase
    requires !Dropped(cs, WordLimit(sp.maxWordLength), SpanTerm(sp, bp).text)
    requires Key(SpanTerm(sp, bp)) != (sp.prevTerm, sp.prevPos)
    ensures var r := DoEmit(cs, sp, spanErase, bp, sink);
      |r.st.out| > |sp.out| && r.st.out[|sp.out|] == SpanTerm(sp, bp)
  {
    EmitTermDelivers(cs, sp, sp.span, sp.spanPos, bp - ByteLen(sp.span), bp, sink);
  }

  /** In query mode with the span still open, `doemit` delivers nothing. */
  lemma DoEmitQuery(cs: ClassState, sp: Splitter, bp: int, sink: Sink)
    requires sp.queryMode
    ensures DoEmit(cs, sp, false, bp, sink).st.out == sp.out
  {
  }

  /**
   * On success with the span still open, the span is left trimmed (untrimmed
   * in query mode) and keeps its position.
   */
  lemma DoEmitLeavesSpan(cs: ClassState, sp: Splitter, bp: int, sink: Sink)
    ensures var r := DoEmit(cs, sp, false, bp, sink);
      r.ok ==> r.st.spanPos == sp.spanPos && r.st.span == (if sp.queryMode then sp.span else TrimEnd(sp.span, bp).0)
  {
    SpanEmitDelivers(cs, sp, false, bp, sink);
  }

  /** When an emit fails, it delivered exactly one term, the one the sink refused. */
  lemma EmitRefused(cs: ClassState, sp: Splitter, w: seq<CodePoint>, pos: int, btstart: int, bp: int, sink: Sink)
    ensures var e := EmitTerm(cs, sp, w, pos, btstart, bp, sink);
      !e.ok ==> exists t :: e.st.out == sp.out + [t] && !sink(sp.out, t)
  {
    var e := EmitTerm(cs, sp, w, pos, btstart, bp, sink);
    if !e.ok {
      EmitTermDelivers(cs, sp, w, pos, btstart, bp, sink);
      var t := e.st.out[|sp.out|];
      assert e.st.out == sp.out + [t];
    }
  }

  /** When `doemit` fails, the last term it delivered is the one the sink refused. */
  lemma DoEmitRefused(cs: ClassState, sp: Splitter, spanErase: bool, bp: int, sink: Sink)
    ensures var r := DoEmit(cs, sp, spanErase, bp, sink);
      !r.ok ==> |r.st.out| > |sp.out| && !sink(r.st.out[..|r.st.out| - 1], r.st.out[|r.st.out| - 1])
  {
    DoEmitFirstRefused(cs, sp, spanErase, bp, sink);
  }

  /** The span half of `doemit` returns true exactly when what it delivered was accepted. */
  lemma SpanEmitAccepted(cs: ClassState, sp: Splitter, spanErase: bool, bp: int, sink: Sink)
    ensures var e := SpanEmit(cs, sp, spanErase, bp, sink);
      e.ok <==> AcceptedFrom(sink, e.st.out, |sp.out|)
  {
    if !sp.queryMode || spanErase {
      EmitTermAccepted(cs, sp, sp.span, sp.spanPos, bp - ByteLen(sp.span), bp, sink);
    }
  }

  /** The word half of `doemit` returns true exactly when what it delivered was accepted. */
  lemma WordEmitAccepted(cs: ClassState, s1: Splitter, bp: int, sink: Sink)
    ensures var e := WordEmit(cs, s1, bp, sink);
      e.ok <==> AcceptedFrom(sink, e.st.out, |s1.out|)
  {
    if ByteLen(s1.word) != ByteLen(s1.span) && !s1.queryMode {
      EmitTermAccepted(cs, s1, s1.word, s1.wordPos, bp - ByteLen(s1.word), bp, sink);
    }
  }

  /** `doemit` returns true exactly when every term it delivered was accepted. */
  lemma DoEmitAccepted(cs: ClassState, sp: Splitter, spanErase: bool, bp: int, sink: Sink)
    ensures var r := DoEmit(cs, sp, spanErase, bp, sink);
      r.ok <==> AcceptedFrom(sink, r.st.out, |sp.out|)
  {
    var e1 := SpanEmit(cs, sp, spanErase, bp, sink);
    var s1 := e1.st.(span := e1.text);
    SpanEmitAccepted(cs, sp, spanErase, bp, sink);
    if e1.ok {
      var e2 := WordEmit(cs, s1, bp, sink);
      WordEmitAccepted(cs, s1, bp, sink);
      AcceptedSplit(sink, s1.out, e2.st.out, |sp.out|);
      assert DoEmit(cs, sp, spanErase, bp, sink).ok == e2.ok;
      assert DoEmit(cs, sp, spanErase, bp, sink).st.out == e2.st.out;
    } else {
      assert DoEmit(cs, sp, spanErase, bp, sink) == Outcome(false, s1);
    }
  }

  /**
   * The term list ends at the first refused term: there is one more term
   * than the `n` already there, every term from `n` up to the last was
   * accepted, and the last was refused.
   */
  ghost predicate RefusedLast(sink: Sink, out: seq<Term>, n: nat)
  {
    && |out| > n
    && AcceptedFrom(sink, out[..|out| - 1], n)
    && !sink(out[..|out| - 1], out[|out| - 1])
  }

  /** Accepted terms in front of a refusal keep the refusal last. */
  lemma RefusedLastExtend(sink: Sink, a: seq<Term>, out: seq<Term>, n: nat)
    requires n <= |a| && a <= out
    requires AcceptedFrom(sink, a, n) && RefusedLast(sink, out, |a|)
    ensures RefusedLast(sink, out, n)
  {
    var m := |out| - 1;
    forall k | n <= k < |a|
      ensures sink(out[..m][..k], out[..m][k])
    {
      assert out[..m][..k] == a[..k];
    }
  }

  /** A failed emit delivered one term, the refused one. */
  lemma EmitFirstRefused(cs: ClassState, sp: Splitter, w: seq<CodePoint>, pos: int, btstart: int, bp: int, sink: Sink)
    ensures var e := EmitTerm(cs, sp, w, pos, btstart, bp, sink);
      !e.ok ==> RefusedLast(sink, e.st.out, |sp.out|)
  {
    var e := EmitTerm(cs, sp, w, pos, btstart, bp, sink);
    EmitRefused(cs, sp, w, pos, btstart, bp, sink);
    if !e.ok {
      var t :| e.st.out == sp.out + [t] && !sink(sp.out, t);
      assert (sp.out + [t])[..|sp.out|] == sp.out;
    }
  }

  /** The span half of `doemit`, when it fails, ends at the refused term. */
  lemma SpanEmitRefused(cs: ClassState, sp: Splitter, spanErase: bool, bp: int, sink: Sink)
    ensures var e := SpanEmit(cs, sp, spanErase, bp, sink);
      !e.ok ==> RefusedLast(sink, e.st.out, |sp.out|)
  {
    if !sp.queryMode || spanErase {
      EmitFirstRefused(cs, sp, sp.span, sp.spanPos, bp - ByteLen(sp.span), bp, sink);
    }
  }

  /** The word half of `doemit`, when it fails, ends at the refused term. */
  lemma WordEmitRefused(cs: ClassState, s1: Splitter, bp: int, sink: Sink)
    ensures var e := WordEmit(cs, s1, bp, sink);
      !e.ok ==> RefusedLast(sink, e.st.out, |s1.out|)
  {
    if ByteLen(s1.word) != ByteLen(s1.span) && !s1.queryMode {
      EmitFirstRefused(cs, s1, s1.word, s1.wordPos, bp - ByteLen(s1.word), bp, sink);
    }
  }

  /** A failed `doemit` stops at the first term the sink refused: that term is the last one delivered. */
  lemma DoEmitFirstRefused(cs: ClassState, sp: Splitter, spanErase: bool, bp: int, sink: Sink)
    ensures var r := DoEmit(cs, sp, spanErase, bp, sink);
      !r.ok ==> RefusedLast(sink, r.st.out, |sp.out|)
  {
    var e1 := SpanEmit(cs, sp, spanErase, bp, sink);
    var s1 := e1.st.(span := e1.text);
    SpanEmitRefused(cs, sp, spanErase, bp, sink);
    SpanEmitAccepted(cs, sp, spanErase, bp, sink);
    if e1.ok {
      var e2 := WordEmit(cs, s1, bp, sink);
      WordEmitRefused(cs, s1, bp, sink);
      if !e2.ok {
        assert DoEmit(cs, sp, spanErase, bp, sink).st.out == e2.st.out;
        RefusedLastExtend(sink, s1.out, e2.st.out, |sp.out|);
      }
    } else {
      assert DoEmit(cs, sp, spanErase, bp, sink).st.out == e1.st.out;
    }
  }

  /** The span half of `doemit` keeps the delivered-term facts. */
  lemma SpanEmitOut(cs: ClassState, sp: Splitter, spanErase: bool, bp: int, sink: Sink, init: (seq<CodePoint>, int))
    requires OutOk(cs, sp, bp, init) && AccOk(cs, sp, bp)
    ensures var e1 := SpanEmit(cs, sp, spanErase, bp, sink);
      OutOk(cs, e1.st.(span := e1.text), bp, init)
  {
    var e1 := SpanEmit(cs, sp, spanErase, bp, sink);
    if !sp.queryMode || spanErase {
      EmitTermOut(cs, sp, sp.span, sp.spanPos, bp, sink, init);
    }
    OutOkFrame(cs, e1.st, e1.st.(span := e1.text), bp, bp, init);
  }

  /** The word half of `doemit` keeps the delivered-term facts. */
  lemma WordEmitOut(cs: ClassState, s1: Splitter, bp: int, sink: Sink, init: (seq<CodePoint>, int))
    requires OutOk(cs, s1, bp, init)
    requires AllJoinable(cs, s1.word) && ByteLen(s1.word) <= bp && 0 <= s1.wordPos
    ensures OutOk(cs, WordEmit(cs, s1, bp, sink).st, bp, init)
  {
    if ByteLen(s1.word) != ByteLen(s1.span) && !s1.queryMode {
      EmitTermOut(cs, s1, s1.word, s1.wordPos, bp, sink, init);
    }
  }

  /** `doemit` keeps the delivered-term facts. */
  lemma DoEmitOut(cs: ClassState, sp: Splitter, spanErase: bool, bp: int, sink: Sink, init: (seq<CodePoint>, int))
    requires OutOk(cs, sp, bp, init) && AccOk(cs, sp, bp)
    ensures OutOk(cs, DoEmit(cs, sp, spanErase, bp, sink).st, bp, init)
  {
    var e1 := SpanEmit(cs, sp, spanErase, bp, sink);
    var s1 := e1.st.(span := e1.text);
    SpanEmitOut(cs, sp, spanErase, bp, sink, init);
    if e1.ok {
      var e2 := WordEmit(cs, s1, bp, sink);
      WordEmitOut(cs, s1, bp, sink, init);
      OutOkFrame(cs, e2.st, DoEmit(cs, sp, spanErase, bp, sink).st, bp, bp, init);
    }
  }

  /** On success `doemit` leaves the accumulator facts in place: the span only shrinks. */
  lemma DoEmitAcc(cs: ClassState, sp: Splitter, spanErase: bool, bp: int, sink: Sink)
    requires AccOk(cs, sp, bp)
    ensures var r := DoEmit(cs, sp, spanErase, bp, sink);
      r.ok ==> AccOk(cs, r.st, bp)
  {
    var e1 := SpanEmit(cs, sp, spanErase, bp, sink);
    var n := |e1.text|;
    assert n <= |sp.span| && e1.text == sp.span[..n];
    ByteLenPrefix(sp.span, n);
    AllJoinablePrefix(cs, sp.span, n);
  }

  // ---------------------------------------------------------------------------
  // The loop body

  /** A quote with no word open is ignored. */
  lemma QuoteRule(cs: ClassState, sp: Splitter, input: seq<CodePoint>, i: nat, sink: Sink)
    requires i < |input| && WhatCC(cs, input[i]) == Self('\'') && |sp.word| == 0
    ensures Step(cs, sp, input, i, sink) == Outcome(true, sp)
  {
  }

  /**
   * '#' joins word and span only after a non-empty word and before SPACE or
   * a line break ("c#", "f#"); anywhere else it acts as SPACE.
   */
  lemma HashRule(cs: ClassState, sp: Splitter, input: seq<CodePoint>, i: nat, sink: Sink)
    requires i < |input| && WhatCC(cs, input[i]) == Self('#')
    ensures var r := Step(cs, sp, input, i, sink);
      if |sp.word| > 0 && NextClass(cs, input, i) in {Space, Self('\n'), Self('\r')}
      then r == Outcome(true, AppendBoth(sp, input[i]))
      else r == SpaceStep(cs, sp, ByteLen(input[..i]), sink)
  {
    assert Decide(cs, sp, input, i) ==
      if |sp.word| > 0 && NextClass(cs, input, i) in {Space, Self('\n'), Self('\r')} then Both else SpaceBreak;
  }

  /** A line break right after a span ending in '-' is swallowed (a word hyphenated across lines); otherwise it is SPACE. */
  lemma LineBreakRule(cs: ClassState, sp: Splitter, input: seq<CodePoint>, i: nat, sink: Sink)
    requires i < |input| && WhatCC(cs, input[i]) in {Self('\n'), Self('\r')}
    ensures var r := Step(cs, sp, input, i, sink);
      if |sp.span| > 0 && sp.span[|sp.span| - 1] == MINUS
      then r == Outcome(true, sp)
      else r == SpaceStep(cs, sp, ByteLen(input[..i]), sink)
  {
    assert Decide(cs, sp, input, i) == if |sp.span| > 0 && sp.span[|sp.span| - 1] == MINUS then Skip else SpaceBreak;
  }

  /** A sign with no word open starts a number only before a digit; otherwise it only joins the span. */
  lemma SignRule(cs: ClassState, sp: Splitter, input: seq<CodePoint>, i: nat, sink: Sink)
    requires i < |input| && WhatCC(cs, input[i]) in {Self('-'), Self('+')} && |sp.word| == 0
    ensures var r := Step(cs, sp, input, i, sink);
      && r.ok
      && (r.st.number <==> NextClass(cs, input, i) == Digit || sp.number)
      && r.st.span == sp.span + [input[i]]
      && r.st.word == (if NextClass(cs, input, i) == Digit then [input[i]] else [])
  {
  }

  /** In number mode '.' and ',' join both accumulators ("3.14", "1,000"). */
  lemma NumberPunctRule(cs: ClassState, sp: Splitter, input: seq<CodePoint>, i: nat, sink: Sink)
    requires i < |input| && WhatCC(cs, input[i]) in {Self('.'), Self(',')} && sp.number
    ensures Step(cs, sp, input, i, sink) == Outcome(true, AppendBoth(sp, input[i]))
  {
  }

  /** Letters and digits always join both accumulators and never call the sink. */
  lemma AlnumRule(cs: ClassState, sp: Splitter, input: seq<CodePoint>, i: nat, sink: Sink)
    requires i < |input| && IsAlnumClass(WhatCC(cs, input[i]))
    ensures var r := Step(cs, sp, input, i, sink);
      r.ok && r.st.word == sp.word + [input[i]] && r.st.span == sp.span + [input[i]] && r.st.out == sp.out
  {
  }

  /** Appending a joinable code point keeps the accumulator facts one code point further on. */
  lemma AppendAcc(cs: ClassState, sp: Splitter, c: CodePoint, bp: int, both: bool)
    requires AccOk(cs, sp, bp) && Joinable(cs, c)
    ensures var s := if both then AppendBoth(sp, c) else sp.(span := sp.span + [c]);
      AccOk(cs, s, bp + Utf8Len(c))
  {
    ByteLenAppend(sp.span, c);
    ByteLenAppend(sp.word, c);
    AllJoinableAppend(cs, sp.span, c);
    AllJoinableAppend(cs, sp.word, c);
  }

  lemma SpaceStepOut(cs: ClassState, sp: Splitter, bp: int, sink: Sink, init: (seq<CodePoint>, int))
    requires OutOk(cs, sp, bp, init) && AccOk(cs, sp, bp)
    ensures OutOk(cs, SpaceStep(cs, sp, bp, sink).st, bp, init)
  {
    if |sp.word| > 0 || |sp.span| > 0 {
      DoEmitOut(cs, sp, true, bp, sink, init);
      var o := DoEmit(cs, sp, true, bp, sink);
      OutOkFrame(cs, o.st, o.st.(number := false), bp, bp, init);
    }
  }

  lemma SpaceStepAcc(cs: ClassState, sp: Splitter, bp: int, sink: Sink)
    requires AccOk(cs, sp, bp)
    ensures var r := SpaceStep(cs, sp, bp, sink);
      r.ok ==> AccOk(cs, r.st, bp)
  {
    if |sp.word| > 0 || |sp.span| > 0 {
      DoEmitAcc(cs, sp, true, bp, sink);
    }
  }

  lemma BreakWordOut(cs: ClassState, sp: Splitter, c: CodePoint, bp: int, bp': int, sink: Sink, init: (seq<CodePoint>, int))
    requires OutOk(cs, sp, bp, init) && AccOk(cs, sp, bp) && bp <= bp'
    ensures OutOk(cs, BreakWord(cs, sp, c, bp, sink).st, bp', init)
  {
    DoEmitOut(cs, sp, false, bp, sink, init);
    var o := DoEmit(cs, sp, false, bp, sink);
    OutOkFrame(cs, o.st, BreakWord(cs, sp, c, bp, sink).st, bp, bp', init);
  }

  lemma BreakWordAcc(cs: ClassState, sp: Splitter, c: CodePoint, bp: int, sink: Sink)
    requires AccOk(cs, sp, bp) && Joinable(cs, c)
    ensures var r := BreakWord(cs, sp, c, bp, sink);
      r.ok ==> AccOk(cs, r.st, bp + Utf8Len(c))
  {
    DoEmitAcc(cs, sp, false, bp, sink);
    var o := DoEmit(cs, sp, false, bp, sink);
    if o.ok {
      AppendAcc(cs, o.st.(number := false), c, bp, false);
    }
  }

  lemma SpaceStepAccepted(cs: ClassState, sp: Splitter, bp: int, sink: Sink)
    ensures var r := SpaceStep(cs, sp, bp, sink);
      r.ok <==> AcceptedFrom(sink, r.st.out, |sp.out|)
  {
    DoEmitAccepted(cs, sp, true, bp, sink);
  }

  lemma BreakWordAccepted(cs: ClassState, sp: Splitter, c: CodePoint, bp: int, sink: Sink)
    ensures var r := BreakWord(cs, sp, c, bp, sink);
      r.ok <==> AcceptedFrom(sink, r.st.out, |sp.out|)
  {
    DoEmitAccepted(cs, sp, false, bp, sink);
  }

  /** Carrying out an action returns true exactly when every term it delivered was accepted. */
  lemma ApplyAccepted(cs: ClassState, sp: Splitter, a: Action, c: CodePoint, bp: int, sink: Sink)
    ensures var r := Apply(cs, sp, a, c, bp, sink);
      r.ok <==> AcceptedFrom(sink, r.st.out, |sp.out|)
  {
    match a
    case SpaceBreak => SpaceStepAccepted(cs, sp, bp, sink);
    case WordBreak => BreakWordAccepted(cs, sp, c, bp, sink);
    case DotBreak => DoEmitAccepted(cs, sp, false, bp, sink);
    case _ =>
  }

  /** A loop body returns true exactly when every term it delivered was accepted. */
  lemma StepAccepted(cs: ClassState, sp: Splitter, input: seq<CodePoint>, i: nat, sink: Sink)
    requires i < |input|
    ensures var r := Step(cs, sp, input, i, sink);
      r.ok <==> AcceptedFrom(sink, r.st.out, |sp.out|)
  {
    ApplyAccepted(cs, sp, Decide(cs, sp, input, i), input[i], ByteLen(input[..i]), sink);
  }

  /** Carrying out an action keeps the delivered-term facts, up to the end of the code point. */
  lemma ApplyOut(cs: ClassState, sp: Splitter, a: Action, c: CodePoint, bp: int, bp': int, sink: Sink,
                 init: (seq<CodePoint>, int))
    requires OutOk(cs, sp, bp, init) && AccOk(cs, sp, bp) && bp <= bp'
    ensures OutOk(cs, Apply(cs, sp, a, c, bp, sink).st, bp', init)
  {
    var r := Apply(cs, sp, a, c, bp, sink);
    match a
    case SpaceBreak =>
      SpaceStepOut(cs, sp, bp, sink, init);
      OutOkFrame(cs, r.st, r.st, bp, bp', init);
    case WordBreak =>
      BreakWordOut(cs, sp, c, bp, bp', sink, init);
    case DotBreak =>
      DoEmitOut(cs, sp, false, bp, sink, init);
      OutOkFrame(cs, DoEmit(cs, sp, false, bp, sink).st, r.st, bp, bp', init);
    case _ =>
      OutOkFrame(cs, sp, r.st, bp, bp', init);
  }

  /** One loop body keeps the delivered-term facts one code point further on. */
  lemma StepOut(cs: ClassState, sp: Splitter, input: seq<CodePoint>, i: nat, sink: Sink, init: (seq<CodePoint>, int))
    requires i < |input|
    requires OutOk(cs, sp, ByteLen(input[..i]), init) && AccOk(cs, sp, ByteLen(input[..i]))
    ensures OutOk(cs, Step(cs, sp, input, i, sink).st, ByteLen(input[..i + 1]), init)
  {
    assert input[..i + 1] == input[..i] + [input[i]];
    ByteLenAppend(input[..i], input[i]);
    ApplyOut(cs, sp, Decide(cs, sp, input, i), input[i], ByteLen(input[..i]), ByteLen(input[..i + 1]), sink, init);
  }

  /** Every action that keeps the character keeps a joinable one. */
  lemma DecideJoinable(cs: ClassState, sp: Splitter, input: seq<CodePoint>, i: nat)
    requires i < |input|
    ensures Decide(cs, sp, input, i) !in {Skip, SpaceBreak} ==> Joinable(cs, input[i])
  {
  }

  /** Carrying out an action on a joinable character keeps the accumulator facts. */
  lemma ApplyAcc(cs: ClassState, sp: Splitter, a: Action, c: CodePoint, bp: int, sink: Sink)
    requires AccOk(cs, sp, bp)
    requires a !in {Skip, SpaceBreak} ==> Joinable(cs, c)
    ensures var r := Apply(cs, sp, a, c, bp, sink);
      r.ok ==> AccOk(cs, r.st, bp + Utf8Len(c))
  {
    match a
    case Skip =>
    case Both => AppendAcc(cs, sp, c, bp, true);
    case DigitBoth => AppendAcc(cs, sp, c, bp, true);
    case SignNumber => AppendAcc(cs, sp, c, bp, true);
    case SpanOnly => AppendAcc(cs, sp, c, bp, false);
    case SpaceBreak => SpaceStepAcc(cs, sp, bp, sink);
    case WordBreak => BreakWordAcc(cs, sp, c, bp, sink);
    case DotBreak => DotBreakAcc(cs, sp, c, bp, sink);
  }

  /** A '.' after a word keeps the accumulator facts: emit the word, then extend the span. */
  lemma DotBreakAcc(cs: ClassState, sp: Splitter, c: CodePoint, bp: int, sink: Sink)
    requires AccOk(cs, sp, bp) && Joinable(cs, c)
    ensures var r := Apply(cs, sp, DotBreak, c, bp, sink);
      r.ok ==> AccOk(cs, r.st, bp + Utf8Len(c))
  {
    DoEmitAcc(cs, sp, false, bp, sink);
    var o := DoEmit(cs, sp, false, bp, sink);
    if o.ok {
      AppendAcc(cs, o.st, c, bp, false);
    }
  }

  /** One loop body keeps the accumulator facts one code point further on. */
  lemma StepAcc(cs: ClassState, sp: Splitter, input: seq<CodePoint>, i: nat, sink: Sink)
    requires i < |input|
    requires AccOk(cs, sp, ByteLen(input[..i]))
    ensures var r := Step(cs, sp, input, i, sink);
      r.ok ==> AccOk(cs, r.st, ByteLen(input[..i + 1]))
  {
    assert input[..i + 1] == input[..i] + [input[i]];
    ByteLenAppend(input[..i], input[i]);
    DecideJoinable(cs, sp, input, i);
    ApplyAcc(cs, sp, Decide(cs, sp, input, i), input[i], ByteLen(input[..i]), sink);
  }

  /** The loop from position `i` returns true exactly on valid input and acceptance of every term. */
  lemma {:induction false} RunAccepted(cs: ClassState, sp: Splitter, input: seq<CodePoint>, i: nat, sink: Sink)
    requires i <= |input|
    ensures var r := Run(cs, sp, input, i, sink);
      r.ok <==> INVALID !in input[i..] && AcceptedFrom(sink, r.st.out, |sp.out|)
    decreases |input| - i
  {
    if i == |input| {
      if |sp.word| > 0 || |sp.span| > 0 {
        DoEmitAccepted(cs, sp, true, ByteLen(input), sink);
      }
    } else if input[i] == INVALID {
      assert input[i..][0] == INVALID;
    } else {
      StepAccepted(cs, sp, input, i, sink);
      var o := Step(cs, sp, input, i, sink);
      assert input[i..] == [input[i]] + input[i + 1..];
      if o.ok {
        RunAccepted(cs, o.st, input, i + 1, sink);
        AcceptedSplit(sink, o.st.out, Run(cs, o.st, input, i + 1, sink).st.out, |sp.out|);
      }
    }
  }

  /** The loop from position `i` keeps the delivered-term facts up to the end of the input. */
  lemma {:induction false} RunOut(cs: ClassState, sp: Splitter, input: seq<CodePoint>, i: nat, sink: Sink,
                                  init: (seq<CodePoint>, int))
    requires i <= |input|
    requires OutOk(cs, sp, ByteLen(input[..i]), init) && AccOk(cs, sp, ByteLen(input[..i]))
    ensures OutOk(cs, Run(cs, sp, input, i, sink).st, ByteLen(input), init)
    decreases |input| - i
  {
    ByteLenPrefix(input, i);
    if i == |input| {
      assert input[..i] == input;
      if |sp.word| > 0 || |sp.span| > 0 {
        DoEmitOut(cs, sp, true, ByteLen(input), sink, init);
      }
    } else if input[i] == INVALID {
      OutOkFrame(cs, sp, sp, ByteLen(input[..i]), ByteLen(input), init);
    } else {
      StepOut(cs, sp, input, i, sink, init);
      var o := Step(cs, sp, input, i, sink);
      ByteLenPrefix(input, i + 1);
      if o.ok {
        StepAcc(cs, sp, input, i, sink);
        RunOut(cs, o.st, input, i + 1, sink, init);
      } else {
        OutOkFrame(cs, o.st, o.st, ByteLen(input[..i + 1]), ByteLen(input), init);
      }
    }
  }

  /** A failed action stops at the first refused term. */
  lemma ApplyRefused(cs: ClassState, sp: Splitter, a: Action, c: CodePoint, bp: int, sink: Sink)
    ensures var r := Apply(cs, sp, a, c, bp, sink);
      !r.ok ==> RefusedLast(sink, r.st.out, |sp.out|)
  {
    var r := Apply(cs, sp, a, c, bp, sink);
    match a
    case SpaceBreak =>
      if |sp.word| > 0 || |sp.span| > 0 {
        DoEmitFirstRefused(cs, sp, true, bp, sink);
        if !r.ok {
          assert r == DoEmit(cs, sp, true, bp, sink);
        }
      }
    case WordBreak =>
      DoEmitFirstRefused(cs, sp, false, bp, sink);
      if !r.ok {
        assert r == DoEmit(cs, sp, false, bp, sink);
      }
    case DotBreak =>
      DoEmitFirstRefused(cs, sp, false, bp, sink);
      if !r.ok {
        assert r == DoEmit(cs, sp, false, bp, sink);
      }
    case _ =>
  }

  /**
   * The loop from position `i`, on input with no error value ahead, fails
   * only at a refused term, and delivers nothing after it.
   */
  lemma {:induction false} RunRefused(cs: ClassState, sp: Splitter, input: seq<CodePoint>, i: nat, sink: Sink)
    requires i <= |input|
    ensures var r := Run(cs, sp, input, i, sink);
      !r.ok && INVALID !in input[i..] ==> RefusedLast(sink, r.st.out, |sp.out|)
    decreases |input| - i
  {
    if i == |input| {
      if |sp.word| > 0 || |sp.span| > 0 {
        DoEmitFirstRefused(cs, sp, true, ByteLen(input), sink);
      }
    } else if input[i] == INVALID {
      assert input[i..][0] == INVALID;
    } else {
      var o := Step(cs, sp, input, i, sink);
      ApplyRefused(cs, sp, Decide(cs, sp, input, i), input[i], ByteLen(input[..i]), sink);
      assert input[i..] == [input[i]] + input[i + 1..];
      if o.ok {
        StepAccepted(cs, sp, input, i, sink);
        RunRefused(cs, o.st, input, i + 1, sink);
        var r := Run(cs, o.st, input, i + 1, sink);
        if !r.ok && INVALID !in input[i..] {
          RefusedLastExtend(sink, o.st.out, r.st.out, |sp.out|);
        }
      }
    }
  }

  /** A loop body reads only its own code point, the next one and the bytes before it. */
  lemma StepPrefix(cs: ClassState, sp: Splitter, input: seq<CodePoint>, n: nat, i: nat, sink: Sink)
    requires i + 1 < n <= |input|
    ensures Step(cs, sp, input[..n], i, sink) == Step(cs, sp, input, i, sink)
  {
    assert input[..n][i] == input[i];
    assert input[..n][..i] == input[..i];
    assert NextClass(cs, input[..n], i) == NextClass(cs, input, i);
    assert Decide(cs, sp, input[..n], i) == Decide(cs, sp, input, i);
  }

  /**
   * The loop stops at an error value: whatever follows position `j` plays no
   * part, so no term is delivered from beyond it.
   */
  lemma {:induction false} RunStopsAtError(cs: ClassState, sp: Splitter, input: seq<CodePoint>, i: nat, j: nat, sink: Sink)
    requires i <= j < |input| && input[j] == INVALID
    ensures Run(cs, sp, input, i, sink) == Run(cs, sp, input[..j + 1], i, sink)
    decreases j - i
  {
    var cut := input[..j + 1];
    assert cut[i] == input[i] && i < |cut|;
    if input[i] != INVALID {
      StepPrefix(cs, sp, input, j + 1, i, sink);
      var o := Step(cs, sp, input, i, sink);
      if o.ok {
        RunStopsAtError(cs, o.st, input, i + 1, j, sink);
        assert Run(cs, sp, cut, i, sink) == Run(cs, o.st, cut, i + 1, sink);
        assert Run(cs, sp, input, i, sink) == Run(cs, o.st, input, i + 1, sink);
      } else {
        assert Run(cs, sp, cut, i, sink) == o;
        assert Run(cs, sp, input, i, sink) == o;
      }
    } else {
      assert Run(cs, sp, cut, i, sink) == Outcome(false, sp);
    }
  }

  /**
   * The contract of `text_to_words`: it returns true exactly when no code
   * point is the iterator's error value and the sink accepted every term;
   * every delivered term is well formed, has a position between 0 and the
   * final word position and a byte end within the input; and no term repeats
   * (text and position) the one delivered just before it, the first one
   * included, which is compared with the term remembered from the previous
   * split. The split stops at the first refused term, which is the last one
   * delivered, and at the first error value: the input after it plays no
   * part.
   */
  lemma TextToWordsSpec(cs: ClassState, uniign: set<CodePoint>, sp: Splitter, input: seq<CodePoint>, sink: Sink)
    ensures var r := TextToWords(cs, uniign, sp, input, sink);
      && (r.ok <==> INVALID !in input && AcceptedFrom(sink, r.st.out, 0))
      && (forall k | 0 <= k < |r.st.out| ::
            && WellFormed(r.classes, WordLimit(sp.maxWordLength), r.st.out[k])
            && 0 <= r.st.out[k].pos <= r.st.wordPos
            && r.st.out[k].byteEnd <= ByteLen(input))
      && NoRepeat((sp.prevTerm, sp.prevPos), r.st.out)
      && (!r.ok && INVALID !in input ==> RefusedLast(sink, r.st.out, 0))
      && (forall j | 0 <= j < |input| && input[j] == INVALID :: r == TextToWords(cs, uniign, sp, input[..j + 1], sink))
  {
    var classes := SetCharClasses(cs, uniign);
    var s0 := sp.(word := [], span := [], number := false, wordPos := 0, spanPos := 0, out := []);
    var init := (sp.prevTerm, sp.prevPos);
    assert input[..0] == [];
    assert input[0..] == input;
    RunAccepted(classes, s0, input, 0, sink);
    RunOut(classes, s0, input, 0, sink, init);
    RunRefused(classes, s0, input, 0, sink);
    var r := Run(classes, s0, input, 0, sink);
    forall j | 0 <= j < |input| && input[j] == INVALID
      ensures TextToWords(cs, uniign, sp, input, sink) == TextToWords(cs, uniign, sp, input[..j + 1], sink)
    {
      RunStopsAtError(classes, s0, input, 0, j, sink);
    }
    forall k | 0 <= k < |r.st.out|
      ensures && WellFormed(classes, WordLimit(sp.maxWordLength), r.st.out[k])
              && 0 <= r.st.out[k].pos <= r.st.wordPos
              && r.st.out[k].byteEnd <= ByteLen(input)
    {
      assert TermOk(classes, WordLimit(sp.maxWordLength), r.st.wordPos, ByteLen(input), r.st.out[k]);
    }
  }
}
